=== FILE: README.md ===
# K9 Jets / Bark Air flight scraper — a Dafny model

The system watches two pet-friendly charter airlines and reads their flight
listings:

- **K9 Jets.** Its routes page is read over plain HTTP. The departure
  `<select>` gives the origins. Each origin's card page is posted for, and its
  `<article>` cards are read. Each card's booking page refines the price and
  the seats.
- **Bark Air.** Every ordered pair of ten cities is searched.

Listings are deduplicated and written to a database. The database has a
`flights` table, upserted on competitor, origin, destination and date, and a
`flight_snapshots` table that is only appended to. An analysis script
normalises airport names and computes each competitor's network balance:
arrivals, departures and net flow per airport. A diagnostic script compares
price cleaning before and after character references are unescaped.

The model has these modules:

| module | what it covers |
|---|---|
| `Strings` | whitespace stripping, lower-casing, substring search, splitting and joining |
| `Clean` | the price cleaner and the seats reader |
| `Route` | the route splitter |
| `Markup` | tag removal, the class-attribute capture patterns, the `<select>` reader and reference unescaping |
| `Cards` | the listing cards and the booking page |
| `Collect` | the HTTP collection loop |
| `Selection` | Bark Air's route list and record, the scroll loop, and the choice between scrapers |
| `Persist` | the dedup and the save loop, over a `Store` class standing for the database |
| `Network` | airport normalisation and the balance sheet |
| `DebugPrice`, `BdiPrice`, `DollarPrice` | the three parts of the price diagnostic |

Network access, the browser, the database client and the date parser are
parameters. The HTTP client is a `post` function from origin id to the
articles of the answer, and a `fetch` function from URL to the booking page's
elements. Whether the database echoes a row back is an `echo` function of the
row's position. The date and time parsers are `parseDate` and `parseTime`.
The scroll loop's card count is a function of the round.

## Model

| member | source | states |
|---|---|---|
| Strings.Strip | scraper.py:131 | the result has no leading or trailing whitespace and is no longer than the input |
| Strings.StripFixesTrimmed | scraper.py:131 | stripping leaves a text unchanged exactly when it has no outer whitespace |
| Strings.StripIdempotent | scraper.py:131 | stripping twice is stripping once |
| Strings.StripPadded | network_analysis.py:68 | whitespace around a trimmed, non-empty name is removed and the name kept |
| Strings.StripEmpty | scraper.py:131 | a text strips to empty exactly when it is all whitespace |
| Strings.SplitJoin | scraper.py:66 | joining the pieces of `str.split(sep)` with sep gives back the text |
| Strings.SplitPiecesFree | scraper.py:66 | no piece of `str.split(sep)` contains sep |
| Strings.IndexFrom | scraper.py:65 | the found index is the first occurrence at or after the start, and None means there is none |
| Strings.Lower | scraper.py:210 | lower-casing keeps the length and maps each character on its own |
| Strings.NatToStringValue | scraper.py:36 | the decimal numeral of n reads back as n |
| Clean.KeepPriceChars | scraper.py:26 | the substitution keeps only digits and dots, never lengthening the text |
| Clean.KeepPriceCharsAppend | scraper.py:26 | the substitution distributes over concatenation |
| Clean.KeepPriceCharsFixed | scraper.py:26 | a text is unchanged by the substitution exactly when it has only digits and dots |
| Clean.ParseDecimalNumeral | scraper.py:27-28 | float() of digits, or digits, a dot and digits (not a lone dot), is their decimal value |
| Clean.ParsedIsNumeral | scraper.py:27-30 | float() succeeds on digits and dots only when there is at most one dot and at least one digit |
| Clean.CleanPrice | scraper.py:24-30 | a cleaned price is never negative |
| Clean.CleanPriceSucceeds | scraper.py:24-30 | a price is read exactly when the text is non-empty and its digits and dots form a numeral |
| Clean.CleanPriceIgnoresNoise | scraper.py:26-28 | characters other than digits and dots in front of a numeral do not change its value |
| Clean.CleanPriceFormatted | scraper.py:24-30 | "$1,234.50" cleans to 1234.5 |
| Clean.CleanPriceRejects | scraper.py:27-30 | "." and "1.2.3" give no price |
| Clean.LeadingDigits | scraper.py:34 | the result is the longest run of digits the text starts with |
| Clean.FirstDigitRunEmpty | scraper.py:34-37 | the first run of digits is empty exactly when the text has no digit |
| Clean.FirstDigitRunSkips | scraper.py:34 | a prefix without digits does not change the first run of digits |
| Clean.CleanSeatsReadsCount | scraper.py:32-37 | the seats reader returns the first decimal number in the text |
| Clean.CleanSeatsNoDigit | scraper.py:33-37 | a text without digits reads as 0 seats |
| Clean.CleanSeatsExample | scraper.py:32-37 | "6 Seats Available" reads as 6 |
| Clean.CleanSeatsSoldOut | scraper.py:32-37 | "Sold Out" reads as 0 |
| Route.SplitRoute | scraper.py:40-72 | an empty route gives two empty names; otherwise both names are trimmed, and non-empty when the route is not blank |
| Route.SplitRouteAtMatch | scraper.py:58-61 | with a whitespace-surrounded "to", the route splits around its first occurrence |
| Route.SplitRouteNoMatch | scraper.py:63-72 | without such a "to", the separator rules decide |
| Route.SplitRouteTo | scraper.py:58-61 | "o to d" splits into o and d for place names o and d: names with no outer whitespace, no arrow or dash separator character, no hyphen after whitespace, and no "to" standing as a word of its own ("Toronto" and "Kailua-Kona" are place names) |
| Route.SplitRouteArrow | scraper.py:64-69 | "o -> d" splits into o and d for place names o and d |
| Route.SplitRouteDash | scraper.py:64-69 | "o - d" splits into o and d for place names o and d |
| Route.SplitRouteUnsplittable | scraper.py:71-72 | a lone place name comes back as both origin and destination |
| Route.ToInsideWordsKept | scraper.py:58-69 | "Toronto -> Boston" splits at the arrow, not inside "Toronto" |
| Route.ToInsideWordKeptAlone | scraper.py:58-72 | "Toronto" alone comes back as both names |
| Route.SplitBy | scraper.py:65-69 | a separator split succeeds only when the separator occurs, and then gives the first and last non-blank pieces, trimmed |
| Route.ArrowSeparatorSplits | scraper.py:64-69 | splitting "o -> d" on "->" gives o and d, for any o and d without outer whitespace, separator characters or a hyphen after whitespace (a "to" word does not matter here) |
| Route.DashSeparatorSplits | scraper.py:64-69 | splitting "o - d" on " - " gives o and d, for the same o and d |
| Route.FallbackDecides | scraper.py:72 | when no rule applies the stripped route is both names |
| Markup.RemoveTags | scraper.py:131 | the result has no tag left in it and is no longer than the input |
| Markup.RemoveTagsSpan | scraper.py:131 | the first tag is removed together with its content up to the first '>' |
| Markup.RemoveTagsFixed | scraper.py:131 | tag removal leaves a text unchanged exactly when it has no tag |
| Markup.StripHtml | scraper.py:129-131 | the result has no tag and no outer whitespace |
| Markup.StripHtmlIdempotent | scraper.py:129-131 | stripping markup twice is stripping it once |
| Markup.StripHtmlElement | scraper.py:129-131 | a single element strips to its trimmed text |
| Markup.CaptureBefore | scraper.py:89 | the lazy capture runs up to the first case-insensitive occurrence of the terminator, and there is none exactly when the terminator is absent |
| Markup.Search | scraper.py:192 | search returns the capture of the first element the pattern matches, and None exactly when no element matches |
| Markup.FindAll | scraper.py:94 | findall gives at most one capture per element |
| Markup.SearchLink | scraper.py:243-245 | the href of the first `<a>` the link pattern matches, which goes to a /flight/ page; None exactly when no element matches |
| Markup.Unescape | scraper.py:245 | unescaping never lengthens the text and gives empty text only for empty text |
| Markup.UnescapeAmp | scraper.py:245 | "&amp;" becomes "&", and the text after it is unescaped in turn |
| Markup.UnescapeDecimal | scraper.py:245 | a decimal reference "&#" + digits + ";" to a printable ASCII character becomes that character, and the text after it is unescaped in turn |
| Markup.UnescapeDecimalOpen | scraper.py:245 | the same reference without ';' becomes that character when no digit or ';' follows it |
| Markup.UnescapePlain | scraper.py:245 | text without '&' is not changed by unescaping |
| Markup.FindSelect | scraper.py:136-142 | a found `<select>` is a closed one with the name, in any case; None means no closed `<select>` has it |
| Markup.OptionEntry | scraper.py:145-154 | an option is kept exactly when its value strips to non-blank text and a "</option>" follows; it holds the stripped value and, as label, the stripped-markup text before the first "</option>" |
| Markup.OptionsOf | scraper.py:149-155 | at most one option per `<option>`, each with a non-blank, stripped value and a tag-free, stripped label |
| Markup.OptionsOfAppend | scraper.py:149-155 | the options of two runs of `<option>` tags are those of the first, then those of the second: with OptionsOfOne, the list is each tag's entry in document order |
| Markup.OptionsOfOne | scraper.py:149-154 | a single `<option>` contributes exactly its entry |
| Markup.ExtractSelectOptions | scraper.py:134-155 | the loop returns the options of the named `<select>`, in order, and nothing when it is missing |
| Cards.CardStock | scraper.py:205-219 | a card is sold out exactly when its stock text says so, and then has no seats; otherwise it keeps a positive seat count, or none |
| Cards.DetailStock | scraper.py:104-119 | the booking page is sold out exactly when it says so; seats are absent exactly when sold out or the text is empty, and are otherwise the count read |
| Cards.CardAndDetailDiffer | scraper.py:209-219 | for stock text without digits, the card has no seats but the booking page has 0 |
| Cards.CardAndDetailAgree | scraper.py:104-119 | both readings agree on the status, and on the seats whenever the card has a count |
| Cards.DepartureOf | scraper.py:237-239 | a departure time is only read from a heading containing the label, and comes back trimmed |
| Cards.DepartureReadsTime | scraper.py:237-239 | "Departure Time: v" gives v |
| Cards.ReadHeadings | scraper.py:228-239 | the heading loop gives the first operator and the first departure time found |
| Cards.ReadHeadingList | scraper.py:228-239 | the loop over parsed headings computes the fold that the first-wins lemmas describe |
| Cards.FirstOperatorWins | scraper.py:231-234 | the operator is the text after the colon in the first heading naming one |
| Cards.NoOperatorHeading | scraper.py:225-234 | without an operator heading the operator stays "Unknown" |
| Cards.FirstDepartureWins | scraper.py:235-239 | the departure time is the one in the first departure heading |
| Cards.CardOf | scraper.py:191-259 | a card is skipped exactly when it has no title or a blank one; a kept card is a K9 Jets listing with no price whose date is the stripped title, whose route is the route text or "Unknown Route", whose status and seats are the card stock rule on the stock text, whose operator and departure are the heading fold, and whose link is the unescaped booking link when there is one |
| Cards.ReadCard | scraper.py:191-259 | the card reader gives the listing the card describes |
| Cards.ListingsOf | scraper.py:158-261 | at most one listing per article, each a dated K9 Jets listing without a price, with no seats when sold out |
| Cards.ListingsOfAppend | scraper.py:158-261 | the listings of two runs of articles are those of the first, then those of the second: with ListingsOfOne, a page's listings are CardOf of its flight cards that are not skipped, in page order |
| Cards.ListingsOfOne | scraper.py:191-259 | one article gives its card exactly when it is a closed flight card that is not skipped |
| Cards.ExtractListings | scraper.py:158-261 | the article loop gives the listings of the cards that are kept, in order |
| Cards.Max | scraper.py:102 | the maximum is one of the values and no value exceeds it |
| Cards.BestPrice | scraper.py:92-102 | the page price is the largest of the prices that clean, and is absent exactly when none does |
| Cards.DetailPrice | scraper.py:92-102 | the candidate loop computes that largest price |
| Cards.DetailOf | scraper.py:86-126 | the booking page's price is the best candidate price, its status and seats are the page stock rule on the stock paragraph, and a sold-out page has no seats |
| Cards.ParseDetail | scraper.py:86-126 | the page reader gives that reading |
| Collect.Origins | scraper.py:620-626 | an option is an origin exactly when it has a value and its label does not say "flying from" |
| Collect.RepairRoute | scraper.py:657-660 | the repaired route always has a separator; a non-empty route that has one is kept as it is, one that has none is prefixed with the origin's label and " -> ", and an empty route becomes the origin's label, " -> " and "Unknown Route" |
| Collect.RepairedRouteSplits | scraper.py:657-660 | a repaired route splits into the origin's label and the card's route (or the unknown route) |
| Collect.Refine | scraper.py:662-675 | refinement changes only price, seats and status, never loses a price, keeps sold-out rows seatless, and changes nothing without a URL or page; with a page, seats and status are the page's and the price is the page's when it has one, else the card's |
| Collect.Merged | scraper.py:655-675 | one adjusted listing per card |
| Collect.MergedAt | scraper.py:655-675 | the k-th merged listing is the k-th card with its route repaired and refined from its page |
| Collect.KeyDetermines | scraper.py:677 | two listings whose dates hold no vertical bar share a key exactly when they share date and route |
| Collect.StreamCollected | scraper.py:634-675 | every collected listing is a dated K9 Jets listing with a separator in its route and no seats when sold out |
| Collect.FirstPerKey | scraper.py:677-681 | the kept listings are listings of the input with the same set of keys, no key twice |
| Collect.KeptIsFirst | scraper.py:677-681 | each kept listing is the first one in the input with its date and route |
| Collect.HttpListings | scraper.py:611-630 | a missing routes page, or one without origins, gives no listings |
| Collect.HttpListingsProperties | scraper.py:611-684 | the HTTP scraper's result is the first listing per key of the origin-by-origin stream, with every key present once |
| Collect.RefineListing | scraper.py:662-675 | the detail step gives the refined listing |
| Collect.AdjustListing | scraper.py:655-675 | the per-card step repairs the route, then refines |
| Collect.MergeOrigin | scraper.py:655-681 | the card loop extends the deduplicated list and its key set exactly as deduplicating the whole stream so far would |
| Collect.CollectHttp | scraper.py:583-684 | the scraper returns the deduplicated stream over all origins, and nothing when the routes page or its origins are missing |
| Selection.Slug | scraper.py:306 | the slug is the origin with each space as '+', then "+To+", then the destination with each space as '+' |
| Selection.PairsFromMembers | scraper.py:303-304 | the destinations searched from an origin are the other cities |
| Selection.OrderedPairsMembers | scraper.py:302-304 | the searched pairs are exactly the ordered pairs of distinct cities |
| Selection.OrderedPairsCount | scraper.py:302-304 | with distinct cities there are n·(n−1) searches |
| Selection.BarkSearchCount | scraper.py:294-304 | the ten cities give 90 searches |
| Selection.BarkRoutes | scraper.py:302-306 | the nested loop visits exactly those ordered pairs, in order |
| Selection.BarkRecord | scraper.py:320-343 | a card without a date is skipped; a record is a Bark Air listing by Gulfstream G5 with that date, route "origin -> dest", the price cleaned from the price text (or "0"), the seats read from the seats text (or "0"), sold out exactly when tagged, and priced unless the price text does not clean |
| Selection.BarkRouteSplits | scraper.py:338 | every Bark Air route splits back into its two cities |
| Selection.RoundsFrom | scraper.py:482-502 | the scroll loop runs at least one round and at most 50 |
| Selection.RoundsFromFirst | scraper.py:494-498 | the loop stops at the first round that settles, or after the last round |
| Selection.SettledMeans | scraper.py:494-500 | a round settles exactly when the count has been unchanged three rounds in a row |
| Selection.ScrollRounds | scraper.py:482-502 | the loop runs until the count has not changed for three rounds, or 50 rounds |
| Selection.ScrollSettles | scraper.py:494-500 | a constant non-zero count stops after four rounds, a constant zero after three |
| Selection.ScrollGrowing | scraper.py:484-486 | a count that always grows uses all 50 rounds |
| Selection.HybridListings | scraper.py:571-580 | the AJAX result is used exactly when it has more than 100 listings; otherwise the fallback's result is used |
| Selection.MainListings | scraper.py:758-763 | the saved data is Bark Air's listings followed by the HTTP result, or by the hybrid's when the HTTP result is empty |
| Persist.SignatureDetermines | scraper.py:691 | two listings whose competitor and route hold no "_" share a signature exactly when they share competitor, route and date |
| Persist.Order | scraper.py:689-694 | the signature order lists every signature once |
| Persist.Table | scraper.py:689-692 | the dictionary has one entry per signature, holding a listing with that signature |
| Persist.Unique | scraper.py:689-694 | the deduplicated data has the same signatures, each once, in first-appearance order |
| Persist.LastWith | scraper.py:692 | the index is that of the last listing with the signature |
| Persist.TableIsLast | scraper.py:690-692 | each dictionary entry is the last listing with its signature |
| Persist.KeptIsLast | scraper.py:689-694 | each kept listing is the last one with its signature |
| Persist.LastIsKept | scraper.py:689-694 | a listing no later listing shares a signature with is kept |
| Persist.UniqueIsLast | scraper.py:689-694 | the kept listings are exactly the last listing per signature |
| Persist.IndexBySignature | scraper.py:689-692 | the first dedup loop builds the dictionary by signature, a later listing replacing an earlier one, and the order in which signatures first appear |
| Persist.Deduplicate | scraper.py:689-694 | the dedup loop computes that deduplication |
| Persist.Upsert | scraper.py:732-734 | an upsert preserves the id invariants, adds only the row's key, keeps the id of an existing row, overwrites its time and operator, and leaves other rows and the snapshots alone |
| Persist.UpsertIdempotent | scraper.py:732-734 | upserting the same row twice is upserting it once |
| Persist.Store.constructor | scraper.py:732-751 | the store starts empty with valid ids |
| Persist.Store.UpsertFlight | scraper.py:732-737 | the store becomes the upsert of the row; the reply holds its id exactly when the row is echoed |
| Persist.Store.InsertSnapshot | scraper.py:745-751 | the snapshot is appended and nothing else changes |
| Persist.TimeOf | scraper.py:708-718 | a time is parsed only from a non-empty departure time |
| Persist.PayloadOf | scraper.py:698-730 | a listing yields a flight row exactly when its date parses, with its competitor, parsed date, split route and operator |
| Persist.StoredStatus | scraper.py:738-743 | a K9 Jets listing without seats is stored as sold out, as is any sold-out listing, and nothing else |
| Persist.SnapshotOf | scraper.py:745-750 | the snapshot carries the given flight id, the price and the seats, and is sold out for a seatless K9 Jets listing |
| Persist.SaveItem | scraper.py:698-751 | one save step appends at most one snapshot and never removes any |
| Persist.AbortedStays | scraper.py:736-746 | once the save loop fails for lack of an id, the rest of the data changes nothing |
| Persist.SaveToStore | scraper.py:686-751 | saving leaves the store in the state the save loop specifies, and reports whether it failed |
| Persist.SnapshotsOnlyGrow | scraper.py:745-751 | saving only appends snapshots, at most one per listing |
| Persist.SaveKeepsIds | scraper.py:732-737 | saving preserves the id invariants and never changes a stored flight's id |
| Persist.FixedSnapshotsMatchFlights | scraper.py:736-751 | with each row's own id, the new snapshots are one per listing with a parsed date, in order, each referencing that listing's flight |
| Persist.EchoedIsFixed | scraper.py:736-737 | when every row is echoed, the loop as written equals the corrected one |
| Persist.StaleFlightId | scraper.py:736-746 | as written, a second row that is not echoed gets a snapshot carrying the first row's flight id |
| Persist.MissingFirstIdAborts | scraper.py:736-746 | as written, a first row that is not echoed stores the flight and fails before any snapshot |
| Network.NormalizeAirport | network_analysis.py:62-75 | a name is rejected exactly when missing, empty or "0" once stripped; otherwise it is its table entry, or itself stripped |
| Network.UnmappedComesBackStripped | network_analysis.py:74-75 | a name the table does not know comes back stripped |
| Network.PaddingIgnored | network_analysis.py:68 | padding does not change a name's normal form |
| Network.KnownSpelling | network_analysis.py:75 | a known spelling gets its table entry |
| Network.VanNuysMerged | network_analysis.py:48-51 | the four Los Angeles spellings all become "Los Angeles (Van Nuys)" |
| Network.MappingSettled | network_analysis.py:16-60 | every name the table produces is trimmed, not "0", and mapped to itself |
| Network.NormalizeIdempotent | network_analysis.py:62-75 | normalising twice is normalising once, except for a blank name |
| Network.BlankNameKept | network_analysis.py:64-68 | a whitespace-only name is not rejected but becomes "", which a second pass rejects |
| Network.NormalizeNeverZero | network_analysis.py:70-75 | no name normalises to "0" |
| Network.FirstPerId | network_analysis.py:85 | the kept rows come from the input, with the same ids, each once |
| Network.FirstIdAt | network_analysis.py:85 | the index of the first row with an id: it carries the id and no earlier row does |
| Network.FirstPerIdSnoc | network_analysis.py:85 | a row is kept exactly when no earlier kept row has its id, and is then appended in order |
| Network.KeptIsFirstRow | network_analysis.py:85 | every kept row is the first row of the input carrying its id, as drop_duplicates(subset=['id']) keeps |
| Network.Legs | network_analysis.py:88-91 | at most one leg per row |
| Network.LegsOf | network_analysis.py:85-91 | a leg is kept exactly when some row gives it after both airports normalise |
| Network.GroupSizeCounts | network_analysis.py:94-95 | the group sizes are the number of occurrences of each key |
| Network.OutKeysCount | network_analysis.py:94 | the departures key count is the number of legs leaving the airport |
| Network.InKeysCount | network_analysis.py:95 | the arrivals key count is the number of legs reaching the airport |
| Network.Balance | network_analysis.py:84-120 | no invalid airport is on the sheet, and the net flow is arrivals minus departures |
| Network.BalanceCounts | network_analysis.py:94-118 | a competitor and airport are on the sheet exactly when the airport is valid and some leg touches it, with the direct counts of arrivals and departures |
| DebugPrice.Compare | debug_k9_price.py:59-62 | the report line holds the stripped capture, its unescaped text, and the price cleaned from each |
| DebugPrice.Report | debug_k9_price.py:58 | the report covers the first twenty captures, in order |
| DebugPrice.PlainCaptureAgrees | debug_k9_price.py:59-62 | without a character reference, both ways give the same price |
| DebugPrice.UnescapeDollar | debug_k9_price.py:60 | "&#36;" unescapes to "$", an instance of Markup.UnescapeDecimal |
| DebugPrice.ReferenceDigitsLeak | debug_k9_price.py:61 | cleaning without unescaping reads "&#36;" and an amount as 36 followed by the amount |
| DebugPrice.UnescapedReadsAmount | debug_k9_price.py:62 | cleaning after unescaping reads the amount itself |
| DebugPrice.CompareReference | debug_k9_price.py:59-62 | a capture "&#36;" plus an amount is wrong before unescaping and right after |
| DebugPrice.DollarReferenceExample | debug_k9_price.py:57-62 | "&#36;1000" cleans to 361000 stripped only, and to 1000 unescaped |
| DebugPrice.StripHtmlPlain | debug_k9_price.py:10-12 | text without tags or outer whitespace is not changed by stripping |
| BdiPrice.BdiCapture | debug_k9_price.py:49-52 | a capture comes only from a price-amount element and never contains "</bdi>" |
| BdiPrice.BdiCaptureSound | debug_k9_price.py:49-52 | every capture sits between a `<bdi>` tag that follows the element after whitespace and the first "</bdi>" |
| BdiPrice.BdiCaptureComplete | debug_k9_price.py:49-52 | every such layout is captured, with exactly the text between the tag and the first "</bdi>" |
| BdiPrice.BdiMatches | debug_k9_price.py:54 | findall gives at most one capture per element, none containing "</bdi>", and none when no element matches |
| BdiPrice.BdiMatchesAppend | debug_k9_price.py:54 | the captures of two runs of elements are those of the first, then those of the second: with BdiMatchesOne, findall lists every element's capture in document order |
| BdiPrice.BdiMatchesOne | debug_k9_price.py:49-54 | one element contributes its capture when it has one, and nothing otherwise |
| BdiPrice.BdiReport | debug_k9_price.py:57-62 | the first report has at most twenty lines |
| DollarPrice.DollarAt | debug_k9_price.py:75 | a match starts exactly at a '$' followed by a digit or comma, and is not followed by a digit |
| DollarPrice.DollarScan | debug_k9_price.py:77 | every match starts with '$', and a text without '$' has none |
| DollarPrice.DollarScanLeftmost | debug_k9_price.py:75-77 | findall takes the leftmost match whole and resumes right after it |
| DollarPrice.DollarScanEmpty | debug_k9_price.py:77 | no match is reported exactly when no match starts anywhere in the text |
| DollarPrice.DollarScanParts | debug_k9_price.py:75-77 | every match is '$', digits and commas, and an optional dot with digits |
| DollarPrice.DollarTextPrice | debug_k9_price.py:84 | cleaning a match drops the '$' and the commas and reads the number the rest writes, or nothing when it has no digit |
| DollarPrice.DollarPrices | debug_k9_price.py:77-85 | the second report pairs each match, in order, with its cleaned price |
| DollarPrice.DollarPricesBare | debug_k9_price.py:84 | each reported price is the number written by the match's digits, without the '$' and the commas |

## Left out

- `\d`, `str.lower()` and the case folding of `re.I` are taken over ASCII, so Unicode digits and non-ASCII case folding are not modelled. Whitespace (`\s`, `str.strip()`) is Python's full set, `Strings.IsSpace`.
- Prices are exact reals. `float()` is taken to be the exact decimal value, so IEEE rounding, and float syntax such as exponents, "inf" and signs, are not modelled. These cannot arise after the digits-and-dots filter anyway, except through rounding.
- Regular expressions over raw HTML are not modelled character by character. A page is abstracted to its elements in document order (`Markup.Fragment`, `Cards.Article`, `Markup.SelectTag`), and the patterns are modelled over those. The `<bdi>` pattern and the dollar pattern of the diagnostic are modelled on text.
- Markup.OptionsOf, Cards.ListingsOf and BdiPrice.BdiMatches give every element its own match. `re.findall` resumes after the end of each match, so an element that starts inside an earlier match's lazy capture is swallowed by it, and the model does not capture that. Example: the options `<option value="a">A<option value="b">B</option>` are one match in the source, ("a", "AB"), and two entries in the model. An `<article>` left unclosed before the next one (scraper.py:163-166, 190) and a price-amount element inside an earlier `<bdi>` capture (debug_k9_price.py:49-54) behave the same way. The model matches the source on markup where each such element is closed before the next begins.
- Markup.Selects and Markup.LinkCapture take the tag name to be exactly "p" or "a". The patterns `<p[^>]*` and `<a[^>]*` (scraper.py:180-187) also accept any tag whose name starts with p or a, such as `<pre>` or `<abbr>`, and the model does not capture those.
- `html.unescape` is modelled only for "&amp;" and decimal numeric references to printable ASCII. Named entities, hexadecimal references and the full HTML5 table are not modelled.
- httpx, Playwright and the Supabase client are not modelled. They are replaced by the `post`, `fetch` and `echo` parameters and by the `Persist.Store` class. Timeouts, retries, HTTP status codes and the exceptions they raise are not modelled. A failed request is an absent answer.
- dateutil's parser is not modelled. It becomes the `parseDate` and `parseTime` parameters.
- pandas is not modelled. The data frames become sequences and maps. `dropna` and the second `groupby().sum()` are modelled by their effect.
- In the dollar report, `Counter.most_common` counts and order are not modelled. The report lists every match in document order.
- Console output, the HTML file the diagnostic writes and the plots of the analysis script are not modelled.
- The AJAX scraper and the card reading of the Playwright fallback are not modelled, because they read the rendered page through the browser. Only the fallback's scroll loop and the choice between the two results are modelled.
- The cookie banner is not modelled.
- METHOD 3 and METHOD 4 of the diagnostic (debug_k9_price.py:87-122) and its URL discovery are not modelled. They only print context.
- Collect.Key and Persist.Signature join fields with "|" and "_". Distinct listings whose joined strings coincide collide in the source as in the model. `Collect.KeyDetermines` and `Persist.SignatureDetermines` state when they cannot: no "|" in the dates, no "_" in competitor and route.
- `fetch_flights`, export_to_excel.py and visualize.py are not part of this model.
- Markup.FindAll: only bounds the number of captures. Which elements match is stated for `Search`, not restated for `FindAll`.
- BdiPrice.BdiReport: only bounds the report's length. Each line is `DebugPrice.Compare` of a capture, as `DebugPrice.Report` states.
- Persist.SaveToStore: models the loop as written, including the stale id. The corrected step is `Persist.SaveFixed`, related to it by `Persist.EchoedIsFixed`.

## Findings

| source | as written | input that shows it | evidently intended | confidence | as-written member | corrected member |
|---|---|---|---|---|---|---|
| scraper.py:736-746 | `flight_id` is only assigned when the upsert reply has data. The snapshot then uses whatever `flight_id` holds: the previous listing's id, or an unbound name on the first listing. | two listings with different dates, where the reply for the second does not echo its row | each snapshot references its own listing's flight | low, because whether the database can return an empty reply depends on its configuration; not executed | Persist.StaleFlightId | Persist.FixedSnapshotsMatchFlights |

=== FILE: bdiprice.dfy ===
// The first report of the price diagnostic: the <bdi> capture inside each
// woocommerce-Price-amount element, compared before and after unescaping.

module BdiPrice {
  import opened Strings
  import opened Markup
  import opened DebugPrice

  /**
   * The <bdi> pattern, case-insensitive, at one element: the element's class
   * names woocommerce-Price-amount, and after the element's own '>' come
   * optional whitespace, a tag whose name starts with "bdi", that tag's '>',
   * and the lazy group up to the first "</bdi>".
   */
  function BdiCapture(f: Fragment): (r: Option<string>)
    ensures r.Some? ==> Contains(Lower(f.cls), PricePattern.name)
    ensures r.Some? ==> !Contains(Lower(r.value), "</bdi>")
  {
    if Contains(Lower(f.cls), PricePattern.name) then BdiInner(f.rest) else None
  }

  /** The part of the <bdi> pattern after the element's own '>'. */
  function BdiInner(rest: string): (r: Option<string>)
  {
    match BdiOpen(rest)
    case None => None
    case Some(j) => CaptureBefore(rest[j + 1..], "</bdi>")
  }

  /** Where the <bdi> tag that follows the element closes, if one does. */
  function BdiOpen(rest: string): (r: Option<nat>)
    ensures r.Some? ==> r.value < |rest|
  {
    var i := SpaceRunEnd(rest, 0);
    if !BdiTagAt(rest, i) then None
    else CharFrom(rest, '>', i + 4)
  }

  /** "<bdi", in any case, at index i. */
  predicate BdiTagAt(rest: string, i: nat)
  {
    i + 4 <= |rest| && rest[i] == '<' && LowerChar(rest[i + 1]) == 'b' &&
    LowerChar(rest[i + 2]) == 'd' && LowerChar(rest[i + 3]) == 'i'
  }

  /**
   * The layout the <bdi> pattern reads in the markup after an element's
   * '>': whitespace up to i, "<bdi" (any case) at i, the tag's first '>' at
   * j, then the captured text, then "</bdi>" (any case), which does not
   * occur earlier.
   */
  predicate BdiLayout(rest: string, i: nat, j: nat, inner: string)
  {
    BdiOpening(rest, i, j) && j + 1 + |inner| + 6 <= |rest| &&
    rest[j + 1..j + 1 + |inner|] == inner &&
    OccursAt(Lower(rest), "</bdi>", j + 1 + |inner|) &&
    !Contains(Lower(inner), "</bdi>")
  }

  /** Whitespace up to i, "<bdi" (any case) at i, and the tag's first '>' at j. */
  predicate BdiOpening(rest: string, i: nat, j: nat)
  {
    i + 4 <= j < |rest| &&
    (forall k :: 0 <= k < i ==> IsSpace(rest[k])) &&
    BdiTagAt(rest, i) &&
    rest[j] == '>' && (forall k :: i + 4 <= k < j ==> rest[k] != '>')
  }

  /** Whatever the pattern captures sits in that layout. */
  lemma BdiCaptureSound(f: Fragment)
    requires BdiCapture(f).Some?
    ensures exists j :: BdiLayout(f.rest, SpaceRunEnd(f.rest, 0), j, BdiCapture(f).value)
  {
    var j := BdiOpen(f.rest).value;
    BdiInnerAt(f.rest, j);
    BdiLayoutFound(f.rest, j, BdiCapture(f).value);
  }

  lemma BdiInnerAt(rest: string, j: nat)
    requires BdiOpen(rest) == Some(j)
    ensures BdiInner(rest) == CaptureBefore(rest[j + 1..], "</bdi>")
  {
  }

  lemma BdiLayoutFound(rest: string, j: nat, inner: string)
    requires BdiOpen(rest) == Some(j) && CaptureBefore(rest[j + 1..], "</bdi>") == Some(inner)
    ensures BdiLayout(rest, SpaceRunEnd(rest, 0), j, inner)
  {
    BdiOpenOpening(rest, j);
    BdiAfterSound(rest, j, inner);
  }

  lemma BdiOpenOpening(rest: string, j: nat)
    requires BdiOpen(rest) == Some(j)
    ensures BdiOpening(rest, SpaceRunEnd(rest, 0), j)
  {
  }

  /** What is captured after the tag's '>' at j runs up to the first "</bdi>". */
  lemma BdiAfterSound(rest: string, j: nat, inner: string)
    requires j < |rest| && CaptureBefore(rest[j + 1..], "</bdi>") == Some(inner)
    ensures j + 1 + |inner| + 6 <= |rest| && rest[j + 1..j + 1 + |inner|] == inner
    ensures OccursAt(Lower(rest), "</bdi>", j + 1 + |inner|) && !Contains(Lower(inner), "</bdi>")
  {
    var tail := rest[j + 1..];
    assert tail[..|inner|] == inner;
    LowerOccursAfter(rest, j + 1, "</bdi>", |inner|);
  }

  /** And the layout is always read: the capture is exactly the text between
      the <bdi> tag and the first "</bdi>". */
  lemma BdiCaptureComplete(f: Fragment, i: nat, j: nat, inner: string)
    requires Contains(Lower(f.cls), PricePattern.name)
    requires BdiLayout(f.rest, i, j, inner)
    ensures BdiCapture(f) == Some(inner)
  {
    BdiInnerComplete(f.rest, i, j, inner);
  }

  lemma BdiInnerComplete(rest: string, i: nat, j: nat, inner: string)
    requires BdiLayout(rest, i, j, inner)
    ensures BdiInner(rest) == Some(inner)
  {
    BdiOpeningFound(rest, i, j);
    BdiAfterComplete(rest, j, inner);
    BdiInnerAt(rest, j);
  }

  lemma BdiAfterComplete(rest: string, j: nat, inner: string)
    requires j < |rest| && j + 1 + |inner| <= |rest| && rest[j + 1..j + 1 + |inner|] == inner
    requires OccursAt(Lower(rest), "</bdi>", j + 1 + |inner|) && !Contains(Lower(inner), "</bdi>")
    ensures CaptureBefore(rest[j + 1..], "</bdi>") == Some(inner)
  {
    var tail := rest[j + 1..];
    LowerOccursAfter(rest, j + 1, "</bdi>", |inner|);
    assert tail[..|inner|] == inner;
    BdiCloseFirst(tail, inner);
  }

  /** The opening is found where the layout puts it. */
  lemma BdiOpeningFound(rest: string, i: nat, j: nat)
    requires BdiOpening(rest, i, j)
    ensures SpaceRunEnd(rest, 0) == i && BdiOpen(rest) == Some(j)
  {
  }

  /** In text that begins with the captured part and then "</bdi>", the
      first "</bdi>" is the one right after the captured part: the
      terminator cannot start inside the captured text and end beyond it,
      since '<' appears in it only at its start. */
  lemma BdiCloseFirst(tail: string, inner: string)
    requires |inner| + 6 <= |tail| && tail[..|inner|] == inner
    requires OccursAt(Lower(tail), "</bdi>", |inner|)
    requires !Contains(Lower(inner), "</bdi>")
    ensures CaptureBefore(tail, "</bdi>") == Some(inner)
  {
    var lt := Lower(tail);
    var close := "</bdi>";
    forall p | 0 <= p < |inner|
      ensures !OccursAt(lt, close, p)
    {
      if OccursAt(lt, close, p) {
        if p + 6 <= |inner| {
          assert Lower(inner)[p..p + 6] == lt[p..p + 6];
          assert OccursAt(Lower(inner), close, p);
          assert false;
        } else {
          OccursAtIndex(lt, close, |inner|, 0);
          OccursAtIndex(lt, close, p, |inner| - p);
          assert false;
        }
      }
    }
    IndexOfFirst(lt, close, |inner|);
  }

  /** A case-insensitive occurrence in a suffix is one in the whole text,
      shifted by the suffix's start. */
  lemma LowerOccursAfter(s: string, d: nat, p: string, i: nat)
    requires d <= |s|
    ensures OccursAt(Lower(s[d..]), p, i) <==> OccursAt(Lower(s), p, d + i)
  {
    assert Lower(s[d..]) == Lower(s)[d..];
    if i + |p| <= |s| - d {
      assert Lower(s)[d..][i..i + |p|] == Lower(s)[d + i..d + i + |p|];
    }
  }

  /** findall with the <bdi> pattern over the elements, in document order. */
  function BdiMatches(frags: seq<Fragment>): (r: seq<string>)
    ensures |r| <= |frags|
    ensures forall k :: 0 <= k < |r| ==> !Contains(Lower(r[k]), "</bdi>")
    ensures (forall k :: 0 <= k < |frags| ==> BdiCapture(frags[k]).None?) ==> r == []
  {
    if frags == [] then []
    else
      BdiMatches(frags[..|frags| - 1]) + BdiOwn(frags[|frags| - 1])
  }

  /** The captures of a + b are those of a, then those of b; with
      BdiMatchesOne, the list holds every element's capture in document
      order. */
  lemma {:induction false} BdiMatchesAppend(a: seq<Fragment>, b: seq<Fragment>)
    ensures BdiMatches(a + b) == BdiMatches(a) + BdiMatches(b)
    decreases |b|
  {
    if b == [] {
      assert a + b == a;
    } else {
      var init, last := b[..|b| - 1], b[|b| - 1];
      var ai := a + init;
      assert a + b == ai + [last];
      assert b == init + [last];
      BdiMatchesSnoc(ai, last);
      BdiMatchesSnoc(init, last);
      BdiMatchesAppend(a, init);
      AppendAssoc(BdiMatches(a), BdiMatches(init), BdiOwn(last));
    }
  }

  /** What one element adds to the captures. */
  function BdiOwn(f: Fragment): seq<string>
  {
    if BdiCapture(f).Some? then [BdiCapture(f).value] else []
  }

  lemma BdiMatchesSnoc(frags: seq<Fragment>, f: Fragment)
    ensures BdiMatches(frags + [f]) == BdiMatches(frags) + BdiOwn(f)
  {
    assert (frags + [f])[..|frags|] == frags;
  }

  /** One element contributes its capture when it has one, else nothing. */
  lemma BdiMatchesOne(f: Fragment)
    ensures BdiMatches([f]) == BdiOwn(f)
  {
    assert [f][..0] == [];
  }

  /** The diagnostic's first report: each of the first twenty <bdi> captures,
      stripped, unescaped and cleaned both ways. */
  function BdiReport(frags: seq<Fragment>): (r: seq<Comparison>)
    ensures |r| <= 20 && |r| <= |frags|
  {
    Report(BdiMatches(frags))
  }
}

=== FILE: cards.dfy ===
/**
 * Reading K9 Jets flight cards from the routes page
 * (_extract_k9_flights_from_html) and the authoritative price, seats and
 * status from a flight's own page (the parsing half of
 * _fetch_k9_detail_page).
 */
module Cards {
  import opened Strings
  import opened Clean
  import Route
  import opened Markup

  datatype Status = Available | SoldOut

  /** One scraped flight: the dict the scrapers build. */
  datatype Listing = Listing(
    competitor: string,
    date: string,
    route: string,
    operator: string,
    price: Option<real>,
    seats: Option<nat>,
    status: Status,
    departure: Option<string>,
    url: Option<string>)

  const K9 := "K9 Jets"
  const UnknownRoute := "Unknown Route"
  const UnknownOperator := "Unknown"

  predicate SaysSoldOut(text: string)
  {
    Contains(Lower(text), "sold out")
  }

  // ---------------------------------------------------------------- stock text

  /**
   * Status and seats on a card: "sold out" in any case means Sold Out with
   * no seats; a positive count means Available with that count; anything
   * else is Available with no count.
   */
  function CardStock(text: string): (r: (Status, Option<nat>))
    ensures r.0 == SoldOut <==> SaysSoldOut(text)
    ensures r.0 == SoldOut ==> r.1 == None
    ensures r.1.Some? ==> r.1.value > 0 && r.1.value == CleanSeats(text)
    ensures !SaysSoldOut(text) && CleanSeats(text) > 0 ==> r.1 == Some(CleanSeats(text))
  {
    var seats := if text != [] then Some(CleanSeats(text)) else None;
    if SaysSoldOut(text) then (SoldOut, None)
    else if seats.Some? && seats.value > 0 then (Available, seats)
    else (Available, None)
  }

  /**
   * Status and seats on a flight page: the same Sold Out rule, but the
   * parsed count is kept even when it is 0, and only missing stock text
   * gives no count.
   */
  function DetailStock(text: string): (r: (Status, Option<nat>))
    ensures r.0 == SoldOut <==> SaysSoldOut(text)
    ensures r.1.None? <==> SaysSoldOut(text) || text == []
    ensures r.1.Some? ==> r.1.value == CleanSeats(text)
  {
    var seats := if text != [] then Some(CleanSeats(text)) else None;
    if SaysSoldOut(text) then (SoldOut, None)
    else (Available, seats)
  }

  /** The two rules differ on stock text that names no count and is not
      sold out ("Available"): the card reports no seats, the flight page 0. */
  lemma CardAndDetailDiffer(text: string)
    requires text != [] && !HasDigit(text) && !SaysSoldOut(text)
    ensures CardStock(text) == (Available, None)
    ensures DetailStock(text) == (Available, Some(0))
  {
    CleanSeatsNoDigit(text);
  }

  /** Where both give a count, they give the same one. */
  lemma CardAndDetailAgree(text: string)
    ensures CardStock(text).0 == DetailStock(text).0
    ensures CardStock(text).1.Some? ==> DetailStock(text).1 == CardStock(text).1
  {
  }

  // ---------------------------------------------------------------- headings

  /** The first position at or after e holding a line break, or the end. */
  function LineEnd(text: string, e: nat): (n: nat)
    requires e <= |text|
    ensures e <= n <= |text|
    ensures forall k :: e <= k < n ==> text[k] != '\n'
  {
    match CharFrom(text, '\n', e)
    case Some(n) => n
    case None => |text|
  }

  predicate HasNonNewline(s: string)
  {
    exists k :: 0 <= k < |s| && s[k] != '\n'
  }

  const DepartureLabel := "departure time:"

  /**
   * re.search(r"departure time:\s*(.+)", text, re.I), group 1 stripped.
   * After the label, the blank run is taken greedily and the group runs to
   * the end of the line. If only blanks follow the label, the run gives one
   * blank back to the group when it can (the group is then blank), and
   * there is no match when nothing but line breaks follows.
   */
  function DepartureOf(text: string): (r: Option<string>)
    ensures r.Some? ==> Trimmed(r.value) && Contains(Lower(text), DepartureLabel)
  {
    match IndexOf(Lower(text), DepartureLabel)
    case None => None
    case Some(i) =>
      var j := i + |DepartureLabel|;
      var e := SpaceRunEnd(text, j);
      if e < |text| then Some(Strip(text[e..LineEnd(text, e)]))
      else if HasNonNewline(text[j..]) then Some("")
      else None
  }

  predicate NamesOperator(text: string)
  {
    Contains(Lower(text), "operator:")
  }

  predicate NamesDeparture(text: string)
  {
    Contains(Lower(text), "departure time")
  }

  /** The text after the first colon of a heading, trimmed. */
  function OperatorText(text: string): string
  {
    Strip(AfterFirst(text, ':'))
  }

  /** What one heading says: whether it names an operator or a departure
      time, and the values read from it. */
  datatype Heading = Heading(namesOperator: bool, operator: string, namesDeparture: bool, departure: Option<string>)

  function ParseHeading(text: string): Heading
  {
    Heading(NamesOperator(text), OperatorText(text), NamesDeparture(text), DepartureOf(text))
  }

  function ParseHeadings(texts: seq<string>): (ps: seq<Heading>)
    ensures |ps| == |texts|
  {
    seq(|texts|, i requires 0 <= i < |texts| => ParseHeading(texts[i]))
  }

  lemma ParseHeadingsAt(texts: seq<string>, i: nat)
    requires i < |texts|
    ensures ParseHeadings(texts)[i] == ParseHeading(texts[i])
  {
  }

  /** One heading of a card: the first heading naming an operator sets it,
      unless it is empty after the colon; a heading naming a departure time
      sets that while it is still unset. */
  function HeadingStep(acc: (string, Option<string>), h: Heading): (string, Option<string>)
  {
    if h.namesOperator && acc.0 == UnknownOperator then
      (if h.operator != [] then h.operator else acc.0, acc.1)
    else if h.namesDeparture && acc.1.None? then
      (acc.0, h.departure)
    else acc
  }

  /** The operator and departure time after reading the first n headings. */
  function ReadFirst(ps: seq<Heading>, n: nat): (string, Option<string>)
    requires n <= |ps|
  {
    if n == 0 then (UnknownOperator, None)
    else HeadingStep(ReadFirst(ps, n - 1), ps[n - 1])
  }

  /** The operator and departure time after reading all headings in order. */
  function ReadHeadingsSpec(texts: seq<string>): (string, Option<string>)
  {
    ReadFirst(ParseHeadings(texts), |texts|)
  }

  method ReadHeadings(texts: seq<string>) returns (operator: string, departure: Option<string>)
    ensures (operator, departure) == ReadHeadingsSpec(texts)
  {
    operator, departure := ReadHeadingList(ParseHeadings(texts));
  }

  /** The loop over a card's headings, in order, each read once. */
  method ReadHeadingList(ps: seq<Heading>) returns (operator: string, departure: Option<string>)
    ensures (operator, departure) == ReadFirst(ps, |ps|)
  {
    operator := UnknownOperator;
    departure := None;
    var i := 0;
    while i < |ps|
      invariant 0 <= i <= |ps|
      invariant (operator, departure) == ReadFirst(ps, i)
    {
      var h := ps[i];
      if h.namesOperator && operator == UnknownOperator {
        if h.operator != [] {
          operator := h.operator;
        }
      } else if h.namesDeparture && departure.None? {
        departure := h.departure;
      }
      i := i + 1;
    }
  }

  /** Once set to something other than "Unknown", the operator stays. */
  lemma {:induction false} OperatorKept(ps: seq<Heading>, m: nat, n: nat)
    requires m <= n <= |ps|
    requires ReadFirst(ps, m).0 != UnknownOperator
    ensures ReadFirst(ps, n).0 == ReadFirst(ps, m).0
    decreases n - m
  {
    if m < n {
      OperatorKept(ps, m + 1, n);
    }
  }

  /** Before the first heading naming an operator, the operator is unknown. */
  lemma {:induction false} OperatorUnknownBefore(ps: seq<Heading>, m: nat)
    requires m <= |ps|
    requires forall k :: 0 <= k < m ==> !ps[k].namesOperator
    ensures ReadFirst(ps, m).0 == UnknownOperator
  {
    if m > 0 {
      OperatorUnknownBefore(ps, m - 1);
    }
  }

  /** The operator is the text after the colon of the first heading naming
      one, when that text is neither empty nor "Unknown". */
  lemma FirstOperatorWins(texts: seq<string>, k: nat)
    requires k < |texts| && NamesOperator(texts[k])
    requires forall j :: 0 <= j < k ==> !NamesOperator(texts[j])
    requires OperatorText(texts[k]) != [] && OperatorText(texts[k]) != UnknownOperator
    ensures ReadHeadingsSpec(texts).0 == OperatorText(texts[k])
  {
    var ps := ParseHeadings(texts);
    forall j | 0 <= j < k ensures !ps[j].namesOperator {
      ParseHeadingsAt(texts, j);
    }
    ParseHeadingsAt(texts, k);
    FirstOperatorRead(ps, k);
  }

  lemma FirstOperatorRead(ps: seq<Heading>, k: nat)
    requires k < |ps| && ps[k].namesOperator
    requires forall j :: 0 <= j < k ==> !ps[j].namesOperator
    requires ps[k].operator != [] && ps[k].operator != UnknownOperator
    ensures ReadFirst(ps, |ps|).0 == ps[k].operator
  {
    OperatorUnknownBefore(ps, k);
    OperatorKept(ps, k + 1, |ps|);
  }

  /** Without a heading naming an operator, it stays "Unknown". */
  lemma NoOperatorHeading(texts: seq<string>)
    requires forall k :: 0 <= k < |texts| ==> !NamesOperator(texts[k])
    ensures ReadHeadingsSpec(texts).0 == UnknownOperator
  {
    var ps := ParseHeadings(texts);
    forall j | 0 <= j < |texts| ensures !ps[j].namesOperator {
      ParseHeadingsAt(texts, j);
    }
    OperatorUnknownBefore(ps, |texts|);
  }

  /** Once set, the departure time stays. */
  lemma {:induction false} DepartureKept(ps: seq<Heading>, m: nat, n: nat)
    requires m <= n <= |ps|
    requires ReadFirst(ps, m).1.Some?
    ensures ReadFirst(ps, n).1 == ReadFirst(ps, m).1
    decreases n - m
  {
    if m < n {
      DepartureKept(ps, m + 1, n);
    }
  }

  lemma {:induction false} DepartureUnsetBefore(ps: seq<Heading>, m: nat)
    requires m <= |ps|
    requires forall k :: 0 <= k < m ==> !ps[k].namesDeparture
    ensures ReadFirst(ps, m).1 == None
  {
    if m > 0 {
      DepartureUnsetBefore(ps, m - 1);
    }
  }

  /** The departure time comes from the first heading naming one, when that
      heading names no operator and its time can be read. */
  lemma FirstDepartureWins(texts: seq<string>, k: nat)
    requires k < |texts| && NamesDeparture(texts[k]) && !NamesOperator(texts[k])
    requires forall j :: 0 <= j < k ==> !NamesDeparture(texts[j])
    requires DepartureOf(texts[k]).Some?
    ensures ReadHeadingsSpec(texts).1 == DepartureOf(texts[k])
  {
    var ps := ParseHeadings(texts);
    forall j | 0 <= j < k ensures !ps[j].namesDeparture {
      ParseHeadingsAt(texts, j);
    }
    ParseHeadingsAt(texts, k);
    FirstDepartureRead(ps, k);
  }

  lemma FirstDepartureRead(ps: seq<Heading>, k: nat)
    requires k < |ps| && ps[k].namesDeparture && !ps[k].namesOperator
    requires forall j :: 0 <= j < k ==> !ps[j].namesDeparture
    requires ps[k].departure.Some?
    ensures ReadFirst(ps, |ps|).1 == ps[k].departure
  {
    DepartureUnsetBefore(ps, k);
    DepartureKept(ps, k + 1, |ps|);
  }

  lemma LowerAppend(a: string, b: string)
    ensures Lower(a + b) == Lower(a) + Lower(b)
  {
  }

  /** When text follows the label, the time is the rest of that line. */
  lemma DepartureAfterLabel(text: string, i: nat)
    requires IndexOf(Lower(text), DepartureLabel) == Some(i)
    requires i + 15 <= |text| && SpaceRunEnd(text, i + 15) < |text|
    ensures DepartureOf(text) ==
      Some(Strip(text[SpaceRunEnd(text, i + 15)..LineEnd(text, SpaceRunEnd(text, i + 15))]))
  {
  }

  lemma DropPrefix(p: string, v: string)
    ensures (p + v)[|p|..|p + v|] == v
  {
  }

  /** "Departure Time: 2:00 PM" gives "2:00 PM". */
  lemma DepartureReadsTime(v: string)
    requires v != [] && Trimmed(v) && '\n' !in v
    ensures DepartureOf("Departure Time: " + v) == Some(v)
  {
    var text := "Departure Time: " + v;
    assert IndexOf(Lower(text), DepartureLabel) == Some(0) by {
      var lower := Lower(text);
      LowerAppend("Departure Time: ", v);
      assert Lower("Departure Time: ") == "departure time: ";
      assert lower[..15] == DepartureLabel;
      IndexOfFirst(lower, DepartureLabel, 0);
    }
    assert SpaceRunEnd(text, 15) == 16 by {
      assert text[15] == ' ' && text[16] == v[0];
    }
    assert LineEnd(text, 16) == |text| by {
      forall k | 16 <= k < |text|
        ensures text[k] != '\n'
      {
        assert text[k] == v[k - 16];
      }
    }
    assert |DepartureLabel| == 15;
    DepartureAfterLabel(text, 0);
    assert DepartureOf(text) == Some(Strip(text[16..|text|]));
    DropPrefix("Departure Time: ", v);
    StripFixesTrimmed(v);
    assert Strip(v) == v;
  }

  // ---------------------------------------------------------------- cards

  /** An <article> element: its class attribute, whether a closing
      </article> follows, and the elements inside it. */
  datatype Article = Article(cls: string, closed: bool, parts: seq<Fragment>)

  predicate IsFlightCard(a: Article)
  {
    a.closed && Contains(Lower(a.cls), "elementor-post")
  }

  /** The heading texts of a card, tags stripped, in order. */
  function Headings(parts: seq<Fragment>): seq<string>
  {
    var caps := FindAll(HeadingPattern, parts);
    seq(|caps|, k requires 0 <= k < |caps| => StripHtml(caps[k]))
  }

  /** The stripped capture of the first match, or a default. */
  function SearchText(p: Pattern, parts: seq<Fragment>, default: string): (r: string)
    requires WellFormed(p)
  {
    match Search(p, parts)
    case Some(c) => StripHtml(c)
    case None => default
  }

  /**
   * One card: skipped when it has no title or the title is blank;
   * otherwise a K9 Jets listing with the title as date, the route (default
   * "Unknown Route"), the stock rule, the headings, no price, and the
   * booking link with its references resolved.
   */
  function CardOf(a: Article): (r: Option<Listing>)
    ensures r.None? <==> Search(TitlePattern, a.parts).None? || StripHtml(Search(TitlePattern, a.parts).value) == []
    ensures r.Some? ==> r.value.competitor == K9 && r.value.price == None
    ensures r.Some? ==> r.value.date != [] && Trimmed(r.value.date)
    ensures r.Some? ==> (r.value.status == SoldOut ==> r.value.seats == None)
    ensures r.Some? ==> (r.value.seats.Some? ==> r.value.seats.value > 0)
    ensures r.Some? && Search(RoutePattern, a.parts).None? ==> r.value.route == UnknownRoute
    ensures r.Some? ==> r.value.date == StripHtml(Search(TitlePattern, a.parts).value)
    ensures r.Some? ==> r.value.route == SearchText(RoutePattern, a.parts, UnknownRoute)
    ensures r.Some? ==> (r.value.status, r.value.seats) == CardStock(SearchText(StockPattern, a.parts, ""))
    ensures r.Some? ==> (r.value.operator, r.value.departure) == ReadHeadingsSpec(Headings(a.parts))
    ensures r.Some? ==> (r.value.url.Some? <==> SearchLink(a.parts).Some?)
    ensures r.Some? && r.value.url.Some? ==> r.value.url.value == Unescape(SearchLink(a.parts).value)
  {
    match Search(TitlePattern, a.parts)
    case None => None
    case Some(t) =>
      var date := StripHtml(t);
      if date == [] then None
      else
        var route := SearchText(RoutePattern, a.parts, UnknownRoute);
        var stock := CardStock(SearchText(StockPattern, a.parts, ""));
        var heads := ReadHeadingsSpec(Headings(a.parts));
        var url := match SearchLink(a.parts) case Some(h) => Some(Unescape(h)) case None => None;
        Some(Listing(K9, date, route, heads.0, None, stock.1, stock.0, heads.1, url))
  }

  method ReadCard(a: Article) returns (r: Option<Listing>)
    ensures r == CardOf(a)
  {
    var title := Search(TitlePattern, a.parts);
    if title.None? {
      return None;
    }
    var date := StripHtml(title.value);
    if date == [] {
      return None;
    }
    var route := SearchText(RoutePattern, a.parts, UnknownRoute);
    var stock := CardStock(SearchText(StockPattern, a.parts, ""));
    var operator, departure := ReadHeadings(Headings(a.parts));
    var url: Option<string> := None;
    var link := SearchLink(a.parts);
    if link.Some? {
      url := Some(Unescape(link.value));
    }
    r := Some(Listing(K9, date, route, operator, None, stock.1, stock.0, departure, url));
  }

  /** The listings of a routes page, one per card that is not skipped, in
      page order. */
  function ListingsOf(articles: seq<Article>): (r: seq<Listing>)
    ensures |r| <= |articles|
    ensures forall k :: 0 <= k < |r| ==> r[k].competitor == K9 && r[k].price == None && r[k].date != []
    ensures forall k :: 0 <= k < |r| ==> (r[k].status == SoldOut ==> r[k].seats == None)
  {
    if articles == [] then []
    else
      var last := articles[|articles| - 1];
      var init := ListingsOf(articles[..|articles| - 1]);
      init + CardListing(last)
  }

  /** The listings of a + b are those of a, then those of b; with
      ListingsOfOne, a page's listings are CardOf of its flight cards that
      are not skipped, in page order. */
  lemma {:induction false} ListingsOfAppend(a: seq<Article>, b: seq<Article>)
    ensures ListingsOf(a + b) == ListingsOf(a) + ListingsOf(b)
    decreases |b|
  {
    if b == [] {
      assert a + b == a;
    } else {
      var init, last := b[..|b| - 1], b[|b| - 1];
      var ai := a + init;
      assert a + b == ai + [last];
      assert b == init + [last];
      ListingsOfSnoc(ai, last);
      ListingsOfSnoc(init, last);
      ListingsOfAppend(a, init);
      AppendAssoc(ListingsOf(a), ListingsOf(init), CardListing(last));
    }
  }

  /** What one article adds to the listings: its card when it is a flight
      card that is not skipped. */
  function CardListing(a: Article): seq<Listing>
  {
    if IsFlightCard(a) && CardOf(a).Some? then [CardOf(a).value] else []
  }

  lemma ListingsOfSnoc(articles: seq<Article>, a: Article)
    ensures ListingsOf(articles + [a]) == ListingsOf(articles) + CardListing(a)
  {
    assert (articles + [a])[..|articles|] == articles;
  }

  lemma ListingsOfPrefix(articles: seq<Article>, i: nat)
    requires i < |articles|
    ensures ListingsOf(articles[..i + 1]) == ListingsOf(articles[..i]) + CardListing(articles[i])
  {
    assert articles[..i + 1] == articles[..i] + [articles[i]];
    ListingsOfSnoc(articles[..i], articles[i]);
  }

  /** One article gives its card when it is a flight card that is not
      skipped, and nothing otherwise. */
  lemma ListingsOfOne(a: Article)
    ensures ListingsOf([a]) == CardListing(a)
  {
    assert [a][..0] == [];
  }

  /** _extract_k9_flights_from_html */
  method ExtractListings(articles: seq<Article>) returns (flights: seq<Listing>)
    ensures flights == ListingsOf(articles)
  {
    flights := [];
    var i := 0;
    while i < |articles|
      invariant 0 <= i <= |articles|
      invariant flights == ListingsOf(articles[..i])
    {
      ListingsOfPrefix(articles, i);
      ghost var before := flights;
      if IsFlightCard(articles[i]) {
        var card := ReadCard(articles[i]);
        if card.Some? {
          flights := flights + [card.value];
        }
        assert flights == before + CardListing(articles[i]);
      }
      i := i + 1;
    }
    assert articles[..|articles|] == articles;
  }

  // ---------------------------------------------------------------- detail page

  /** What a flight page yields: a price only when one parsed, and always
      seats (possibly none) and a status. */
  datatype Detail = Detail(price: Option<real>, seats: Option<nat>, status: Status)

  /** The parseable prices of a flight page, in order. */
  function PriceCandidates(caps: seq<string>): (r: seq<real>)
    ensures |r| <= |caps|
  {
    if caps == [] then []
    else
      var init := PriceCandidates(caps[..|caps| - 1]);
      match CleanPrice(StripHtml(caps[|caps| - 1]))
      case Some(v) => init + [v]
      case None => init
  }

  /** max(): the largest value, which is one of them. */
  function Max(xs: seq<real>): (m: real)
    requires xs != []
    ensures m in xs && forall x :: x in xs ==> x <= m
  {
    if |xs| == 1 then xs[0]
    else
      var rest := Max(xs[1..]);
      assert forall x :: x in xs ==> x == xs[0] || x in xs[1..];
      if xs[0] >= rest then xs[0] else rest
  }

  /** The largest parseable price, if any. */
  function BestPrice(caps: seq<string>): (price: Option<real>)
    ensures price.None? <==> PriceCandidates(caps) == []
    ensures price.Some? ==> price.value in PriceCandidates(caps)
    ensures price.Some? ==> forall c :: c in PriceCandidates(caps) ==> c <= price.value
  {
    if PriceCandidates(caps) == [] then None else Some(Max(PriceCandidates(caps)))
  }

  /** The price rule: every price span is stripped and cleaned, and the
      largest value that parses is the price; none parsing means no price. */
  method DetailPrice(caps: seq<string>) returns (price: Option<real>)
    ensures price == BestPrice(caps)
  {
    var candidates: seq<real> := [];
    var i := 0;
    while i < |caps|
      invariant 0 <= i <= |caps|
      invariant candidates == PriceCandidates(caps[..i])
    {
      assert caps[..i + 1][..i] == caps[..i];
      var val := CleanPrice(StripHtml(caps[i]));
      if val.Some? {
        candidates := candidates + [val.value];
      }
      i := i + 1;
    }
    assert caps[..|caps|] == caps;
    price := None;
    if candidates != [] {
      price := Some(Max(candidates));
    }
  }

  /** What a flight page says: the best price and the stock paragraph's
      seats and status (which, unlike a card, may keep a count of 0). */
  function DetailOf(page: seq<Fragment>): (d: Detail)
    ensures d.price == BestPrice(FindAll(PricePattern, page))
    ensures d.status == SoldOut ==> d.seats == None
    ensures (d.status, d.seats) == DetailStock(SearchText(StockParagraphPattern, page, ""))
  {
    var stock := DetailStock(SearchText(StockParagraphPattern, page, ""));
    Detail(BestPrice(FindAll(PricePattern, page)), stock.1, stock.0)
  }

  /** The parsing half of _fetch_k9_detail_page. */
  method ParseDetail(page: seq<Fragment>) returns (d: Detail)
    ensures d == DetailOf(page)
  {
    var price := DetailPrice(FindAll(PricePattern, page));
    var stock := DetailStock(SearchText(StockParagraphPattern, page, ""));
    d := Detail(price, stock.1, stock.0);
  }
}

=== FILE: clean.dfy ===
/** The two value cleaners of scraper.py, clean_price and clean_seats (repeated
    verbatim in debug_k9_price.py). Prices are exact decimals, built from the
    digit string, instead of IEEE doubles. */
module Clean {
  import opened Strings

  /** A character that survives re.sub(r'[^\d.]', '', s). */
  predicate IsPriceChar(c: char)
  {
    IsDigit(c) || c == '.'
  }

  predicate AllPriceChars(s: string)
  {
    forall i :: 0 <= i < |s| ==> IsPriceChar(s[i])
  }

  /** Deletes every character that is neither a digit nor a dot. */
  function KeepPriceChars(s: string): (r: string)
    ensures AllPriceChars(r)
    ensures |r| <= |s|
  {
    if s == [] then []
    else (if IsPriceChar(s[0]) then [s[0]] else []) + KeepPriceChars(s[1..])
  }

  lemma {:induction false} KeepPriceCharsAppend(a: string, b: string)
    ensures KeepPriceChars(a + b) == KeepPriceChars(a) + KeepPriceChars(b)
  {
    if a != [] {
      calc {
        KeepPriceChars(a + b);
        { assert (a + b)[0] == a[0]; assert (a + b)[1..] == a[1..] + b; }
        (if IsPriceChar(a[0]) then [a[0]] else []) + KeepPriceChars(a[1..] + b);
        { KeepPriceCharsAppend(a[1..], b); }
        (if IsPriceChar(a[0]) then [a[0]] else []) + (KeepPriceChars(a[1..]) + KeepPriceChars(b));
        ((if IsPriceChar(a[0]) then [a[0]] else []) + KeepPriceChars(a[1..])) + KeepPriceChars(b);
        KeepPriceChars(a) + KeepPriceChars(b);
      }
    } else {
      assert a + b == b;
    }
  }

  /** The filter keeps exactly the digits and dots, in order: a string of them
      is left alone, and a string with none of them vanishes. */
  lemma {:induction false} KeepPriceCharsFixed(s: string)
    ensures AllPriceChars(s) <==> KeepPriceChars(s) == s
  {
    if s != [] {
      KeepPriceCharsFixed(s[1..]);
    }
  }

  lemma {:induction false} KeepPriceCharsNoise(s: string)
    requires forall i :: 0 <= i < |s| ==> !IsPriceChar(s[i])
    ensures KeepPriceChars(s) == []
  {
    if s != [] {
      KeepPriceCharsNoise(s[1..]);
    }
  }

  function Pow10(n: nat): (p: nat)
    ensures p > 0
  {
    if n == 0 then 1 else 10 * Pow10(n - 1)
  }

  /** The value of the decimal numeral `whole.frac`. */
  function DecimalValue(whole: string, frac: string): (v: real)
    requires AllDigits(whole) && AllDigits(frac)
    ensures v >= 0.0
  {
    DigitsValue(whole) as real + DigitsValue(frac) as real / Pow10(|frac|) as real
  }

  /** Python's float() on a string of digits and dots: an optional single dot
      with at least one digit overall; anything else raises ValueError, which
      clean_price turns into None. */
  function ParseDecimal(t: string): (r: Option<real>)
    requires AllPriceChars(t)
  {
    match IndexOf(t, ".")
    case None =>
      assert AllDigits(t) by {
        forall j | 0 <= j < |t| ensures IsDigit(t[j]) {
          OccursAtChar(t, '.', j);
        }
      }
      if t == [] then None else Some(DigitsValue(t) as real)
    case Some(k) =>
      var whole := t[..k];
      var frac := t[k + 1..];
      if !AllDigits(frac) || (whole == [] && frac == []) then None
      else
        assert AllDigits(whole) by {
          forall j | 0 <= j < k ensures IsDigit(t[j]) {
            OccursAtChar(t, '.', j);
          }
        }
        Some(DecimalValue(whole, frac))
  }

  /** The numerals float() accepts here: digits, optionally one dot, at least
      one digit. */
  ghost predicate Numeral(t: string)
  {
    exists whole: string, frac: string ::
      AllDigits(whole) && AllDigits(frac) &&
      ((|whole| > 0 && t == whole) || (|whole| + |frac| > 0 && t == whole + "." + frac))
  }

  /** ParseDecimal succeeds exactly on numerals, and then yields their value. */
  lemma ParseDecimalNumeral(whole: string, frac: string)
    requires AllDigits(whole) && AllDigits(frac)
    ensures |whole| > 0 ==> ParseDecimal(whole) == Some(DecimalValue(whole, []))
    ensures |whole| + |frac| > 0 ==> ParseDecimal(whole + "." + frac) == Some(DecimalValue(whole, frac))
  {
    IndexOfCharNone(whole, '.');
    var t := whole + "." + frac;
    IndexOfChar(t, '.', |whole|);
    assert t[..|whole|] == whole;
    assert t[|whole| + 1..] == frac;
  }

  lemma NumeralParses(t: string)
    requires Numeral(t)
    ensures AllPriceChars(t) && ParseDecimal(t).Some?
  {
    var whole: string, frac: string :| AllDigits(whole) && AllDigits(frac) &&
      ((|whole| > 0 && t == whole) || (|whole| + |frac| > 0 && t == whole + "." + frac));
    ParseDecimalNumeral(whole, frac);
  }

  lemma NoDotAllDigits(t: string)
    requires AllPriceChars(t) && IndexOf(t, ".") == None
    ensures AllDigits(t)
  {
    forall j | 0 <= j < |t| ensures IsDigit(t[j]) {
      OccursAtChar(t, '.', j);
    }
  }

  lemma FirstDotSplits(t: string, k: nat)
    requires AllPriceChars(t) && IndexOf(t, ".") == Some(k)
    ensures AllDigits(t[..k]) && t == t[..k] + "." + t[k + 1..]
  {
    forall j | 0 <= j < k ensures IsDigit(t[j]) {
      OccursAtChar(t, '.', j);
    }
    OccursAtChar(t, '.', k);
  }

  lemma ParsedIsNumeral(t: string)
    requires AllPriceChars(t) && ParseDecimal(t).Some?
    ensures Numeral(t)
  {
    var r := IndexOf(t, ".");
    if r.None? {
      NoDotAllDigits(t);
      assert AllDigits([]) && |t| > 0 && t == t;
    } else {
      var k := r.value;
      FirstDotSplits(t, k);
      var whole, frac := t[..k], t[k + 1..];
      assert AllDigits(frac) && |whole| + |frac| > 0;
    }
  }

  /** clean_price: None for empty input; otherwise float() of the digits and
      dots of the input, None when those do not form a numeral. */
  function CleanPrice(s: string): (r: Option<real>)
    ensures r.Some? ==> r.value >= 0.0
  {
    if s == [] then None else ParseDecimal(KeepPriceChars(s))
  }

  /** What clean_price promises, stated without its body: it succeeds exactly
      when the input is non-empty and its digits and dots form a numeral. */
  lemma CleanPriceSucceeds(s: string)
    ensures CleanPrice(s).Some? <==> s != [] && Numeral(KeepPriceChars(s))
  {
    if s != [] && CleanPrice(s).Some? {
      ParsedIsNumeral(KeepPriceChars(s));
    }
    if s != [] && Numeral(KeepPriceChars(s)) {
      NumeralParses(KeepPriceChars(s));
    }
  }

  /** A currency-formatted amount: characters other than digits and dots
      (currency signs, thousands separators, spaces) are ignored, wherever
      they stand. */
  lemma CleanPriceIgnoresNoise(pre: string, whole: string, frac: string)
    requires forall i :: 0 <= i < |pre| ==> !IsPriceChar(pre[i])
    requires AllDigits(whole) && AllDigits(frac) && |whole| > 0
    ensures CleanPrice(pre + whole + "." + frac) == Some(DecimalValue(whole, frac))
  {
    var num := whole + "." + frac;
    assert AllPriceChars(num) by {
      forall i | 0 <= i < |num| ensures IsPriceChar(num[i]) {
        if i < |whole| { assert num[i] == whole[i]; }
        else if i > |whole| { assert num[i] == frac[i - |whole| - 1]; }
      }
    }
    calc {
      KeepPriceChars(pre + whole + "." + frac);
      { assert pre + whole + "." + frac == pre + num; }
      KeepPriceChars(pre + num);
      { KeepPriceCharsAppend(pre, num); KeepPriceCharsNoise(pre); }
      KeepPriceChars(num);
      { KeepPriceCharsFixed(num); }
      num;
    }
    ParseDecimalNumeral(whole, frac);
  }

  lemma KeepPriceCharsExample()
    ensures KeepPriceChars("$1,234.50") == "1234.50"
  {
    assert "$1,234.50" == "$" + "1" + "," + "234.50";
    KeepDropsSeparator("$", "1", "234.50");
    assert "1" + "234.50" == "1234.50";
  }

  /** A sign before the number and a comma inside it are both dropped. */
  lemma KeepDropsSeparator(pre: string, a: string, b: string)
    requires forall i :: 0 <= i < |pre| ==> !IsPriceChar(pre[i])
    requires AllPriceChars(a) && AllPriceChars(b)
    ensures KeepPriceChars(pre + a + "," + b) == a + b
  {
    assert pre + a + "," + b == pre + (a + ("," + b));
    KeepDropsPrefix(pre, a + ("," + b));
    KeepJoinsAroundComma(a, b);
  }

  lemma KeepDropsPrefix(pre: string, s: string)
    requires forall i :: 0 <= i < |pre| ==> !IsPriceChar(pre[i])
    ensures KeepPriceChars(pre + s) == KeepPriceChars(s)
  {
    KeepPriceCharsAppend(pre, s);
    KeepPriceCharsNoise(pre);
  }

  lemma KeepJoinsAroundComma(a: string, b: string)
    requires AllPriceChars(a) && AllPriceChars(b)
    ensures KeepPriceChars(a + ("," + b)) == a + b
  {
    KeepPriceCharsAppend(a, "," + b);
    KeepPriceCharsFixed(a);
    KeepComma(b);
  }

  lemma KeepComma(b: string)
    requires AllPriceChars(b)
    ensures KeepPriceChars("," + b) == b
  {
    var s := "," + b;
    assert s[0] == ',' && s[1..] == b;
    assert !IsPriceChar(',');
    KeepPriceCharsFixed(b);
  }

  lemma CleanPriceFormatted()
    ensures CleanPrice("$1,234.50") == Some(1234.5)
  {
    calc {
      CleanPrice("$1,234.50");
      ParseDecimal(KeepPriceChars("$1,234.50"));
      { KeepPriceCharsExample(); }
      ParseDecimal("1234.50");
      { assert "1234.50" == "1234" + "." + "50"; }
      ParseDecimal("1234" + "." + "50");
      { ParseDecimalNumeral("1234", "50"); }
      Some(DecimalValue("1234", "50"));
      { DigitsValueExample(); assert Pow10(2) == 100; }
      Some(1234.5);
    }
  }

  lemma DigitsValueExample()
    ensures DigitsValue("1234") == 1234 && DigitsValue("50") == 50
  {
    assert "1234"[..3] == "123";
    assert "123"[..2] == "12";
    assert "12"[..1] == "1";
    assert "50"[..1] == "5";
  }

  lemma CleanPriceRejects()
    ensures CleanPrice(".") == None
    ensures CleanPrice("1.2.3") == None
  {
    KeepPriceCharsFixed(".");
    IndexOfChar(".", '.', 0);
    KeepPriceCharsFixed("1.2.3");
    IndexOfChar("1.2.3", '.', 1);
    assert "1.2.3"[2..] == "2.3";
    assert !IsDigit("2.3"[1]);
  }

  // ------------------------------------------------------------------ seats

  /** The longest prefix made of digits. */
  function LeadingDigits(s: string): (r: string)
    ensures |r| <= |s| && AllDigits(r) && r == s[..|r|]
    ensures |r| == |s| || !IsDigit(s[|r|])
  {
    if s != [] && IsDigit(s[0]) then
      var rest := LeadingDigits(s[1..]);
      assert [s[0]] + rest == s[..|rest| + 1];
      [s[0]] + rest
    else []
  }

  /** The first maximal run of digits (re.findall(r'\d+', s)[0]), or the empty
      string when there is no digit. */
  function FirstDigitRun(s: string): (r: string)
    ensures AllDigits(r)
  {
    if s == [] then []
    else if IsDigit(s[0]) then LeadingDigits(s)
    else FirstDigitRun(s[1..])
  }

  lemma {:induction false} FirstDigitRunEmpty(s: string)
    ensures FirstDigitRun(s) == [] <==> !HasDigit(s)
  {
    if s != [] && !IsDigit(s[0]) {
      FirstDigitRunEmpty(s[1..]);
      assert HasDigit(s) <==> HasDigit(s[1..]) by {
        if HasDigit(s) {
          var j :| 0 <= j < |s| && IsDigit(s[j]);
          assert s[1..][j - 1] == s[j];
        }
        if HasDigit(s[1..]) {
          var j :| 0 <= j < |s| - 1 && IsDigit(s[1..][j]);
          assert s[j + 1] == s[1..][j];
        }
      }
    }
  }

  /** clean_seats: the first run of digits as an integer, 0 when the text is
      empty or holds no digit. */
  function CleanSeats(s: string): (n: nat)
  {
    if s == [] then 0
    else
      var run := FirstDigitRun(s);
      if run == [] then 0 else DigitsValue(run)
  }

  lemma {:induction false} FirstDigitRunSkips(pre: string, s: string)
    requires !HasDigit(pre)
    ensures FirstDigitRun(pre + s) == FirstDigitRun(s)
  {
    if pre != [] {
      assert (pre + s)[0] == pre[0];
      assert (pre + s)[1..] == pre[1..] + s;
      assert !HasDigit(pre[1..]);
      FirstDigitRunSkips(pre[1..], s);
    } else {
      assert pre + s == s;
    }
  }

  lemma {:induction false} LeadingDigitsStops(num: string, post: string)
    requires AllDigits(num)
    requires post == [] || !IsDigit(post[0])
    ensures LeadingDigits(num + post) == num
  {
    if num != [] {
      assert (num + post)[0] == num[0];
      assert (num + post)[1..] == num[1..] + post;
      LeadingDigitsStops(num[1..], post);
      assert [num[0]] + num[1..] == num;
    } else {
      assert num + post == post;
    }
  }

  /** A count written after digit-free text, and not followed by a further
      digit, is what clean_seats reads back. */
  lemma CleanSeatsReadsCount(pre: string, n: nat, post: string)
    requires !HasDigit(pre)
    requires post == [] || !IsDigit(post[0])
    ensures CleanSeats(pre + NatToString(n) + post) == n
  {
    var num := NatToString(n);
    assert pre + num + post == pre + (num + post);
    FirstDigitRunSkips(pre, num + post);
    assert (num + post)[0] == num[0];
    LeadingDigitsStops(num, post);
    NatToStringValue(n);
  }

  /** No digit means no seats. */
  lemma CleanSeatsNoDigit(s: string)
    requires !HasDigit(s)
    ensures CleanSeats(s) == 0
  {
    FirstDigitRunEmpty(s);
  }

  lemma CleanSeatsExample()
    ensures CleanSeats("6 Seats Available") == 6
  {
    calc {
      CleanSeats("6 Seats Available");
      { assert NatToString(6) == "6"; assert "" + "6" + " Seats Available" == "6 Seats Available"; }
      CleanSeats("" + NatToString(6) + " Seats Available");
      { CleanSeatsReadsCount("", 6, " Seats Available"); }
      6;
    }
  }

  lemma CleanSeatsSoldOut()
    ensures CleanSeats("Sold Out") == 0
  {
    var so := "Sold Out";
    assert !HasDigit(so) by {
      forall j | 0 <= j < |so| ensures !IsDigit(so[j]) { }
    }
    CleanSeatsNoDigit(so);
  }
}

=== FILE: collect.dfy ===
/**
 * Gathering K9 Jets listings over plain HTTP (scrape_k9_jets_http in
 * scraper.py): the departure options of the routes page, one posted search
 * per origin, the route repair, the refinement from each flight's own page
 * and the first-per-key deduplication. The HTTP client is replaced by the
 * pages it would return: `post` gives the cards answered for an origin id
 * and `fetch` the fragments of a flight page, None standing for an HTTP
 * error.
 */
module Collect {
  import opened Strings
  import Route
  import opened Markup
  import opened Cards

  // ---------------------------------------------------------------- origins

  const DepartureSelect := "pa_departure-location"

  /** A real departure: it has a value and is not the "Flying from..." placeholder. */
  predicate IsOrigin(o: SelectOption)
  {
    o.value != [] && !Contains(Lower(o.text), "flying from")
  }

  /** The options that are real departures, in page order. */
  function Origins(opts: seq<SelectOption>): (r: seq<SelectOption>)
    ensures |r| <= |opts|
    ensures forall o :: o in r <==> o in opts && IsOrigin(o)
  {
    if opts == [] then []
    else
      var init := Origins(opts[..|opts| - 1]);
      var last := opts[|opts| - 1];
      assert forall o :: o in opts <==> o in opts[..|opts| - 1] || o == last;
      if IsOrigin(last) then init + [last] else init
  }

  // ---------------------------------------------------------------- route repair

  /** The route already names both ends: it holds "->" or, in any case, " to ". */
  predicate HasSeparator(route: string)
  {
    Contains(route, "->") || Contains(Lower(route), " to ")
  }

  /** An empty route becomes "Unknown Route"; a route naming only the
      destination is prefixed with the origin's originName and an arrow. */
  function RepairRoute(originName: string, route: string): (r: string)
    ensures HasSeparator(r)
    ensures route != [] && HasSeparator(route) ==> r == route
    ensures route != [] && !HasSeparator(route) ==> r == originName + " -> " + route
    ensures route == [] ==> r == originName + " -> " + UnknownRoute
  {
    var named := if route == [] then UnknownRoute else route;
    UnknownRouteUnseparated();
    if HasSeparator(named) then named
    else
      ArrowJoinSeparated(originName, named);
      originName + " -> " + named
  }

  lemma ArrowJoinSeparated(o: string, d: string)
    ensures HasSeparator(o + " -> " + d)
  {
    var r := o + " -> " + d;
    assert OccursAt(r, "->", |o| + 1) by {
      assert r[|o| + 1..|o| + 3] == "->";
    }
    ContainsIff(r, "->");
  }

  /** A place name holds neither separator. */
  lemma PlaceNameUnseparated(s: string)
    requires Route.PlaceName(s)
    ensures !HasSeparator(s)
  {
    forall j | 0 <= j <= |s|
      ensures !OccursAt(s, "->", j)
    {
      assert OccursAt(s, "->", j) ==> Route.Reserved(s[j + 1]) by {
        if OccursAt(s, "->", j) {
          OccursAtIndex(s, "->", j, 1);
        }
      }
    }
    NotContains(s, "->");
    var lower := Lower(s);
    forall j | 0 <= j <= |lower|
      ensures !OccursAt(lower, " to ", j)
    {
      assert OccursAt(lower, " to ", j) ==> Route.ToWordAt(s, j + 1) by {
        if OccursAt(lower, " to ", j) {
          OccursAtIndex(lower, " to ", j, 0);
          OccursAtIndex(lower, " to ", j, 1);
          OccursAtIndex(lower, " to ", j, 2);
          OccursAtIndex(lower, " to ", j, 3);
        }
      }
    }
    NotContains(lower, " to ");
  }

  lemma UnknownRouteIsPlaceName()
    ensures Route.PlaceName(UnknownRoute)
  {
    var s := UnknownRoute;
    assert forall k :: 0 <= k < |s| ==> s[k] != '-' && !Route.Reserved(s[k]);
    assert forall k :: 0 <= k < |s| - 1 ==> !(Route.IsT(s[k]) && Route.IsO(s[k + 1]));
  }

  lemma UnknownRouteUnseparated()
    ensures !HasSeparator(UnknownRoute)
  {
    UnknownRouteIsPlaceName();
    PlaceNameUnseparated(UnknownRoute);
  }

  /** A repaired route splits back into the origin's originName and the card's
      route (or "Unknown Route" when the card had none). */
  lemma RepairedRouteSplits(originName: string, route: string)
    requires Route.PlaceName(originName) && (route == [] || Route.PlaceName(route))
    ensures Route.SplitRoute(RepairRoute(originName, route)) == (originName, if route == [] then UnknownRoute else route)
  {
    var named := if route == [] then UnknownRoute else route;
    UnknownRouteIsPlaceName();
    PlaceNameUnseparated(named);
    Route.SplitRouteArrow(originName, named);
  }

  // ---------------------------------------------------------------- refinement

  /** A listing with a non-empty link is refined from its flight page: the
      page's price only when it has one, its seats and status always; a
      failed fetch keeps the card's values. */
  function Refine(f: Listing, fetch: string -> Option<seq<Fragment>>): (g: Listing)
    ensures g.competitor == f.competitor && g.date == f.date && g.route == f.route
    ensures g.operator == f.operator && g.departure == f.departure && g.url == f.url
    ensures f.price.Some? ==> g.price.Some?
    ensures (f.status == SoldOut ==> f.seats == None) ==> (g.status == SoldOut ==> g.seats == None)
    ensures f.url.None? || f.url.value == [] || fetch(f.url.value).None? ==> g == f
    ensures f.url.Some? && f.url.value != [] && fetch(f.url.value).Some? ==>
      var d := DetailOf(fetch(f.url.value).value);
      g.seats == d.seats && g.status == d.status && g.price == (if d.price.Some? then d.price else f.price)
  {
    if f.url.Some? && f.url.value != [] then
      match fetch(f.url.value)
      case None => f
      case Some(page) =>
        var d := DetailOf(page);
        f.(price := if d.price.Some? then d.price else f.price, seats := d.seats, status := d.status)
    else f
  }

  /** One card of an origin's answer, after the route repair and the refinement. */
  function Adjust(originName: string, f: Listing, fetch: string -> Option<seq<Fragment>>): Listing
  {
    Refine(f.(route := RepairRoute(originName, f.route)), fetch)
  }

  /** The cards of one origin, adjusted, in order. */
  function Merged(originName: string, fs: seq<Listing>, fetch: string -> Option<seq<Fragment>>): (r: seq<Listing>)
    ensures |r| == |fs|
  {
    if fs == [] then []
    else Merged(originName, fs[..|fs| - 1], fetch) + [Adjust(originName, fs[|fs| - 1], fetch)]
  }

  /** The k-th merged listing is the k-th card, adjusted. */
  lemma {:induction false} MergedAt(originName: string, fs: seq<Listing>, fetch: string -> Option<seq<Fragment>>, k: nat)
    requires k < |fs|
    ensures Merged(originName, fs, fetch)[k] == Adjust(originName, fs[k], fetch)
    decreases |fs|
  {
    if k < |fs| - 1 {
      MergedAt(originName, fs[..|fs| - 1], fetch, k);
    }
  }

  /** The answer for one origin; an HTTP error gives nothing. */
  function Batch(o: SelectOption, post: string -> Option<seq<Article>>, fetch: string -> Option<seq<Fragment>>): seq<Listing>
  {
    match post(o.value)
    case None => []
    case Some(articles) => Merged(o.text, ListingsOf(articles), fetch)
  }

  /** Every candidate of a listing, origin after origin, before deduplication. */
  function Stream(os: seq<SelectOption>, post: string -> Option<seq<Article>>, fetch: string -> Option<seq<Fragment>>): seq<Listing>
  {
    if os == [] then []
    else Stream(os[..|os| - 1], post, fetch) + Batch(os[|os| - 1], post, fetch)
  }

  /** What every collected candidate satisfies. */
  predicate Collected(f: Listing)
  {
    f.competitor == K9 && f.date != [] && HasSeparator(f.route) &&
    (f.status == SoldOut ==> f.seats == None)
  }

  /** The route repair and the refinement keep what cards promise and
      give every route both ends. */
  lemma AdjustCollected(originName: string, f: Listing, fetch: string -> Option<seq<Fragment>>)
    requires f.competitor == K9 && f.date != [] && (f.status == SoldOut ==> f.seats == None)
    ensures Collected(Adjust(originName, f, fetch))
  {
  }

  lemma {:induction false} MergedCollected(originName: string, fs: seq<Listing>, fetch: string -> Option<seq<Fragment>>)
    requires forall k :: 0 <= k < |fs| ==> fs[k].competitor == K9 && fs[k].date != [] && (fs[k].status == SoldOut ==> fs[k].seats == None)
    ensures forall f :: f in Merged(originName, fs, fetch) ==> Collected(f)
  {
    if fs != [] {
      MergedCollected(originName, fs[..|fs| - 1], fetch);
      AdjustCollected(originName, fs[|fs| - 1], fetch);
    }
  }

  lemma {:induction false} StreamCollected(os: seq<SelectOption>, post: string -> Option<seq<Article>>, fetch: string -> Option<seq<Fragment>>)
    ensures forall f :: f in Stream(os, post, fetch) ==> Collected(f)
  {
    if os != [] {
      StreamCollected(os[..|os| - 1], post, fetch);
      var o := os[|os| - 1];
      match post(o.value)
      case None =>
      case Some(articles) =>
        MergedCollected(o.text, ListingsOf(articles), fetch);
    }
  }

  // ---------------------------------------------------------------- first per key

  /** The key an HTTP listing is deduplicated on: date and route joined by "|". */
  function Key(f: Listing): string
  {
    f.date + "|" + f.route
  }

  /** Two listings share a key exactly when they share date and route,
      provided their dates hold no "|". */
  lemma KeyDetermines(f: Listing, g: Listing)
    requires '|' !in f.date && '|' !in g.date
    ensures Key(f) == Key(g) <==> f.date == g.date && f.route == g.route
  {
    JoinAtFirst(f.date, f.route, g.date, g.route, '|');
  }

  function Keys(fs: seq<Listing>): set<string>
  {
    set f | f in fs :: Key(f)
  }

  lemma KeysSnoc(xs: seq<Listing>, x: Listing)
    ensures Keys(xs + [x]) == Keys(xs) + {Key(x)}
  {
    assert forall f :: f in xs + [x] <==> f in xs || f == x;
  }

  /** Only the first listing of each key, in order. */
  function FirstPerKey(xs: seq<Listing>): (r: seq<Listing>)
    ensures forall f :: f in r ==> f in xs
    ensures Keys(r) == Keys(xs)
    ensures forall i, j :: 0 <= i < j < |r| ==> Key(r[i]) != Key(r[j])
  {
    if xs == [] then []
    else
      var init := FirstPerKey(xs[..|xs| - 1]);
      var last := xs[|xs| - 1];
      assert xs == xs[..|xs| - 1] + [last];
      KeysSnoc(xs[..|xs| - 1], last);
      if Key(last) in Keys(init) then init
      else
        KeysSnoc(init, last);
        assert forall i :: 0 <= i < |init| ==> init[i] in init && Key(init[i]) in Keys(init);
        init + [last]
  }

  /** The index of the first listing with the given key. */
  function FirstWith(xs: seq<Listing>, key: string): (i: nat)
    requires key in Keys(xs)
    ensures i < |xs| && Key(xs[i]) == key
    ensures forall j :: 0 <= j < i ==> Key(xs[j]) != key
  {
    if Key(xs[0]) == key then 0
    else
      assert key in Keys(xs[1..]) by {
        var f :| f in xs && Key(f) == key;
        assert f in xs[1..];
      }
      1 + FirstWith(xs[1..], key)
  }

  /** The listing kept for a key is the first one carrying it. */
  lemma {:induction false} KeptIsFirst(xs: seq<Listing>)
    ensures forall f :: f in FirstPerKey(xs) ==> f == xs[FirstWith(xs, Key(f))]
  {
    if xs != [] {
      var init := xs[..|xs| - 1];
      var last := xs[|xs| - 1];
      KeptIsFirst(init);
      assert xs == init + [last];
      FirstPerKeySnoc(init, last);
      var done := FirstPerKey(init);
      forall f | f in FirstPerKey(xs)
        ensures f == xs[FirstWith(xs, Key(f))]
      {
        assert f in done || (f == last && Key(f) !in Keys(done));
        KeptIsFirstStep(init, xs, done, f);
      }
    }
  }

  lemma KeptIsFirstStep(init: seq<Listing>, xs: seq<Listing>, done: seq<Listing>, f: Listing)
    requires xs != [] && init == xs[..|xs| - 1] && Keys(done) == Keys(init)
    requires forall g :: g in done ==> Key(g) in Keys(init) && g == init[FirstWith(init, Key(g))]
    requires f in done || (f == xs[|xs| - 1] && Key(f) !in Keys(done))
    ensures Key(f) in Keys(xs) && f == xs[FirstWith(xs, Key(f))]
  {
    if f in done {
      var i := FirstWith(init, Key(f));
      FirstWithPrefix(init, xs, Key(f));
      assert init[i] == xs[i];
    } else {
      LastIsFirst(init, xs);
    }
  }

  lemma FirstWithPrefix(init: seq<Listing>, xs: seq<Listing>, key: string)
    requires key in Keys(init) && |init| < |xs| && init == xs[..|init|]
    ensures key in Keys(xs) && FirstWith(xs, key) == FirstWith(init, key)
  {
    var i := FirstWith(init, key);
    assert xs[i] == init[i];
    assert key in Keys(xs);
    FirstWithIs(xs, key, i);
  }

  lemma LastIsFirst(init: seq<Listing>, xs: seq<Listing>)
    requires xs != [] && init == xs[..|xs| - 1] && Key(xs[|xs| - 1]) !in Keys(init)
    ensures Key(xs[|xs| - 1]) in Keys(xs) && FirstWith(xs, Key(xs[|xs| - 1])) == |xs| - 1
  {
    var key := Key(xs[|xs| - 1]);
    assert key in Keys(xs);
    forall j | 0 <= j < |xs| - 1
      ensures Key(xs[j]) != key
    {
      assert xs[j] in init;
    }
    FirstWithIs(xs, key, |xs| - 1);
  }

  /** The first index holding a key is the one with no earlier index holding it. */
  lemma FirstWithIs(xs: seq<Listing>, key: string, i: nat)
    requires i < |xs| && Key(xs[i]) == key && forall j :: 0 <= j < i ==> Key(xs[j]) != key
    ensures key in Keys(xs) && FirstWith(xs, key) == i
  {
    assert xs[i] in xs;
    var k := FirstWith(xs, key);
    assert !(k < i) && !(i < k);
  }

  lemma FirstPerKeySnoc(xs: seq<Listing>, x: Listing)
    ensures FirstPerKey(xs + [x]) ==
      if Key(x) in Keys(FirstPerKey(xs)) then FirstPerKey(xs) else FirstPerKey(xs) + [x]
  {
    assert (xs + [x])[..|xs|] == xs;
  }

  // ---------------------------------------------------------------- the HTTP scraper

  /** What the HTTP scraper returns: nothing when the routes page fails,
      otherwise the first candidate per key over all real departures. */
  function HttpListings(routesPage: Option<seq<SelectTag>>, post: string -> Option<seq<Article>>, fetch: string -> Option<seq<Fragment>>): (r: seq<Listing>)
    ensures routesPage.None? ==> r == []
    ensures routesPage.Some? && Origins(SelectOptions(routesPage.value, DepartureSelect)) == [] ==> r == []
  {
    match routesPage
    case None => []
    case Some(selects) => FirstPerKey(Stream(Origins(SelectOptions(selects, DepartureSelect)), post, fetch))
  }

  /** Every listing is a collected K9 listing, no two share a key, and each
      is the first candidate with its key. */
  lemma HttpListingsProperties(routesPage: Option<seq<SelectTag>>, post: string -> Option<seq<Article>>, fetch: string -> Option<seq<Fragment>>)
    requires routesPage.Some?
    ensures var xs := Stream(Origins(SelectOptions(routesPage.value, DepartureSelect)), post, fetch);
      var r := HttpListings(routesPage, post, fetch);
      (forall f :: f in r ==> Collected(f) && f == xs[FirstWith(xs, Key(f))]) &&
      (forall i, j :: 0 <= i < j < |r| ==> Key(r[i]) != Key(r[j])) &&
      Keys(r) == Keys(xs)
  {
    var xs := Stream(Origins(SelectOptions(routesPage.value, DepartureSelect)), post, fetch);
    StreamCollected(Origins(SelectOptions(routesPage.value, DepartureSelect)), post, fetch);
    KeptIsFirst(xs);
  }

  /** The updates from a flight page: its price when it has one, its seats
      and status always; nothing when the link is empty or the fetch fails. */
  method RefineListing(card: Listing, fetch: string -> Option<seq<Fragment>>) returns (f: Listing)
    ensures f == Refine(card, fetch)
  {
    f := card;
    if f.url.Some? && f.url.value != [] {
      var page := fetch(f.url.value);
      if page.Some? {
        var detail := ParseDetail(page.value);
        if detail.price.Some? {
          f := f.(price := detail.price);
        }
        f := f.(seats := detail.seats, status := detail.status);
      }
    }
  }

  /** The in-place updates of one card: the route repair, then the
      refinement from its flight page. */
  method AdjustListing(originName: string, card: Listing, fetch: string -> Option<seq<Fragment>>) returns (f: Listing)
    ensures f == Adjust(originName, card, fetch)
  {
    f := card;
    var route := if f.route == [] then UnknownRoute else f.route;
    if !Contains(route, "->") && !Contains(Lower(route), " to ") {
      route := originName + " -> " + route;
      f := f.(route := route);
    }
    assert f == card.(route := RepairRoute(originName, card.route)) by {
      UnknownRouteIsPlaceName();
      PlaceNameUnseparated(UnknownRoute);
    }
    f := RefineListing(f, fetch);
  }

  /** The inner loop over one origin's cards: each card is adjusted, and
      kept unless its key was seen. */
  method MergeOrigin(all: seq<Listing>, seen: set<string>, ghost before: seq<Listing>, originName: string, flights: seq<Listing>, fetch: string -> Option<seq<Fragment>>)
    returns (all': seq<Listing>, seen': set<string>)
    requires all == FirstPerKey(before) && seen == Keys(all)
    ensures all' == FirstPerKey(before + Merged(originName, flights, fetch)) && seen' == Keys(all')
  {
    all', seen' := all, seen;
    assert before + Merged(originName, flights[..0], fetch) == before;
    for j := 0 to |flights|
      invariant all' == FirstPerKey(before + Merged(originName, flights[..j], fetch))
      invariant seen' == Keys(all')
    {
      var f := AdjustListing(originName, flights[j], fetch);
      MergeStep(before, originName, flights, j, fetch);
      var key := f.date + "|" + f.route;
      if key in seen' {
        continue;
      }
      seen' := seen' + {key};
      KeysSnoc(all', f);
      all' := all' + [f];
    }
    assert flights[..|flights|] == flights;
  }

  lemma StreamSnoc(os: seq<SelectOption>, i: nat, post: string -> Option<seq<Article>>, fetch: string -> Option<seq<Fragment>>)
    requires i < |os|
    ensures Stream(os[..i + 1], post, fetch) == Stream(os[..i], post, fetch) + Batch(os[i], post, fetch)
  {
    assert os[..i + 1][..i] == os[..i];
  }

  /** Taking one more card of an origin into the deduplicated list. */
  lemma MergeStep(before: seq<Listing>, originName: string, fs: seq<Listing>, j: nat, fetch: string -> Option<seq<Fragment>>)
    requires j < |fs|
    ensures var done := FirstPerKey(before + Merged(originName, fs[..j], fetch));
      var f := Adjust(originName, fs[j], fetch);
      FirstPerKey(before + Merged(originName, fs[..j + 1], fetch)) ==
        if Key(f) in Keys(done) then done else done + [f]
  {
    assert fs[..j + 1][..j] == fs[..j];
    var f := Adjust(originName, fs[j], fetch);
    assert before + Merged(originName, fs[..j + 1], fetch) == (before + Merged(originName, fs[..j], fetch)) + [f];
    FirstPerKeySnoc(before + Merged(originName, fs[..j], fetch), f);
  }

  method CollectHttp(routesPage: Option<seq<SelectTag>>, post: string -> Option<seq<Article>>, fetch: string -> Option<seq<Fragment>>)
    returns (all: seq<Listing>)
    ensures all == HttpListings(routesPage, post, fetch)
  {
    if routesPage.None? {
      return [];
    }
    var opts := ExtractSelectOptions(routesPage.value, DepartureSelect);
    var origins := Origins(opts);
    if origins == [] {
      return [];
    }
    all := [];
    var seen: set<string> := {};
    assert Stream(origins[..0], post, fetch) == [];
    for i := 0 to |origins|
      invariant all == FirstPerKey(Stream(origins[..i], post, fetch))
      invariant seen == Keys(all)
    {
      StreamSnoc(origins, i, post, fetch);
      var origin := origins[i];
      var answer := post(origin.value);
      if answer.None? {
        assert Batch(origin, post, fetch) == [];
        assert Stream(origins[..i + 1], post, fetch) == Stream(origins[..i], post, fetch);
        continue;
      }
      var flights := ExtractListings(answer.value);
      ghost var before := Stream(origins[..i], post, fetch);
      all, seen := MergeOrigin(all, seen, before, origin.text, flights, fetch);
      assert Batch(origin, post, fetch) == Merged(origin.text, flights, fetch);
      assert Stream(origins[..i + 1], post, fetch) == before + Merged(origin.text, flights, fetch);
    }
    assert origins[..|origins|] == origins;
  }
}

=== FILE: debugprice.dfy ===
// The price diagnostic's shared part: the same tag stripping and price
// cleaning as the scraper, and the comparison of cleaning before and after
// unescaping character references.

module DebugPrice {
  import opened Strings
  import opened Clean
  import opened Markup

  // ---------------------------------------------------------------- before and after unescaping

  /** One line of the report: the stripped capture, its unescaped form, and
      the price cleaned from each. */
  datatype Comparison = Comparison(stripped: string, unescaped: string, wrong: Option<real>, fixed: Option<real>)

  function Compare(capture: string): (c: Comparison)
    ensures c.stripped == StripHtml(capture)
    ensures c.unescaped == Unescape(c.stripped)
    ensures c.wrong == CleanPrice(c.stripped) && c.fixed == CleanPrice(c.unescaped)
  {
    var stripped := StripHtml(capture);
    var unescaped := Unescape(stripped);
    Comparison(stripped, unescaped, CleanPrice(stripped), CleanPrice(unescaped))
  }

  /** The report covers the first twenty captures, in order. */
  function Report(captures: seq<string>): (r: seq<Comparison>)
    ensures |r| == if |captures| < 20 then |captures| else 20
    ensures forall i :: 0 <= i < |r| ==> r[i] == Compare(captures[i])
  {
    var n := if |captures| < 20 then |captures| else 20;
    seq(n, i requires 0 <= i < n => Compare(captures[i]))
  }

  /** Without a character reference, both ways give the same price. */
  lemma PlainCaptureAgrees(capture: string)
    requires '&' !in StripHtml(capture)
    ensures Compare(capture).wrong == Compare(capture).fixed
  {
    UnescapePlain(StripHtml(capture));
  }

  /** "&#36;" is the dollar sign. */
  lemma UnescapeDollar(rest: string)
    requires '&' !in rest
    ensures Unescape("&#36;" + rest) == "$" + rest
  {
    assert "&#36;" + rest == "&#" + "36" + ";" + rest;
    assert DigitsValue("36") == 36;
    UnescapeDecimal("36", rest);
    UnescapePlain(rest);
  }

  /** Cleaning the stripped text keeps the digits of the reference: "&#36;"
      followed by an amount reads as 36 written in front of that amount. */
  lemma ReferenceDigitsLeak(whole: string)
    requires whole != [] && AllDigits(whole)
    ensures AllDigits("36" + whole)
    ensures CleanPrice("&#36;" + whole) == Some(DecimalValue("36" + whole, ""))
  {
    KeepAfterReference("&#36;", "36", whole);
    var n := "36" + whole;
    assert AllDigits(n) by {
      forall k | 0 <= k < |n| ensures IsDigit(n[k]) {
        if k >= 2 { assert n[k] == whole[k - 2]; }
      }
    }
    ParseDecimalNumeral(n, []);
  }

  /** Cleaning the unescaped text reads the amount itself. */
  lemma UnescapedReadsAmount(whole: string)
    requires whole != [] && AllDigits(whole)
    ensures CleanPrice(Unescape("&#36;" + whole)) == Some(DecimalValue(whole, ""))
  {
    assert forall k :: 0 <= k < |whole| ==> whole[k] != '&';
    UnescapeDollar(whole);
    KeepAfterReference("$", "", whole);
    assert "" + whole == whole;
    ParseDecimalNumeral(whole, []);
  }

  /** Cleaning a literal prefix followed by digits keeps the prefix's digits
      and then all of the digits. */
  lemma KeepAfterReference(prefix: string, kept: string, whole: string)
    requires (prefix, kept) in {("&#36;", "36"), ("$", "")}
    requires AllDigits(whole)
    ensures KeepPriceChars(prefix + whole) == kept + whole
  {
    KeepPriceCharsAppend(prefix, whole);
    assert AllPriceChars(whole);
    KeepPriceCharsFixed(whole);
    if prefix == "$" {
      assert KeepPriceChars(prefix) == [];
    } else {
      assert prefix[1..] == "#36;" && prefix[2..] == "36;" && prefix[3..] == "6;" && prefix[4..] == ";";
      assert KeepPriceChars(prefix) == "36";
    }
  }

  /** A capture holding "&#36;" followed by an amount: stripped only, it
      cleans to the amount with 36 written in front; unescaped, to the amount. */
  lemma CompareReference(whole: string)
    requires whole != [] && AllDigits(whole)
    ensures AllDigits("36" + whole)
    ensures Compare("&#36;" + whole).wrong == Some(DecimalValue("36" + whole, ""))
    ensures Compare("&#36;" + whole).fixed == Some(DecimalValue(whole, ""))
  {
    var s := "&#36;" + whole;
    assert forall k :: 0 <= k < |s| ==> s[k] != '<' by {
      forall k | 0 <= k < |s| ensures s[k] != '<' {
        if k >= 5 { assert s[k] == whole[k - 5]; }
      }
    }
    assert !IsSpace(s[0]) && s[|s| - 1] == whole[|whole| - 1];
    StripHtmlPlain(s);
    ReferenceDigitsLeak(whole);
    UnescapedReadsAmount(whole);
  }

  /** The case the script was written for: "&#36;1000" cleans to 361000 when
      stripped only, and to 1000 once unescaped. */
  lemma DollarReferenceExample()
    ensures Compare("&#36;1000").wrong == Some(361000.0)
    ensures Compare("&#36;1000").fixed == Some(1000.0)
  {
    var amount := "1000";
    assert "&#36;" + amount == "&#36;1000" && "36" + amount == "361000";
    CompareReference(amount);
    AmountsExample();
  }

  /** Text without tags or outer whitespace passes the stripping unchanged. */
  lemma StripHtmlPlain(s: string)
    requires (forall k :: 0 <= k < |s| ==> s[k] != '<') && Trimmed(s)
    ensures StripHtml(s) == s
  {
    RemoveTagsFixed(s);
    StripFixesTrimmed(s);
  }

  lemma AmountsExample()
    ensures DecimalValue("361000", "") == 361000.0 && DecimalValue("1000", "") == 1000.0
  {
    DigitsValueExample();
  }

  lemma DigitsValueExample()
    ensures DigitsValue("361000") == 361000 && DigitsValue("1000") == 1000
  {
    assert "361000"[..5] == "36100" && "36100"[..4] == "3610" && "3610"[..3] == "361";
    assert "361"[..2] == "36" && "36"[..1] == "3" && "3"[..0] == "";
    assert "1000"[..3] == "100" && "100"[..2] == "10" && "10"[..1] == "1" && "1"[..0] == "";
  }
}

=== FILE: dollarprice.dfy ===
// The second report of the price diagnostic: every dollar amount in the
// page, as the pattern  \$[\d,]+\.?\d*  finds it, cleaned to a price.

module DollarPrice {
  import opened Strings
  import opened Clean

  predicate DigitOrComma(c: char)
  {
    IsDigit(c) || c == ','
  }

  predicate DigitsAndCommas(s: string)
  {
    forall k :: 0 <= k < |s| ==> DigitOrComma(s[k])
  }

  /** The end of the run of digits and commas that starts at i. */
  function DigitCommaEnd(s: string, i: nat): (j: nat)
    requires i <= |s|
    ensures i <= j <= |s|
    ensures forall k :: i <= k < j ==> DigitOrComma(s[k])
    ensures j == |s| || !DigitOrComma(s[j])
    decreases |s| - i
  {
    if i < |s| && DigitOrComma(s[i]) then DigitCommaEnd(s, i + 1) else i
  }

  /** The end of the run of digits that starts at i. */
  function DigitEnd(s: string, i: nat): (j: nat)
    requires i <= |s|
    ensures i <= j <= |s|
    ensures forall k :: i <= k < j ==> IsDigit(s[k])
    ensures j == |s| || !IsDigit(s[j])
    decreases |s| - i
  {
    if i < |s| && IsDigit(s[i]) then DigitEnd(s, i + 1) else i
  }

  /** The text a match of  \$[\d,]+\.?\d*  is made of: a dollar sign, a
      non-empty run of digits and commas, and, only after a dot, digits. */
  function DollarText(body: string, dot: bool, frac: string): string
  {
    "$" + body + (if dot then "." + frac else "")
  }

  predicate DollarParts(m: string, body: string, dot: bool, frac: string)
  {
    body != [] && DigitsAndCommas(body) && AllDigits(frac) && (dot || frac == []) &&
    m == DollarText(body, dot, frac)
  }

  /**
   * The greedy match of the dollar pattern starting at i, given by its end:
   * a '$', the longest run of digits and commas (at least one character), a
   * dot if one follows, then the longest run of digits.
   */
  function DollarAt(s: string, i: nat): (r: Option<nat>)
    requires i <= |s|
    ensures r.Some? <==> i + 1 < |s| && s[i] == '$' && DigitOrComma(s[i + 1])
    ensures r.Some? ==> i + 2 <= r.value <= |s| && (r.value == |s| || !IsDigit(s[r.value]))
  {
    if i < |s| && s[i] == '$' then
      var a := DigitCommaEnd(s, i + 1);
      if a == i + 1 then None
      else
        var b := if a < |s| && s[a] == '.' then a + 1 else a;
        Some(DigitEnd(s, b))
    else None
  }

  /** A text with the dollar pattern's parts. */
  ghost predicate DollarMatch(m: string)
  {
    exists body, dot, frac :: DollarParts(m, body, dot, frac)
  }

  /** Each match is a dollar sign, digits and commas, and an optional
      decimal part. */
  lemma DollarAtParts(s: string, i: nat)
    requires i <= |s| && DollarAt(s, i).Some?
    ensures DollarMatch(s[i..DollarAt(s, i).value])
  {
    var a := DigitCommaEnd(s, i + 1);
    var dot := a < |s| && s[a] == '.';
    var b := if dot then a + 1 else a;
    var e := DollarAt(s, i).value;
    var body, frac := s[i + 1..a], s[b..e];
    assert DigitsAndCommas(body);
    assert AllDigits(frac);
    if !dot {
      assert e == a by {
        if a < |s| { assert !IsDigit(s[a]); }
      }
      assert s[i..e] == "$" + body + "";
    } else {
      assert s[i..e] == "$" + body + ("." + frac);
    }
    assert DollarParts(s[i..e], body, dot, frac);
  }

  /** re.findall with the dollar pattern, scanning from i: a match is
      consumed whole and the scan resumes after it. */
  function DollarScan(s: string, i: nat): (r: seq<string>)
    requires i <= |s|
    ensures forall k :: 0 <= k < |r| ==> |r[k]| >= 2 && r[k][0] == '$'
    ensures (forall k :: i <= k < |s| ==> s[k] != '$') ==> r == []
    decreases |s| - i
  {
    if i == |s| then []
    else
      match DollarAt(s, i)
      case Some(e) => [s[i..e]] + DollarScan(s, e)
      case None => DollarScan(s, i + 1)
  }

  /** The scan finds the leftmost match at or after i, takes it whole and
      resumes right after it. */
  lemma {:induction false} DollarScanLeftmost(s: string, i: nat, p: nat)
    requires i <= p < |s| && DollarAt(s, p).Some?
    requires forall q :: i <= q < p ==> DollarAt(s, q).None?
    ensures DollarScan(s, i) == [s[p..DollarAt(s, p).value]] + DollarScan(s, DollarAt(s, p).value)
    decreases p - i
  {
    if i < p {
      assert DollarScan(s, i) == DollarScan(s, i + 1);
      DollarScanLeftmost(s, i + 1, p);
    }
  }

  /** The scan comes back empty exactly when no match starts at or after i. */
  lemma {:induction false} DollarScanEmpty(s: string, i: nat)
    requires i <= |s|
    ensures DollarScan(s, i) == [] <==> forall q :: i <= q < |s| ==> DollarAt(s, q).None?
    decreases |s| - i
  {
    if i < |s| {
      DollarScanEmpty(s, i + 1);
      if DollarAt(s, i).None? {
        assert DollarScan(s, i) == DollarScan(s, i + 1);
      }
    }
  }

  /** Every match the scan returns has the pattern's parts. */
  lemma {:induction false} DollarScanParts(s: string, i: nat, k: nat)
    requires i <= |s| && k < |DollarScan(s, i)|
    ensures DollarMatch(DollarScan(s, i)[k])
    decreases |s| - i
  {
    var r := DollarAt(s, i);
    if r.Some? {
      var e := r.value;
      assert DollarScan(s, i) == [s[i..e]] + DollarScan(s, e);
      if k == 0 {
        DollarAtParts(s, i);
      } else {
        DollarScanParts(s, e, k - 1);
      }
    } else {
      assert DollarScan(s, i) == DollarScan(s, i + 1);
      DollarScanParts(s, i + 1, k);
    }
  }

  /** KeepPriceChars on digits and commas drops exactly the commas. */
  lemma {:induction false} KeepDigitsAndCommas(body: string)
    requires DigitsAndCommas(body)
    ensures AllDigits(KeepPriceChars(body))
    ensures |KeepPriceChars(body)| == 0 <==> forall k :: 0 <= k < |body| ==> body[k] == ','
  {
    if body != [] {
      KeepDigitsAndCommas(body[1..]);
      if IsDigit(body[0]) {
        assert KeepPriceChars(body) == [body[0]] + KeepPriceChars(body[1..]);
      } else {
        assert forall k :: 1 <= k < |body| ==> body[k] == body[1..][k - 1];
      }
    }
  }

  /** The digits and dot of a dollar match: the digits of the body, then
      the decimal part. */
  lemma KeepDollarText(body: string, dot: bool, frac: string)
    requires AllDigits(frac)
    ensures KeepPriceChars(DollarText(body, dot, frac)) ==
      KeepPriceChars(body) + (if dot then "." + frac else "")
  {
    KeepDollarTail(dot, frac);
    KeepPriceCharsAppend("$" + body, if dot then "." + frac else "");
    KeepDollarSign(body);
  }

  lemma KeepDollarTail(dot: bool, frac: string)
    requires AllDigits(frac)
    ensures var tail := if dot then "." + frac else "";
      KeepPriceChars(tail) == tail
  {
    var tail := if dot then "." + frac else "";
    forall k | 0 <= k < |tail| ensures IsPriceChar(tail[k]) {
      if k > 0 { assert tail[k] == frac[k - 1]; }
    }
    KeepPriceCharsFixed(tail);
  }

  lemma KeepDollarSign(body: string)
    ensures KeepPriceChars("$" + body) == KeepPriceChars(body)
  {
    KeepPriceCharsAppend("$", body);
    KeepPriceCharsNoise("$");
  }

  /** clean_price on a dollar match drops the dollar sign and the commas and
      reads the number the remaining digits and dot write; a match with no
      digit at all (such as "$," or "$,.") gives None. */
  lemma DollarTextPrice(body: string, dot: bool, frac: string)
    requires body != [] && DigitsAndCommas(body) && AllDigits(frac) && (dot || frac == [])
    ensures AllDigits(KeepPriceChars(body))
    ensures CleanPrice(DollarText(body, dot, frac)) ==
      if |KeepPriceChars(body)| + |frac| == 0 then None
      else Some(DecimalValue(KeepPriceChars(body), frac))
  {
    KeepDigitsAndCommas(body);
    if dot {
      DottedDollarPrice(body, frac);
    } else {
      PlainDollarPrice(body);
    }
  }

  lemma DottedDollarPrice(body: string, frac: string)
    requires AllDigits(KeepPriceChars(body)) && AllDigits(frac)
    ensures CleanPrice(DollarText(body, true, frac)) ==
      if |KeepPriceChars(body)| + |frac| == 0 then None
      else Some(DecimalValue(KeepPriceChars(body), frac))
  {
    var w := KeepPriceChars(body);
    CleanDollarText(body, true, frac);
    assert w + ("." + frac) == w + "." + frac;
    ParseDotted(w, frac);
  }

  lemma PlainDollarPrice(body: string)
    requires AllDigits(KeepPriceChars(body))
    ensures CleanPrice(DollarText(body, false, "")) ==
      if KeepPriceChars(body) == [] then None else Some(DecimalValue(KeepPriceChars(body), ""))
  {
    var w := KeepPriceChars(body);
    CleanDollarText(body, false, "");
    assert w + "" == w;
    ParsePlain(w);
  }

  lemma CleanDollarText(body: string, dot: bool, frac: string)
    requires AllDigits(frac)
    ensures AllPriceChars(KeepPriceChars(body) + (if dot then "." + frac else ""))
    ensures CleanPrice(DollarText(body, dot, frac)) ==
      ParseDecimal(KeepPriceChars(body) + (if dot then "." + frac else ""))
  {
    KeepDollarText(body, dot, frac);
    assert DollarText(body, dot, frac)[0] == '$';
  }

  /** float() on digits, a dot and digits: None for a lone dot. */
  lemma ParseDotted(w: string, frac: string)
    requires AllDigits(w) && AllDigits(frac)
    ensures ParseDecimal(w + "." + frac) ==
      if |w| + |frac| == 0 then None else Some(DecimalValue(w, frac))
  {
    ParseDecimalNumeral(w, frac);
    if |w| + |frac| == 0 {
      assert w + "." + frac == ".";
      IndexOfChar(".", '.', 0);
    }
  }

  /** float() on digits alone: None for the empty text. */
  lemma ParsePlain(w: string)
    requires AllDigits(w)
    ensures ParseDecimal(w) == if w == [] then None else Some(DecimalValue(w, ""))
  {
    ParseDecimalNumeral(w, "");
    IndexOfCharNone(w, '.');
  }

  /** The diagnostic's second report: every dollar amount in the page with
      its cleaned price. */
  function DollarPrices(html: string): (r: seq<(string, Option<real>)>)
    ensures |r| == |DollarScan(html, 0)|
    ensures forall k :: 0 <= k < |r| ==> r[k].0 == DollarScan(html, 0)[k] && r[k].1 == CleanPrice(r[k].0)
  {
    var ms := DollarScan(html, 0);
    seq(|ms|, k requires 0 <= k < |ms| => (ms[k], CleanPrice(ms[k])))
  }

  /** Each reported dollar amount is cleaned to the number its digits write,
      with the dollar sign and the commas dropped. */
  lemma DollarPricesBare(html: string, k: nat)
    requires k < |DollarPrices(html)|
    ensures exists body, dot, frac :: (DollarParts(DollarPrices(html)[k].0, body, dot, frac) &&
      AllDigits(KeepPriceChars(body)) &&
      DollarPrices(html)[k].1 == (if |KeepPriceChars(body)| + |frac| == 0 then None
        else Some(DecimalValue(KeepPriceChars(body), frac))))
  {
    var m := DollarPrices(html)[k].0;
    DollarScanParts(html, 0, k);
    var body, dot, frac :| DollarParts(m, body, dot, frac);
    DollarTextPrice(body, dot, frac);
  }
}

=== FILE: markup.dfy ===
/**
 * The markup side of the scraper: removing tags (_strip_html), the
 * class-attribute patterns it uses to find titles, routes, prices, stock
 * text, headings and booking links, reading the departure <select>, and the
 * character references html.unescape resolves in a captured link or price.
 *
 * A page is abstracted to its elements in document order. Each Fragment
 * records what a pattern of the form  class="...NAME..."...>(.*?)TERMINATOR
 * looks at: the tag name, the class attribute, an href written after the
 * class, and the markup that follows the opening tag.
 */
module Markup {
  import opened Strings

  // ---------------------------------------------------------------- tags

  /** No '<' is followed, anywhere later, by a '>'. */
  predicate NoTag(s: string)
  {
    forall i, j :: 0 <= i < j < |s| && s[i] == '<' ==> s[j] != '>'
  }

  lemma NoTagCons(c: char, t: string)
    requires c != '<' && NoTag(t)
    ensures NoTag([c] + t)
  {
    var s := [c] + t;
    forall i, j | 0 <= i < j < |s| && s[i] == '<'
      ensures s[j] != '>'
    {
      assert s[i] == t[i - 1] && s[j] == t[j - 1];
    }
  }

  /**
   * re.sub(r"<.*?>", "", text, flags=re.S): from left to right, every '<'
   * and the nearest '>' after it are deleted together with what lies
   * between; a '<' with no '>' after it stays, and so does the rest.
   */
  function RemoveTags(s: string): (r: string)
    ensures NoTag(r) && |r| <= |s|
    decreases |s|
  {
    if s == [] then []
    else if s[0] == '<' then
      match CharFrom(s, '>', 1)
      case Some(j) => RemoveTags(s[j + 1..])
      case None => s
    else
      NoTagCons(s[0], RemoveTags(s[1..]));
      [s[0]] + RemoveTags(s[1..])
  }

  /** The deletion step: text before the first '<' is kept and the shortest
      span from that '<' to the next '>' is removed. */
  lemma {:induction false} RemoveTagsSpan(a: string, m: string, b: string)
    requires '<' !in a && '>' !in m
    ensures RemoveTags(a + "<" + m + ">" + b) == a + RemoveTags(b)
  {
    var s := a + "<" + m + ">" + b;
    if a == [] {
      assert s == "<" + m + ">" + b;
      assert s[|m| + 1] == '>';
      forall k | 1 <= k < |m| + 1
        ensures s[k] != '>'
      {
        assert s[k] == m[k - 1];
      }
      assert CharFrom(s, '>', 1) == Some(|m| + 1);
      assert s[|m| + 2..] == b;
    } else {
      var rest := a[1..] + "<" + m + ">" + b;
      assert s == [a[0]] + rest;
      assert s[1..] == rest;
      RemoveTagsSpan(a[1..], m, b);
      assert a == [a[0]] + a[1..];
    }
  }

  /** Text without a tag is left exactly as it is, and only such text is. */
  lemma {:induction false} RemoveTagsFixed(t: string)
    ensures RemoveTags(t) == t <==> NoTag(t)
    decreases |t|
  {
    if NoTag(t) && t != [] {
      if t[0] != '<' {
        assert NoTag(t[1..]) by {
          forall i, j | 0 <= i < j < |t[1..]| && t[1..][i] == '<'
            ensures t[1..][j] != '>'
          {
            assert t[i + 1] == '<';
          }
        }
        RemoveTagsFixed(t[1..]);
        assert [t[0]] + t[1..] == t;
      }
    }
  }

  lemma NoTagInfix(s: string, a: nat, b: nat)
    requires NoTag(s) && a <= b <= |s|
    ensures NoTag(s[a..b])
  {
    forall i, j | 0 <= i < j < |s[a..b]| && s[a..b][i] == '<'
      ensures s[a..b][j] != '>'
    {
      assert s[a + i] == '<';
    }
  }

  /** _strip_html: tags removed, then str.strip(). */
  function StripHtml(s: string): (r: string)
    ensures NoTag(r) && Trimmed(r)
  {
    var t := RemoveTags(s);
    var r := Strip(t);
    var a, b :| 0 <= a <= b <= |t| && r == t[a..b] && AllSpace(t[..a]) && AllSpace(t[b..]);
    NoTagInfix(t, a, b);
    r
  }

  /** Stripping the tags of already stripped text changes nothing. */
  lemma StripHtmlIdempotent(s: string)
    ensures StripHtml(StripHtml(s)) == StripHtml(s)
  {
    var r := StripHtml(s);
    RemoveTagsFixed(r);
    StripFixesTrimmed(r);
  }

  /** Markup that is only one element around text gives the trimmed text. */
  lemma StripHtmlElement(open: string, text: string, close: string)
    requires '>' !in open && '>' !in close && '<' !in text
    ensures StripHtml("<" + open + ">" + text + "<" + close + ">") == Strip(text)
  {
    var tail := text + "<" + close + ">";
    calc {
      RemoveTags("<" + open + ">" + text + "<" + close + ">");
      { assert "<" + open + ">" + text + "<" + close + ">" == [] + "<" + open + ">" + tail; }
      RemoveTags([] + "<" + open + ">" + tail);
      { RemoveTagsSpan([], open, tail); }
      [] + RemoveTags(tail);
      { assert tail == text + "<" + close + ">" + []; }
      RemoveTags(text + "<" + close + ">" + []);
      { RemoveTagsSpan(text, close, []); }
      text + RemoveTags([]);
      { assert text + [] == text; }
      text;
    }
  }

  // ---------------------------------------------------------------- patterns

  /** One element as the class-attribute patterns see it. */
  datatype Fragment = Fragment(tag: string, cls: string, href: Option<string>, rest: string)

  /**
   * A pattern  <TAG[^>]*class="[^"]*NAME[^"]*"[^>]*>(.*?)TERM  with the
   * IGNORECASE flag: tag and name are written in lower case and compared
   * with the lowered markup; a pattern without a tag accepts any element.
   */
  datatype Pattern = Pattern(tag: Option<string>, name: string, term: string)

  predicate WellFormed(p: Pattern)
  {
    |p.term| > 0
  }

  const TitlePattern := Pattern(None, "elementor-icon-box-title", "</")
  const RoutePattern := Pattern(None, "elementor-icon-box-description", "</")
  const PricePattern := Pattern(None, "woocommerce-price-amount", "</")
  const StockPattern := Pattern(None, "stock", "</")
  const HeadingPattern := Pattern(Some("p"), "elementor-heading-title", "</p>")
  const StockParagraphPattern := Pattern(Some("p"), "stock", "</p>")

  /**
   * The lazy group: the markup before the first occurrence of the
   * terminator (found case-insensitively), or no match when the terminator
   * never occurs. The capture never contains the terminator itself.
   */
  function CaptureBefore(rest: string, term: string): (r: Option<string>)
    requires |term| > 0
    ensures r.Some? ==> |r.value| <= |rest| && r.value == rest[..|r.value|]
    ensures r.Some? ==> OccursAt(Lower(rest), term, |r.value|) && !Contains(Lower(r.value), term)
    ensures r.None? <==> !Contains(Lower(rest), term)
  {
    match IndexOf(Lower(rest), term)
    case None => None
    case Some(i) =>
      PrefixBeforeFirst(Lower(rest), term, i);
      assert Lower(rest[..i]) == Lower(rest)[..i];
      Some(rest[..i])
  }

  predicate Selects(p: Pattern, f: Fragment)
  {
    (p.tag.None? || Lower(f.tag) == p.tag.value) && Contains(Lower(f.cls), p.name)
  }

  /** What the pattern captures at this element, if it matches there. */
  function Capture(p: Pattern, f: Fragment): Option<string>
    requires WellFormed(p)
  {
    if Selects(p, f) then CaptureBefore(f.rest, p.term) else None
  }

  /** re.search: the capture at the first element where the pattern matches. */
  function Search(p: Pattern, frags: seq<Fragment>): (r: Option<string>)
    requires WellFormed(p)
    ensures r.Some? ==> exists k :: (0 <= k < |frags| && Capture(p, frags[k]) == r &&
      forall j :: 0 <= j < k ==> Capture(p, frags[j]).None?)
    ensures r.None? ==> forall k :: 0 <= k < |frags| ==> Capture(p, frags[k]).None?
  {
    if frags == [] then None
    else
      var c := Capture(p, frags[0]);
      if c.Some? then
        assert Capture(p, frags[0]) == c;
        c
      else
        var r := Search(p, frags[1..]);
        if r.Some? then
          var k :| 0 <= k < |frags[1..]| && Capture(p, frags[1..][k]) == r &&
            forall j :: 0 <= j < k ==> Capture(p, frags[1..][j]).None?;
          assert Capture(p, frags[k + 1]) == r;
          r
        else r
  }

  /** re.findall: every capture, in document order. */
  function FindAll(p: Pattern, frags: seq<Fragment>): (r: seq<string>)
    requires WellFormed(p)
    ensures |r| <= |frags|
  {
    if frags == [] then []
    else
      var rest := FindAll(p, frags[..|frags| - 1]);
      match Capture(p, frags[|frags| - 1])
      case Some(c) => rest + [c]
      case None => rest
  }

  // ---------------------------------------------------------------- links

  /** The link pattern: an <a> element whose class names elementor-button and
      whose href, written after the class, has "/flight/" with text on both
      sides. The capture is the whole href value. */
  predicate FlightLink(h: string)
  {
    match IndexFrom(Lower(h), "/flight/", 1)
    case Some(i) => i + 8 < |h|
    case None => false
  }

  function LinkCapture(f: Fragment): Option<string>
  {
    if Lower(f.tag) == "a" && Contains(Lower(f.cls), "elementor-button") &&
       f.href.Some? && FlightLink(f.href.value)
    then f.href
    else None
  }

  /** re.search with the link pattern: the href of the first matching <a>. */
  function SearchLink(frags: seq<Fragment>): (r: Option<string>)
    ensures r.Some? ==> FlightLink(r.value)
    ensures r.Some? ==> exists k :: (0 <= k < |frags| && LinkCapture(frags[k]) == r &&
      forall j :: 0 <= j < k ==> LinkCapture(frags[j]).None?)
    ensures r.None? ==> forall k :: 0 <= k < |frags| ==> LinkCapture(frags[k]).None?
  {
    if frags == [] then None
    else
      var c := LinkCapture(frags[0]);
      if c.Some? then
        assert LinkCapture(frags[0]) == c;
        c
      else
        var r := SearchLink(frags[1..]);
        if r.Some? then
          var k :| 0 <= k < |frags[1..]| && LinkCapture(frags[1..][k]) == r &&
            forall j :: 0 <= j < k ==> LinkCapture(frags[1..][j]).None?;
          assert LinkCapture(frags[k + 1]) == r;
          r
        else r
  }

  // ---------------------------------------------------------------- references

  /** A decimal character reference at i: "&#", digits, then an optional ';'.
      Returns the number and where the reference ends. */
  function NumericRef(s: string, i: nat): (r: Option<(nat, nat)>)
    ensures r.Some? ==> i + 2 < r.value.1 <= |s|
  {
    if i + 2 < |s| && s[i] == '&' && s[i + 1] == '#' && IsDigit(s[i + 2]) then
      var run := DigitRunFrom(s, i + 2);
      var e := i + 2 + |run|;
      Some((DigitsValue(run), if e < |s| && s[e] == ';' then e + 1 else e))
    else None
  }

  function DigitRunFrom(s: string, i: nat): (r: string)
    requires i <= |s|
    ensures i + |r| <= |s| && r == s[i..i + |r|] && AllDigits(r)
    ensures i < |s| && IsDigit(s[i]) ==> |r| > 0
    ensures i + |r| == |s| || !IsDigit(s[i + |r|])
    decreases |s| - i
  {
    if i < |s| && IsDigit(s[i]) then [s[i]] + DigitRunFrom(s, i + 1) else []
  }

  /**
   * html.unescape for the references a price or link carries: "&amp;", and
   * decimal references to printable ASCII characters, with or without the
   * closing ';'. Everything else is copied.
   */
  function Unescape(s: string): (r: string)
    ensures |r| <= |s|
    ensures r == [] <==> s == []
    decreases |s|
  {
    if s == [] then []
    else if |s| >= 5 && s[..5] == "&amp;" then "&" + Unescape(s[5..])
    else
      match NumericRef(s, 0)
      case Some((v, e)) =>
        if 32 <= v <= 126 then [v as char] + Unescape(s[e..])
        else [s[0]] + Unescape(s[1..])
      case None => [s[0]] + Unescape(s[1..])
  }

  /** Text with no '&' is not changed by unescaping. */
  lemma {:induction false} UnescapePlain(s: string)
    requires '&' !in s
    ensures Unescape(s) == s
  {
    if s != [] {
      assert s[0] != '&';
      UnescapePlain(s[1..]);
      assert [s[0]] + s[1..] == s;
    }
  }

  /** "&amp;" unescapes to "&", whatever follows it. */
  lemma UnescapeAmp(rest: string)
    ensures Unescape("&amp;" + rest) == "&" + Unescape(rest)
  {
    var s := "&amp;" + rest;
    assert s[..5] == "&amp;" && s[5..] == rest;
  }

  /** A decimal reference to a printable ASCII character, closed by ';',
      unescapes to that character, whatever follows it. */
  lemma UnescapeDecimal(d: string, rest: string)
    requires d != [] && AllDigits(d) && 32 <= DigitsValue(d) <= 126
    ensures Unescape("&#" + d + ";" + rest) == [DigitsValue(d) as char] + Unescape(rest)
  {
    var s := "&#" + d + ";" + rest;
    var e := 2 + |d|;
    assert s[e] == ';' && s[e + 1..] == rest;
    ReferenceAt(s, d);
    UnescapeAtReference(s);
  }

  /** Without the ';', the reference ends where its digits do. */
  lemma UnescapeDecimalOpen(d: string, rest: string)
    requires d != [] && AllDigits(d) && 32 <= DigitsValue(d) <= 126
    requires rest == [] || (!IsDigit(rest[0]) && rest[0] != ';')
    ensures Unescape("&#" + d + rest) == [DigitsValue(d) as char] + Unescape(rest)
  {
    var s := "&#" + d + rest;
    var e := 2 + |d|;
    assert s[e..] == rest;
    assert e < |s| ==> s[e] == rest[0];
    ReferenceAt(s, d);
    UnescapeAtReference(s);
  }

  /** The reference "&#" + d at the start of s, and where it ends. */
  lemma ReferenceAt(s: string, d: string)
    requires d != [] && AllDigits(d) && 2 + |d| <= |s| && s[0] == '&' && s[1] == '#'
    requires forall k :: 0 <= k < |d| ==> s[2 + k] == d[k]
    requires 2 + |d| == |s| || !IsDigit(s[2 + |d|])
    ensures NumericRef(s, 0) == Some((DigitsValue(d),
      if 2 + |d| < |s| && s[2 + |d|] == ';' then 3 + |d| else 2 + |d|))
  {
    assert s[2] == d[0];
    DigitRunIs(s, 2, d);
  }

  /** One step of unescaping at a reference to a printable character. */
  lemma UnescapeAtReference(s: string)
    requires |s| > 1 && s[1] == '#' && NumericRef(s, 0).Some?
    requires 32 <= NumericRef(s, 0).value.0 <= 126
    ensures Unescape(s) == [NumericRef(s, 0).value.0 as char] + Unescape(s[NumericRef(s, 0).value.1..])
  {
    assert !(|s| >= 5 && s[..5] == "&amp;") by {
      if |s| >= 5 { assert s[..5][1] == '#'; }
    }
  }

  /** The digit run at i is d when d is there and no digit follows it. */
  lemma DigitRunIs(s: string, i: nat, d: string)
    requires AllDigits(d) && i + |d| <= |s| && forall k :: 0 <= k < |d| ==> s[i + k] == d[k]
    requires i + |d| == |s| || !IsDigit(s[i + |d|])
    ensures DigitRunFrom(s, i) == d
  {
    var r := DigitRunFrom(s, i);
    assert forall k :: i <= k < i + |r| ==> IsDigit(s[k]) by {
      forall k | i <= k < i + |r| ensures IsDigit(s[k]) { assert s[k] == r[k - i]; }
    }
    assert forall k :: i <= k < i + |d| ==> IsDigit(s[k]) by {
      forall k | i <= k < i + |d| ensures IsDigit(s[k]) { assert s[i + (k - i)] == d[k - i]; }
    }
    assert |r| == |d|;
    forall k | 0 <= k < |d| ensures r[k] == d[k] { assert r[k] == s[i + k]; }
  }

  // ---------------------------------------------------------------- select

  /** An <option> with its value attribute (None when absent or empty) and
      the markup after its opening tag. */
  datatype OptionTag = OptionTag(value: Option<string>, rest: string)

  /** A <select> with its name attribute, whether a closing tag follows, and
      its options. */
  datatype SelectTag = SelectTag(name: string, closed: bool, options: seq<OptionTag>)

  datatype SelectOption = SelectOption(value: string, text: string)

  /** The select pattern: the escaped name matched case-insensitively, and a
      closing </select> needed for the lazy group to end. */
  function FindSelect(selects: seq<SelectTag>, name: string): (r: Option<SelectTag>)
    ensures r.Some? ==> r.value in selects && r.value.closed && Lower(r.value.name) == Lower(name)
    ensures r.None? ==> forall k :: 0 <= k < |selects| ==>
      !(selects[k].closed && Lower(selects[k].name) == Lower(name))
  {
    if selects == [] then None
    else if selects[0].closed && Lower(selects[0].name) == Lower(name) then Some(selects[0])
    else FindSelect(selects[1..], name)
  }

  /** What one <option> contributes: nothing without a value, without a
      closing </option>, or when the value is blank; otherwise the stripped
      value and the label without tags. */
  function OptionEntry(o: OptionTag): (r: seq<SelectOption>)
    ensures |r| <= 1
    ensures |r| == 1 ==> o.value.Some? && r[0].value == Strip(o.value.value) && GoodOption(r[0])
    ensures |r| == 1 <==> o.value.Some? && Strip(o.value.value) != [] && CaptureBefore(o.rest, "</option>").Some?
    ensures |r| == 1 ==> r[0].text == StripHtml(CaptureBefore(o.rest, "</option>").value)
  {
    if o.value.Some? && o.value.value != [] then
      match CaptureBefore(o.rest, "</option>")
      case Some(caption) =>
        var v := Strip(o.value.value);
        if v != [] then [SelectOption(v, StripHtml(caption))] else []
      case None => []
    else []
  }

  /** A non-blank value with no outer whitespace, and a label free of tags
      and outer whitespace. */
  predicate GoodOption(o: SelectOption)
  {
    o.value != [] && Trimmed(o.value) && NoTag(o.text) && Trimmed(o.text)
  }

  /** The options read, in order: at most one per <option>, each well formed. */
  function OptionsOf(os: seq<OptionTag>): (r: seq<SelectOption>)
    ensures |r| <= |os|
    ensures forall k :: 0 <= k < |r| ==> GoodOption(r[k])
  {
    if os == [] then [] else OptionsOf(os[..|os| - 1]) + OptionEntry(os[|os| - 1])
  }

  /** The options kept from a + b are those kept from a, then those kept
      from b: with OptionsOf([o]) == OptionEntry(o), the list holds each
      option's entry in document order. */
  lemma {:induction false} OptionsOfAppend(a: seq<OptionTag>, b: seq<OptionTag>)
    ensures OptionsOf(a + b) == OptionsOf(a) + OptionsOf(b)
    decreases |b|
  {
    if b == [] {
      assert a + b == a;
    } else {
      var init, last := b[..|b| - 1], b[|b| - 1];
      var ai := a + init;
      assert a + b == ai + [last];
      assert b == init + [last];
      OptionsOfSnoc(ai, last);
      OptionsOfSnoc(init, last);
      OptionsOfAppend(a, init);
      AppendAssoc(OptionsOf(a), OptionsOf(init), OptionEntry(last));
    }
  }

  lemma OptionsOfSnoc(os: seq<OptionTag>, o: OptionTag)
    ensures OptionsOf(os + [o]) == OptionsOf(os) + OptionEntry(o)
  {
    assert (os + [o])[..|os|] == os;
  }

  lemma OptionsOfPrefix(os: seq<OptionTag>, i: nat)
    requires i < |os|
    ensures OptionsOf(os[..i + 1]) == OptionsOf(os[..i]) + OptionEntry(os[i])
  {
    assert os[..i + 1] == os[..i] + [os[i]];
    OptionsOfSnoc(os[..i], os[i]);
  }

  lemma OptionsOfOne(o: OptionTag)
    ensures OptionsOf([o]) == OptionEntry(o)
  {
    assert [o][..0] == [];
  }

  function SelectOptions(selects: seq<SelectTag>, name: string): seq<SelectOption>
  {
    match FindSelect(selects, name)
    case None => []
    case Some(sel) => OptionsOf(sel.options)
  }

  /** _extract_select_options: the options of the first matching select, in
      order, each kept only when its stripped value is not blank. */
  method ExtractSelectOptions(selects: seq<SelectTag>, name: string) returns (opts: seq<SelectOption>)
    ensures opts == SelectOptions(selects, name)
  {
    var found := FindSelect(selects, name);
    if found.None? {
      return [];
    }
    var os := found.value.options;
    opts := [];
    var i := 0;
    while i < |os|
      invariant 0 <= i <= |os|
      invariant opts == OptionsOf(os[..i])
    {
      OptionsOfPrefix(os, i);
      var o := os[i];
      ghost var before := opts;
      if o.value.Some? && o.value.value != [] {
        match CaptureBefore(o.rest, "</option>") {
          case Some(caption) =>
            var v := Strip(o.value.value);
            if v != [] {
              opts := opts + [SelectOption(v, StripHtml(caption))];
            }
          case None =>
        }
      }
      assert opts == before + OptionEntry(o);
      i := i + 1;
    }
    assert os[..|os|] == os;
  }
}

=== FILE: network.dfy ===
// Network analysis: the airport-name table that merges the scraped spellings
// of each airport, the normalisation built on it, and the per-airport
// balance of departures and arrivals for each competitor.

module Network {
  import opened Strings

  // ---------------------------------------------------------------- airport names

  /** The spellings seen in the data, each mapped to one canonical name. */
  const AirportMapping: map<string, string> := map[
    "London, UK" := "London",
    "London/, UK" := "London",
    "Farnborough, UK" := "London (Farnborough)",
    "Biggin Hill, UK" := "London (Biggin Hill)",
    "Birmingham, UK" := "Birmingham",
    "Milan, UK" := "Milan",
    "Milan, Italy" := "Milan",
    "Madrid, UK" := "Madrid",
    "Madrid, Spain" := "Madrid",
    "Paris, France" := "Paris",
    "Le Bourget Paris, France" := "Paris (Le Bourget)",
    "Paris (Le Bourget)" := "Paris (Le Bourget)",
    "Nice, France" := "Nice",
    "Geneva, Switzerland" := "Geneva",
    "Zurich, Switzerland" := "Zurich",
    "Frankfurt, Germany" := "Frankfurt",
    "Lisbon, Portugal" := "Lisbon",
    "Dublin, Ireland" := "Dublin",
    "Toronto, UK" := "Toronto",
    "Toronto, Canada" := "Toronto",
    "Vancouver, Canada" := "Vancouver",
    "New Jersey, US" := "New York (Teterboro)",
    "Teterboro, NJ" := "New York (Teterboro)",
    "Teterboro, New Jersey" := "New York (Teterboro)",
    "New York (Teterboro)" := "New York (Teterboro)",
    "White Plains, NY" := "New York (White Plains)",
    "Los Angeles, US" := "Los Angeles (Van Nuys)",
    "Los Angeles" := "Los Angeles (Van Nuys)",
    "Van Nuys, California" := "Los Angeles (Van Nuys)",
    "Van Nuys, CA" := "Los Angeles (Van Nuys)",
    "Miami, US" := "Miami",
    "Miami, Florida" := "Miami",
    "West Palm Beach, Florida" := "West Palm Beach",
    "Dubai, UAE" := "Dubai"
  ]

  /** The canonical name of a stripped name: its table entry, or itself. */
  function Lookup(clean: string): string
  {
    if clean in AirportMapping then AirportMapping[clean] else clean
  }

  /** An absent cell (None or NaN), an empty name and a name that strips to
      "0" give no airport; any other name is stripped and looked up. */
  function NormalizeAirport(name: Option<string>): (r: Option<string>)
    ensures r.None? <==> name.None? || name.value == [] || Strip(name.value) == "0"
    ensures r.Some? ==> r.value == Lookup(Strip(name.value))
  {
    if name.None? || name.value == [] then None
    else
      var clean := Strip(name.value);
      if clean == "0" then None else Some(Lookup(clean))
  }

  /** A name the table does not know comes back stripped and otherwise unchanged. */
  lemma UnmappedComesBackStripped(name: string)
    requires name != [] && Strip(name) != "0" && Strip(name) !in AirportMapping
    ensures NormalizeAirport(Some(name)) == Some(Strip(name))
    ensures Strip(name) == name <==> Trimmed(name)
  {
    StripFixesTrimmed(name);
  }

  /** Padding around a known spelling does not matter. */
  lemma PaddingIgnored(a: string, name: string, b: string)
    requires AllSpace(a) && AllSpace(b) && name != [] && Trimmed(name) && name != "0"
    ensures NormalizeAirport(Some(a + name + b)) == NormalizeAirport(Some(name))
  {
    StripPadded(a, name, b);
    StripFixesTrimmed(name);
  }

  /** A known spelling without outer whitespace gets its table entry. */
  lemma KnownSpelling(name: string)
    requires name in AirportMapping && Trimmed(name) && name != "0"
    ensures NormalizeAirport(Some(name)) == Some(AirportMapping[name])
  {
    StripFixesTrimmed(name);
  }

  /** The four Los Angeles spellings all become the Van Nuys airport. */
  lemma VanNuysMerged()
    ensures NormalizeAirport(Some("Van Nuys, CA")) == Some("Los Angeles (Van Nuys)")
    ensures NormalizeAirport(Some("Van Nuys, California")) == Some("Los Angeles (Van Nuys)")
    ensures NormalizeAirport(Some("Los Angeles, US")) == Some("Los Angeles (Van Nuys)")
    ensures NormalizeAirport(Some("Los Angeles")) == Some("Los Angeles (Van Nuys)")
  {
    KnownSpelling("Van Nuys, CA");
    KnownSpelling("Van Nuys, California");
    KnownSpelling("Los Angeles, US");
    KnownSpelling("Los Angeles");
  }

  /** A canonical name normalises to itself. */
  predicate Settled(v: string)
  {
    v != [] && v != "0" && Trimmed(v) && Lookup(v) == v
  }

  // The canonical names are checked a region at a time: one lemma per
  // region keeps each proof small for the solver.

  lemma SettledLondon()
    ensures Settled("London") && Settled("London (Farnborough)") && Settled("London (Biggin Hill)")
  {
  }

  lemma SettledBritainIreland()
    ensures Settled("Birmingham") && Settled("Dublin")
  {
  }

  lemma SettledFrance()
    ensures Settled("Paris") && Settled("Paris (Le Bourget)") && Settled("Nice")
  {
  }

  lemma SettledAlpsRhine()
    ensures Settled("Geneva") && Settled("Zurich") && Settled("Frankfurt")
  {
  }

  lemma SettledSouthernEurope()
    ensures Settled("Milan") && Settled("Madrid") && Settled("Lisbon")
  {
  }

  lemma SettledCanada()
    ensures Settled("Toronto") && Settled("Vancouver")
  {
  }

  lemma SettledNewYorkDubai()
    ensures Settled("New York (Teterboro)") && Settled("New York (White Plains)") && Settled("Dubai")
  {
  }

  lemma SettledVanNuys()
    ensures Settled("Los Angeles (Van Nuys)")
  {
  }

  lemma SettledFlorida()
    ensures Settled("Miami") && Settled("West Palm Beach")
  {
  }

  /** The canonical names the table maps to. */
  const CanonicalNames: set<string> := {
    "London",
    "London (Farnborough)",
    "London (Biggin Hill)",
    "Birmingham",
    "Milan",
    "Madrid",
    "Paris",
    "Paris (Le Bourget)",
    "Nice",
    "Geneva",
    "Zurich",
    "Frankfurt",
    "Lisbon",
    "Dublin",
    "Toronto",
    "Vancouver",
    "New York (Teterboro)",
    "New York (White Plains)",
    "Los Angeles (Van Nuys)",
    "Dubai",
    "Miami",
    "West Palm Beach"
  }

  lemma MappingIntoCanonical()
    ensures forall k :: k in AirportMapping ==> AirportMapping[k] in CanonicalNames
  {
  }

  lemma CanonicalSettled(v: string)
    requires v in CanonicalNames
    ensures Settled(v)
  {
    if v == "London" || v == "London (Farnborough)" || v == "London (Biggin Hill)" {
      SettledLondon();
    } else if v == "Birmingham" || v == "Dublin" {
      SettledBritainIreland();
    } else if v == "Paris" || v == "Paris (Le Bourget)" || v == "Nice" {
      SettledFrance();
    } else if v == "Geneva" || v == "Zurich" || v == "Frankfurt" {
      SettledAlpsRhine();
    } else if v == "Milan" || v == "Madrid" || v == "Lisbon" {
      SettledSouthernEurope();
    } else if v == "Toronto" || v == "Vancouver" {
      SettledCanada();
    } else if v == "New York (Teterboro)" || v == "New York (White Plains)" || v == "Dubai" {
      SettledNewYorkDubai();
    } else if v == "Los Angeles (Van Nuys)" {
      SettledVanNuys();
    } else if v == "Miami" || v == "West Palm Beach" {
      SettledFlorida();
    }
  }

  /** Every name the table produces normalises to itself. */
  lemma MappingSettled()
    ensures forall k :: k in AirportMapping ==> Settled(AirportMapping[k])
  {
    MappingIntoCanonical();
    forall k | k in AirportMapping
      ensures Settled(AirportMapping[k])
    {
      CanonicalSettled(AirportMapping[k]);
    }
  }

  /** Normalising twice is normalising once, except for a name made only of
      whitespace, which survives the emptiness test and strips to "". */
  lemma NormalizeIdempotent(name: Option<string>)
    requires NormalizeAirport(name) != Some("")
    ensures NormalizeAirport(NormalizeAirport(name)) == NormalizeAirport(name)
  {
    if NormalizeAirport(name).Some? {
      var clean := Strip(name.value);
      if clean in AirportMapping {
        MappingSettled();
        StripFixesTrimmed(AirportMapping[clean]);
      } else {
        StripIdempotent(name.value);
      }
    }
  }

  /** A whitespace-only name is not rejected: it normalises to the empty
      name, which a second pass would reject. */
  lemma BlankNameKept(name: string)
    requires name != [] && AllSpace(name)
    ensures NormalizeAirport(Some(name)) == Some("")
    ensures NormalizeAirport(Some("")) == None
  {
    StripEmpty(name);
    assert "" !in AirportMapping;
  }

  /** No name normalises to "0": the table never produces it and a stripped
      "0" is rejected before the lookup. */
  lemma NormalizeNeverZero(name: Option<string>)
    ensures NormalizeAirport(name) != Some("0")
  {
    if NormalizeAirport(name).Some? && Strip(name.value) in AirportMapping {
      MappingSettled();
    }
  }

  // ---------------------------------------------------------------- network balance

  /** One row of the flights table: its id, its competitor and its two raw
      airport cells (None for a missing or NaN cell). */
  datatype FlightRow = FlightRow(id: int, competitor: string, origin: Option<string>, destination: Option<string>)

  /** A flight after normalisation, with both airports known. */
  datatype Leg = Leg(competitor: string, origin: string, destination: string)

  function Ids(rows: seq<FlightRow>): set<int>
  {
    set x | x in rows :: x.id
  }

  lemma IdsSnoc(rows: seq<FlightRow>, x: FlightRow)
    ensures Ids(rows + [x]) == Ids(rows) + {x.id}
  {
    assert forall y :: y in rows + [x] <==> y in rows || y == x;
  }

  /** drop_duplicates on the id: the first row of each id, in order. */
  function FirstPerId(rows: seq<FlightRow>): (r: seq<FlightRow>)
    ensures forall x :: x in r ==> x in rows
    ensures Ids(r) == Ids(rows)
    ensures forall i, j :: 0 <= i < j < |r| ==> r[i].id != r[j].id
  {
    if rows == [] then []
    else
      var init := FirstPerId(rows[..|rows| - 1]);
      var last := rows[|rows| - 1];
      assert rows == rows[..|rows| - 1] + [last];
      IdsSnoc(rows[..|rows| - 1], last);
      if last.id in Ids(init) then init
      else
        IdsSnoc(init, last);
        assert forall i :: 0 <= i < |init| ==> init[i] in init && init[i].id in Ids(init);
        init + [last]
  }

  /** The index of the first row carrying the given id. */
  function FirstIdAt(rows: seq<FlightRow>, id: int): (i: nat)
    requires id in Ids(rows)
    ensures i < |rows| && rows[i].id == id
    ensures forall j :: 0 <= j < i ==> rows[j].id != id
  {
    if rows[0].id == id then 0
    else
      assert id in Ids(rows[1..]) by {
        var x :| x in rows && x.id == id;
        assert x in rows[1..];
      }
      1 + FirstIdAt(rows[1..], id)
  }

  /** A row is dropped exactly when an earlier kept row has its id. */
  lemma FirstPerIdSnoc(rows: seq<FlightRow>, x: FlightRow)
    ensures FirstPerId(rows + [x]) ==
      if x.id in Ids(FirstPerId(rows)) then FirstPerId(rows) else FirstPerId(rows) + [x]
  {
    assert (rows + [x])[..|rows|] == rows;
  }

  /** The row drop_duplicates keeps for an id is the first row carrying it. */
  lemma {:induction false} KeptIsFirstRow(rows: seq<FlightRow>)
    ensures forall x :: x in FirstPerId(rows) ==> x.id in Ids(rows) && x == rows[FirstIdAt(rows, x.id)]
  {
    if rows != [] {
      var init := rows[..|rows| - 1];
      var last := rows[|rows| - 1];
      KeptIsFirstRow(init);
      assert rows == init + [last];
      FirstPerIdSnoc(init, last);
      var done := FirstPerId(init);
      forall x | x in FirstPerId(rows)
        ensures x.id in Ids(rows) && x == rows[FirstIdAt(rows, x.id)]
      {
        assert x in done || (x == last && x.id !in Ids(done));
        KeptIsFirstRowStep(init, rows, done, x);
      }
    }
  }

  lemma KeptIsFirstRowStep(init: seq<FlightRow>, rows: seq<FlightRow>, done: seq<FlightRow>, x: FlightRow)
    requires rows != [] && init == rows[..|rows| - 1] && Ids(done) == Ids(init)
    requires forall y :: y in done ==> y.id in Ids(init) && y == init[FirstIdAt(init, y.id)]
    requires x in done || (x == rows[|rows| - 1] && x.id !in Ids(done))
    ensures x.id in Ids(rows) && x == rows[FirstIdAt(rows, x.id)]
  {
    var i: nat;
    if x in done {
      i := FirstIdAt(init, x.id);
      assert rows[i] == init[i];
      forall j | 0 <= j < i
        ensures rows[j].id != x.id
      {
        assert rows[j] == init[j];
      }
    } else {
      i := |rows| - 1;
      forall j | 0 <= j < i
        ensures rows[j].id != x.id
      {
        assert rows[j] in init;
      }
    }
    FirstIdAtIs(rows, x.id, i);
  }

  /** The first index holding an id is the one with no earlier index holding it. */
  lemma FirstIdAtIs(rows: seq<FlightRow>, id: int, i: nat)
    requires i < |rows| && rows[i].id == id && forall j :: 0 <= j < i ==> rows[j].id != id
    ensures id in Ids(rows) && FirstIdAt(rows, id) == i
  {
    assert rows[i] in rows;
    var k := FirstIdAt(rows, id);
    assert !(k < i) && !(i < k);
  }

  /** The rows whose two airports both normalise, as legs, in order. */
  function Legs(rows: seq<FlightRow>): (r: seq<Leg>)
    ensures |r| <= |rows|
  {
    if rows == [] then []
    else
      var last := rows[|rows| - 1];
      Legs(rows[..|rows| - 1]) +
        match (NormalizeAirport(last.origin), NormalizeAirport(last.destination))
        case (Some(o), Some(d)) => [Leg(last.competitor, o, d)]
        case _ => []
  }

  /** The leg a row gives: same competitor, both airports normalised. */
  predicate Gives(x: FlightRow, l: Leg)
  {
    x.competitor == l.competitor &&
    NormalizeAirport(x.origin) == Some(l.origin) && NormalizeAirport(x.destination) == Some(l.destination)
  }

  /** A leg is exactly a row with both airports known, under their normalised names. */
  lemma {:induction false} LegsOf(rows: seq<FlightRow>, l: Leg)
    ensures l in Legs(rows) <==> exists x :: x in rows && Gives(x, l)
  {
    if rows != [] {
      var init := rows[..|rows| - 1];
      var last := rows[|rows| - 1];
      assert rows == init + [last];
      LegsOf(init, l);
      var tail := Legs(rows)[|Legs(init)|..];
      assert Legs(rows) == Legs(init) + tail;
      assert l in tail <==> Gives(last, l);
      if l in Legs(rows) {
        if l in Legs(init) {
          var x :| x in init && Gives(x, l);
          assert x in rows;
        } else {
          assert last in rows;
        }
      } else {
        forall x | x in rows
          ensures !Gives(x, l)
        {
          assert x in init || x == last;
        }
      }
    }
  }

  /** The flights each competitor sends out of an airport, counted directly. */
  function Departures(legs: seq<Leg>, competitor: string, airport: string): nat
  {
    if legs == [] then 0
    else
      var last := legs[|legs| - 1];
      Departures(legs[..|legs| - 1], competitor, airport) +
        if last.competitor == competitor && last.origin == airport then 1 else 0
  }

  /** The flights each competitor brings into an airport, counted directly. */
  function Arrivals(legs: seq<Leg>, competitor: string, airport: string): nat
  {
    if legs == [] then 0
    else
      var last := legs[|legs| - 1];
      Arrivals(legs[..|legs| - 1], competitor, airport) +
        if last.competitor == competitor && last.destination == airport then 1 else 0
  }

  /** How often a key occurs. */
  function Occurrences(keys: seq<(string, string)>, k: (string, string)): nat
  {
    if keys == [] then 0
    else Occurrences(keys[..|keys| - 1], k) + if keys[|keys| - 1] == k then 1 else 0
  }

  /** groupby(...).size(): each key that occurs, with its number of rows. */
  function GroupSize(keys: seq<(string, string)>): map<(string, string), nat>
  {
    if keys == [] then map[]
    else
      var m := GroupSize(keys[..|keys| - 1]);
      var k := keys[|keys| - 1];
      m[k := if k in m then m[k] + 1 else 1]
  }

  lemma {:induction false} GroupSizeCounts(keys: seq<(string, string)>, k: (string, string))
    ensures k in GroupSize(keys) <==> Occurrences(keys, k) > 0
    ensures k in GroupSize(keys) ==> GroupSize(keys)[k] == Occurrences(keys, k)
  {
    if keys != [] {
      GroupSizeCounts(keys[..|keys| - 1], k);
    }
  }

  function OutKeys(legs: seq<Leg>): (r: seq<(string, string)>)
    ensures |r| == |legs|
  {
    seq(|legs|, i requires 0 <= i < |legs| => (legs[i].competitor, legs[i].origin))
  }

  function InKeys(legs: seq<Leg>): (r: seq<(string, string)>)
    ensures |r| == |legs|
  {
    seq(|legs|, i requires 0 <= i < |legs| => (legs[i].competitor, legs[i].destination))
  }

  lemma {:induction false} OutKeysCount(legs: seq<Leg>, competitor: string, airport: string)
    ensures Occurrences(OutKeys(legs), (competitor, airport)) == Departures(legs, competitor, airport)
  {
    if legs != [] {
      var init := legs[..|legs| - 1];
      assert OutKeys(legs)[..|legs| - 1] == OutKeys(init);
      OutKeysCount(init, competitor, airport);
    }
  }

  lemma {:induction false} InKeysCount(legs: seq<Leg>, competitor: string, airport: string)
    ensures Occurrences(InKeys(legs), (competitor, airport)) == Arrivals(legs, competitor, airport)
  {
    if legs != [] {
      var init := legs[..|legs| - 1];
      assert InKeys(legs)[..|legs| - 1] == InKeys(init);
      InKeysCount(init, competitor, airport);
    }
  }

  /** The airport cells dropped after the merge. */
  const InvalidAirports: set<string> := {"0", "Los Angeles, California -> Van Nuys, California"}

  /** Arrivals, departures and their difference for one competitor at one airport. */
  datatype Flow = Flow(arrivals: nat, departures: nat, netFlow: int)

  function CountOr0(m: map<(string, string), nat>, k: (string, string)): nat
  {
    if k in m then m[k] else 0
  }

  /** The balance sheet: departures and arrivals grouped per competitor and
      airport, outer-merged with a missing side read as 0, the invalid
      airports dropped, and the net flow added. The outer merge already has
      one row per competitor and airport, so the second aggregation keeps
      each row as it is. */
  function Balance(rows: seq<FlightRow>): (r: map<(string, string), Flow>)
    ensures forall k :: k in r ==> k.1 !in InvalidAirports && r[k].netFlow == r[k].arrivals - r[k].departures
  {
    var legs := Legs(FirstPerId(rows));
    var outbound := GroupSize(OutKeys(legs));
    var inbound := GroupSize(InKeys(legs));
    map k | k in outbound.Keys + inbound.Keys && k.1 !in InvalidAirports ::
      Flow(CountOr0(inbound, k), CountOr0(outbound, k), CountOr0(inbound, k) - CountOr0(outbound, k))
  }

  /** A competitor and airport are on the sheet exactly when the airport is
      valid and some flight leaves or reaches it, and the sheet's numbers are
      the direct counts over the flights, each id once. */
  lemma BalanceCounts(rows: seq<FlightRow>, competitor: string, airport: string)
    ensures var legs := Legs(FirstPerId(rows));
      var b := Balance(rows);
      ((competitor, airport) in b <==>
        airport !in InvalidAirports && (Departures(legs, competitor, airport) > 0 || Arrivals(legs, competitor, airport) > 0)) &&
      ((competitor, airport) in b ==>
        b[(competitor, airport)] == Flow(Arrivals(legs, competitor, airport), Departures(legs, competitor, airport),
          Arrivals(legs, competitor, airport) - Departures(legs, competitor, airport)))
  {
    var legs := Legs(FirstPerId(rows));
    GroupSizeCounts(OutKeys(legs), (competitor, airport));
    GroupSizeCounts(InKeys(legs), (competitor, airport));
    OutKeysCount(legs, competitor, airport);
    InKeysCount(legs, competitor, airport);
  }
}

=== FILE: persist.dfy ===
// Persistence: the dedup in front of the database, the shaping of each
// listing into a flight row and a snapshot row, and the database itself as
// an in-memory store of flights (upserted on their natural key) and
// snapshots (only ever appended).

module Persist {
  import opened Strings
  import Route
  import opened Cards

  // ---------------------------------------------------------------- last per signature

  /** The dedup signature: competitor, route and date joined by "_". */
  function Signature(f: Listing): string
  {
    f.competitor + "_" + f.route + "_" + f.date
  }

  /** Two listings share a signature exactly when they share competitor,
      route and date, provided competitor and route hold no "_". */
  lemma SignatureDetermines(f: Listing, g: Listing)
    requires '_' !in f.competitor && '_' !in g.competitor && '_' !in f.route && '_' !in g.route
    ensures Signature(f) == Signature(g) <==> f.competitor == g.competitor && f.route == g.route && f.date == g.date
  {
    assert Signature(f) == f.competitor + ['_'] + (f.route + ['_'] + f.date);
    assert Signature(g) == g.competitor + ['_'] + (g.route + ['_'] + g.date);
    JoinAtFirst(f.competitor, f.route + ['_'] + f.date, g.competitor, g.route + ['_'] + g.date, '_');
    JoinAtFirst(f.route, f.date, g.route, g.date, '_');
  }

  function SignatureSet(xs: seq<Listing>): set<string>
  {
    set f | f in xs :: Signature(f)
  }

  lemma SignatureSnoc(xs: seq<Listing>, x: Listing)
    ensures SignatureSet(xs + [x]) == SignatureSet(xs) + {Signature(x)}
  {
    assert forall f :: f in xs + [x] <==> f in xs || f == x;
  }

  /** The signatures in order of first appearance: the key order of the dict. */
  function Order(xs: seq<Listing>): (r: seq<string>)
    ensures forall i, j :: 0 <= i < j < |r| ==> r[i] != r[j]
    ensures forall s :: s in r <==> s in SignatureSet(xs)
  {
    if xs == [] then []
    else
      var init := xs[..|xs| - 1];
      var last := xs[|xs| - 1];
      assert xs == init + [last];
      SignatureSnoc(init, last);
      var order := Order(init);
      if Signature(last) in order then order else order + [Signature(last)]
  }

  /** The dict itself: each signature bound to the listing written last. */
  function Table(xs: seq<Listing>): (t: map<string, Listing>)
    ensures t.Keys == SignatureSet(xs)
    ensures forall s :: s in t ==> Signature(t[s]) == s
  {
    if xs == [] then map[]
    else
      var init := xs[..|xs| - 1];
      var last := xs[|xs| - 1];
      assert xs == init + [last];
      SignatureSnoc(init, last);
      Table(init)[Signature(last) := last]
  }

  /** The deduplicated listings: the dict's values in its key order. There is
      exactly one listing per signature of the input. */
  function Unique(xs: seq<Listing>): (r: seq<Listing>)
    ensures SignatureSet(r) == SignatureSet(xs)
    ensures forall i, j :: 0 <= i < j < |r| ==> Signature(r[i]) != Signature(r[j])
    ensures |r| == |Order(xs)| && forall i :: 0 <= i < |r| ==> r[i] == Table(xs)[Order(xs)[i]]
  {
    var order := Order(xs);
    var t := Table(xs);
    var r := seq(|order|, i requires 0 <= i < |order| => t[order[i]]);
    assert forall i :: 0 <= i < |r| ==> Signature(r[i]) == order[i];
    assert SignatureSet(r) == SignatureSet(xs) by {
      forall s | s in SignatureSet(xs)
        ensures s in SignatureSet(r)
      {
        var i :| 0 <= i < |order| && order[i] == s;
        assert r[i] in r;
      }
    }
    r
  }

  /** The index of the last listing with the given signature. */
  function LastWith(xs: seq<Listing>, s: string): (k: nat)
    requires s in SignatureSet(xs)
    ensures k < |xs| && Signature(xs[k]) == s
    ensures forall j :: k < j < |xs| ==> Signature(xs[j]) != s
  {
    var init := xs[..|xs| - 1];
    assert xs == init + [xs[|xs| - 1]];
    SignatureSnoc(init, xs[|xs| - 1]);
    if Signature(xs[|xs| - 1]) == s then |xs| - 1
    else
      var k := LastWith(init, s);
      assert xs[k] == init[k];
      k
  }

  lemma {:induction false} TableIsLast(xs: seq<Listing>, s: string)
    requires s in SignatureSet(xs)
    ensures Table(xs)[s] == xs[LastWith(xs, s)]
  {
    var init := xs[..|xs| - 1];
    assert xs == init + [xs[|xs| - 1]];
    SignatureSnoc(init, xs[|xs| - 1]);
    if Signature(xs[|xs| - 1]) != s {
      TableIsLast(init, s);
    }
  }

  /** The i-th deduplicated listing is the last listing with the i-th signature. */
  lemma KeptIsLast(xs: seq<Listing>, i: nat)
    requires i < |Unique(xs)|
    ensures Order(xs)[i] in SignatureSet(xs) && Unique(xs)[i] == xs[LastWith(xs, Order(xs)[i])]
  {
    TableIsLast(xs, Order(xs)[i]);
  }

  /** A listing that no later listing shares a signature with is kept. */
  lemma LastIsKept(xs: seq<Listing>, k: nat)
    requires k < |xs| && forall j :: k < j < |xs| ==> Signature(xs[j]) != Signature(xs[k])
    ensures xs[k] in Unique(xs)
  {
    var s := Signature(xs[k]);
    assert xs[k] in xs;
    assert s in SignatureSet(xs);
    var order := Order(xs);
    assert s in order;
    var i :| 0 <= i < |order| && order[i] == s;
    TableIsLast(xs, s);
    var m := LastWith(xs, s);
    assert !(k < m) && !(m < k);
    assert Unique(xs)[i] == xs[k];
  }

  /** Every deduplicated listing is the last one of the input with its
      signature, and every signature's last listing is kept. */
  lemma UniqueIsLast(xs: seq<Listing>)
    ensures forall f :: f in Unique(xs) ==> Signature(f) in SignatureSet(xs) && f == xs[LastWith(xs, Signature(f))]
    ensures forall k :: 0 <= k < |xs| && (forall j :: k < j < |xs| ==> Signature(xs[j]) != Signature(xs[k])) ==> xs[k] in Unique(xs)
  {
    var r := Unique(xs);
    forall f | f in r
      ensures Signature(f) in SignatureSet(xs) && f == xs[LastWith(xs, Signature(f))]
    {
      var i :| 0 <= i < |r| && r[i] == f;
      KeptIsLast(xs, i);
    }
    forall k | 0 <= k < |xs| && (forall j :: k < j < |xs| ==> Signature(xs[j]) != Signature(xs[k]))
      ensures xs[k] in r
    {
      LastIsKept(xs, k);
    }
  }

  lemma DedupStep(xs: seq<Listing>, i: nat)
    requires i < |xs|
    ensures Table(xs[..i + 1]) == Table(xs[..i])[Signature(xs[i]) := xs[i]]
    ensures Order(xs[..i + 1]) == if Signature(xs[i]) in Table(xs[..i]) then Order(xs[..i]) else Order(xs[..i]) + [Signature(xs[i])]
  {
    assert xs[..i + 1][..i] == xs[..i];
  }

  /** The dedup loop: a dict from signature to listing, then its values. */
  method Deduplicate(data: seq<Listing>) returns (clean: seq<Listing>)
    ensures clean == Unique(data)
  {
    var table, order := IndexBySignature(data);
    ghost var r := Unique(data);
    clean := [];
    for j := 0 to |order|
      invariant clean == r[..j]
    {
      assert r[j] == table[order[j]];
      assert r[..j + 1] == r[..j] + [r[j]];
      clean := clean + [table[order[j]]];
    }
    assert r[..|r|] == r;
  }

  /** The first loop of the dedup: the dictionary by signature, and its
      keys in insertion order. */
  method IndexBySignature(data: seq<Listing>) returns (table: map<string, Listing>, order: seq<string>)
    ensures table == Table(data) && order == Order(data)
    ensures forall k :: 0 <= k < |order| ==> order[k] in table
  {
    table, order := map[], [];
    for i := 0 to |data|
      invariant table == Table(data[..i]) && order == Order(data[..i])
    {
      DedupStep(data, i);
      var s := Signature(data[i]);
      if s !in table {
        order := order + [s];
      }
      table := table[s := data[i]];
    }
    assert data[..|data|] == data;
    assert forall k :: 0 <= k < |order| ==> order[k] in order;
  }

  // ---------------------------------------------------------------- the store

  /** The natural key flights are upserted on. */
  datatype FlightKey = FlightKey(competitor: string, origin: string, destination: string, date: string)

  datatype Flight = Flight(id: nat, time: Option<string>, operator: string)

  /** The flight row the saver sends. */
  datatype Payload = Payload(key: FlightKey, time: Option<string>, operator: string)

  datatype Snapshot = Snapshot(flightId: nat, price: Option<real>, seats: Option<nat>, status: Status)

  /** The two tables and the id the next new flight gets. */
  datatype Db = Db(flights: map<FlightKey, Flight>, nextId: nat, snapshots: seq<Snapshot>)

  /** Ids are below the next id and no two flights share one. */
  predicate Valid(db: Db)
  {
    (forall k :: k in db.flights ==> db.flights[k].id < db.nextId) &&
    (forall k, l :: k in db.flights && l in db.flights && k != l ==> db.flights[k].id != db.flights[l].id)
  }

  /** Upsert on the natural key: an existing flight keeps its id and takes the
      new time and operator; a new key gets a fresh id. */
  function Upsert(db: Db, p: Payload): (r: Db)
    ensures Valid(db) ==> Valid(r)
    ensures r.snapshots == db.snapshots
    ensures r.flights.Keys == db.flights.Keys + {p.key}
    ensures forall k :: k in db.flights && k != p.key ==> r.flights[k] == db.flights[k]
    ensures p.key in db.flights ==> r.flights[p.key].id == db.flights[p.key].id
    ensures r.flights[p.key].time == p.time && r.flights[p.key].operator == p.operator
  {
    if p.key in db.flights then
      db.(flights := db.flights[p.key := Flight(db.flights[p.key].id, p.time, p.operator)])
    else
      db.(flights := db.flights[p.key := Flight(db.nextId, p.time, p.operator)], nextId := db.nextId + 1)
  }

  /** Upserting the same row twice is the same as upserting it once. */
  lemma UpsertIdempotent(db: Db, p: Payload)
    ensures Upsert(Upsert(db, p), p) == Upsert(db, p)
  {
    var once := Upsert(db, p);
    assert p.key in once.flights;
    assert once.flights[p.key := Flight(once.flights[p.key].id, p.time, p.operator)] == once.flights;
  }

  /** The database as the saver sees it: a flights table it upserts into and
      a snapshots table it appends to. */
  class Store {
    var flights: map<FlightKey, Flight>
    var nextId: nat
    var snapshots: seq<Snapshot>

    function State(): Db
      reads this
    {
      Db(flights, nextId, snapshots)
    }

    constructor ()
      ensures State() == Db(map[], 1, []) && Valid(State())
    {
      flights := map[];
      nextId := 1;
      snapshots := [];
    }

    /** Upserts a flight. The reply carries the row's id only when the
        database echoes the row back. */
    method UpsertFlight(p: Payload, echoes: bool) returns (data: Option<nat>)
      modifies this
      ensures State() == Upsert(old(State()), p)
      ensures data == if echoes then Some(flights[p.key].id) else None
    {
      var r := Upsert(State(), p);
      flights := r.flights;
      nextId := r.nextId;
      data := if echoes then Some(flights[p.key].id) else None;
    }

    /** Appends a snapshot; nothing else changes. */
    method InsertSnapshot(s: Snapshot)
      modifies this
      ensures State() == old(State()).(snapshots := old(snapshots) + [s])
    {
      snapshots := snapshots + [s];
    }
  }

  // ---------------------------------------------------------------- shaping one listing

  /** The departure time is parsed only when the listing has a non-empty one;
      a time that does not parse is stored as absent. */
  function TimeOf(departure: Option<string>, parseTime: string -> Option<string>): (t: Option<string>)
    ensures t.Some? ==> departure.Some? && departure.value != [] && t == parseTime(departure.value)
    ensures departure.Some? && departure.value != [] ==> t == parseTime(departure.value)
  {
    match departure
    case None => None
    case Some(text) => if text != [] then parseTime(text) else None
  }

  /** The flight row for a listing, or nothing when its date does not parse. */
  function PayloadOf(item: Listing, parseDate: string -> Option<string>, parseTime: string -> Option<string>): (p: Option<Payload>)
    ensures p.None? <==> parseDate(item.date).None?
    ensures p.Some? ==> p.value.key.competitor == item.competitor && p.value.key.date == parseDate(item.date).value
    ensures p.Some? ==> (p.value.key.origin, p.value.key.destination) == Route.SplitRoute(item.route)
    ensures p.Some? ==> p.value.operator == item.operator
  {
    match parseDate(item.date)
    case None => None
    case Some(date) =>
      var (origin, destination) := Route.SplitRoute(item.route);
      Some(Payload(FlightKey(item.competitor, origin, destination, date), TimeOf(item.departure, parseTime), item.operator))
  }

  /** The status stored with a snapshot: a K9 listing without a seat count is
      stored as sold out, every other listing keeps its own status. */
  function StoredStatus(item: Listing): (s: Status)
    ensures s == SoldOut <==> item.status == SoldOut || (item.competitor == K9 && item.seats.None?)
  {
    if item.competitor == K9 && item.seats.None? then SoldOut else item.status
  }

  function SnapshotOf(flightId: nat, item: Listing): (s: Snapshot)
    ensures s.flightId == flightId && s.price == item.price && s.seats == item.seats
    ensures item.competitor == K9 && item.seats.None? ==> s.status == SoldOut
  {
    Snapshot(flightId, item.price, item.seats, StoredStatus(item))
  }

  // ---------------------------------------------------------------- the save loop

  /** The loop's state: the database, the flight id last read from a reply,
      and whether the loop died reading an id it never had. */
  datatype Progress = Progress(db: Db, lastId: Option<nat>, aborted: bool)

  /** One listing, as written: a listing whose date does not parse is
      skipped; otherwise the flight is upserted and, when the reply echoes the
      row, its id is read. A silent reply leaves the previous id in place, and
      with no previous id the loop stops before writing the snapshot. */
  function SaveItem(st: Progress, item: Listing, parseDate: string -> Option<string>, parseTime: string -> Option<string>, echoed: bool): (r: Progress)
    requires !st.aborted
    ensures st.db.snapshots <= r.db.snapshots && |r.db.snapshots| <= |st.db.snapshots| + 1
  {
    match PayloadOf(item, parseDate, parseTime)
    case None => st
    case Some(p) =>
      var db := Upsert(st.db, p);
      var id := if echoed then Some(db.flights[p.key].id) else st.lastId;
      match id
      case None => Progress(db, None, true)
      case Some(fid) =>
        Progress(db.(snapshots := db.snapshots + [SnapshotOf(fid, item)]), id, false)
  }

  /** The loop over the listings; `echo(i)` says whether the reply to the
      i-th upsert carries the row. */
  function SaveRun(st: Progress, xs: seq<Listing>, parseDate: string -> Option<string>, parseTime: string -> Option<string>, echo: nat -> bool): Progress
  {
    if xs == [] then st
    else
      var before := SaveRun(st, xs[..|xs| - 1], parseDate, parseTime, echo);
      if before.aborted then before
      else SaveItem(before, xs[|xs| - 1], parseDate, parseTime, echo(|xs| - 1))
  }

  /** What saving does to the database: deduplicate, then run the loop. */
  function Saved(db: Db, data: seq<Listing>, parseDate: string -> Option<string>, parseTime: string -> Option<string>, echo: nat -> bool): Progress
  {
    SaveRun(Progress(db, None, false), Unique(data), parseDate, parseTime, echo)
  }

  lemma SaveRunSnoc(st: Progress, xs: seq<Listing>, i: nat, parseDate: string -> Option<string>, parseTime: string -> Option<string>, echo: nat -> bool)
    requires i < |xs|
    ensures SaveRun(st, xs[..i + 1], parseDate, parseTime, echo) ==
      var before := SaveRun(st, xs[..i], parseDate, parseTime, echo);
      if before.aborted then before else SaveItem(before, xs[i], parseDate, parseTime, echo(i))
  {
    assert xs[..i + 1][..i] == xs[..i];
  }

  lemma {:induction false} AbortedStays(st: Progress, xs: seq<Listing>, i: nat, parseDate: string -> Option<string>, parseTime: string -> Option<string>, echo: nat -> bool)
    requires i <= |xs| && SaveRun(st, xs[..i], parseDate, parseTime, echo).aborted
    ensures SaveRun(st, xs, parseDate, parseTime, echo) == SaveRun(st, xs[..i], parseDate, parseTime, echo)
    decreases |xs| - i
  {
    if i == |xs| {
      assert xs[..i] == xs;
    } else {
      SaveRunSnoc(st, xs, i, parseDate, parseTime, echo);
      AbortedStays(st, xs, i + 1, parseDate, parseTime, echo);
    }
  }

  /** save_to_supabase against the store. */
  method SaveToStore(store: Store, data: seq<Listing>, parseDate: string -> Option<string>, parseTime: string -> Option<string>, echo: nat -> bool)
    returns (aborted: bool)
    modifies store
    ensures store.State() == Saved(old(store.State()), data, parseDate, parseTime, echo).db
    ensures aborted == Saved(old(store.State()), data, parseDate, parseTime, echo).aborted
  {
    var items := Deduplicate(data);
    ghost var start := Progress(store.State(), None, false);
    var flightId: Option<nat> := None;
    aborted := false;
    var i := 0;
    assert items[..0] == [];
    while i < |items|
      invariant i <= |items|
      invariant Progress(store.State(), flightId, aborted) == SaveRun(start, items[..i], parseDate, parseTime, echo)
    {
      SaveRunSnoc(start, items, i, parseDate, parseTime, echo);
      var item := items[i];
      var payload := PayloadOf(item, parseDate, parseTime);
      if payload.Some? {
        var data := store.UpsertFlight(payload.value, echo(i));
        if data.Some? {
          flightId := data;
        }
        if flightId.None? {
          aborted := true;
          AbortedStays(start, items, i + 1, parseDate, parseTime, echo);
          i := i + 1;
          break;
        }
        store.InsertSnapshot(SnapshotOf(flightId.value, item));
      }
      i := i + 1;
    }
    assert items[..|items|] == items;
  }

  // ---------------------------------------------------------------- what the loop keeps

  /** Saving only appends snapshots, at most one per listing. */
  lemma {:induction false} SnapshotsOnlyGrow(st: Progress, xs: seq<Listing>, parseDate: string -> Option<string>, parseTime: string -> Option<string>, echo: nat -> bool)
    ensures var r := SaveRun(st, xs, parseDate, parseTime, echo);
      st.db.snapshots <= r.db.snapshots && |r.db.snapshots| <= |st.db.snapshots| + |xs|
  {
    if xs != [] {
      SnapshotsOnlyGrow(st, xs[..|xs| - 1], parseDate, parseTime, echo);
    }
  }

  /** Saving keeps ids below the next id and unique, and never changes the
      id of a flight that is already stored. */
  lemma {:induction false} SaveKeepsIds(st: Progress, xs: seq<Listing>, parseDate: string -> Option<string>, parseTime: string -> Option<string>, echo: nat -> bool)
    ensures var r := SaveRun(st, xs, parseDate, parseTime, echo);
      (Valid(st.db) ==> Valid(r.db)) &&
      forall k :: k in st.db.flights ==> k in r.db.flights && r.db.flights[k].id == st.db.flights[k].id
  {
    if xs != [] {
      SaveKeepsIds(st, xs[..|xs| - 1], parseDate, parseTime, echo);
    }
  }

  /** The snapshots the listings should produce: one per listing whose date
      parses, referencing the stored flight with that listing's key. */
  function Expected(flights: map<FlightKey, Flight>, xs: seq<Listing>, parseDate: string -> Option<string>, parseTime: string -> Option<string>): seq<Snapshot>
  {
    if xs == [] then []
    else
      var last := xs[|xs| - 1];
      Expected(flights, xs[..|xs| - 1], parseDate, parseTime) +
        match PayloadOf(last, parseDate, parseTime)
        case Some(p) => if p.key in flights then [SnapshotOf(flights[p.key].id, last)] else []
        case None => []
  }

  /** Every listing whose date parses has its flight stored. */
  predicate Filed(flights: map<FlightKey, Flight>, xs: seq<Listing>, parseDate: string -> Option<string>, parseTime: string -> Option<string>)
  {
    forall i :: 0 <= i < |xs| && PayloadOf(xs[i], parseDate, parseTime).Some? ==> PayloadOf(xs[i], parseDate, parseTime).value.key in flights
  }

  lemma {:induction false} ExpectedStable(f1: map<FlightKey, Flight>, f2: map<FlightKey, Flight>, xs: seq<Listing>, parseDate: string -> Option<string>, parseTime: string -> Option<string>)
    requires Filed(f1, xs, parseDate, parseTime)
    requires forall k :: k in f1 ==> k in f2 && f2[k].id == f1[k].id
    ensures Expected(f1, xs, parseDate, parseTime) == Expected(f2, xs, parseDate, parseTime)
  {
    if xs != [] {
      var init := xs[..|xs| - 1];
      assert Filed(f1, init, parseDate, parseTime) by {
        forall i | 0 <= i < |init| ensures init[i] == xs[i] {}
      }
      ExpectedStable(f1, f2, init, parseDate, parseTime);
      assert PayloadOf(xs[|xs| - 1], parseDate, parseTime).Some? ==> PayloadOf(xs[|xs| - 1], parseDate, parseTime).value.key in f1;
    }
  }

  /** The intended step: the snapshot references the flight just upserted
      under this listing's own key. */
  function SaveItemFixed(db: Db, item: Listing, parseDate: string -> Option<string>, parseTime: string -> Option<string>): Db
  {
    match PayloadOf(item, parseDate, parseTime)
    case None => db
    case Some(p) =>
      var d := Upsert(db, p);
      d.(snapshots := d.snapshots + [SnapshotOf(d.flights[p.key].id, item)])
  }

  function SaveFixed(db: Db, xs: seq<Listing>, parseDate: string -> Option<string>, parseTime: string -> Option<string>): Db
  {
    if xs == [] then db
    else SaveItemFixed(SaveFixed(db, xs[..|xs| - 1], parseDate, parseTime), xs[|xs| - 1], parseDate, parseTime)
  }

  lemma FixedStep(mid: Db, base: seq<Snapshot>, init: seq<Listing>, last: Listing, parseDate: string -> Option<string>, parseTime: string -> Option<string>)
    requires Filed(mid.flights, init, parseDate, parseTime)
    requires mid.snapshots == base + Expected(mid.flights, init, parseDate, parseTime)
    ensures var r := SaveItemFixed(mid, last, parseDate, parseTime);
      Filed(r.flights, init + [last], parseDate, parseTime) &&
      r.snapshots == base + Expected(r.flights, init + [last], parseDate, parseTime)
  {
    var xs := init + [last];
    var r := SaveItemFixed(mid, last, parseDate, parseTime);
    assert xs[..|xs| - 1] == init;
    assert forall k :: k in mid.flights ==> k in r.flights && r.flights[k].id == mid.flights[k].id;
    ExpectedStable(mid.flights, r.flights, init, parseDate, parseTime);
    forall i | 0 <= i < |xs| && PayloadOf(xs[i], parseDate, parseTime).Some?
      ensures PayloadOf(xs[i], parseDate, parseTime).value.key in r.flights
    {
      if i < |init| {
        assert xs[i] == init[i];
      }
    }
  }

  /** With the intended step, the new snapshots are exactly one per listing
      whose date parses, in order, each referencing its own listing's flight. */
  lemma {:induction false} FixedSnapshotsMatchFlights(db: Db, xs: seq<Listing>, parseDate: string -> Option<string>, parseTime: string -> Option<string>)
    ensures var r := SaveFixed(db, xs, parseDate, parseTime);
      Filed(r.flights, xs, parseDate, parseTime) &&
      r.snapshots == db.snapshots + Expected(r.flights, xs, parseDate, parseTime)
  {
    if xs != [] {
      var init := xs[..|xs| - 1];
      FixedSnapshotsMatchFlights(db, init, parseDate, parseTime);
      FixedStep(SaveFixed(db, init, parseDate, parseTime), db.snapshots, init, xs[|xs| - 1], parseDate, parseTime);
      assert init + [xs[|xs| - 1]] == xs;
    }
  }

  /** When every reply echoes its row, the loop as written is the intended one. */
  lemma {:induction false} EchoedIsFixed(st: Progress, xs: seq<Listing>, parseDate: string -> Option<string>, parseTime: string -> Option<string>, echo: nat -> bool)
    requires !st.aborted && forall i :: echo(i)
    ensures var r := SaveRun(st, xs, parseDate, parseTime, echo);
      !r.aborted && r.db == SaveFixed(st.db, xs, parseDate, parseTime)
  {
    if xs != [] {
      EchoedIsFixed(st, xs[..|xs| - 1], parseDate, parseTime, echo);
    }
  }

  lemma UniqueOne(x: Listing)
    ensures Unique([x]) == [x]
  {
    assert [x][..0] == [];
    assert Order([x]) == [Signature(x)];
    assert Table([x]) == map[Signature(x) := x];
  }

  lemma UniqueTwo(x: Listing, y: Listing)
    requires Signature(x) != Signature(y)
    ensures Unique([x, y]) == [x, y]
  {
    assert [x, y][..1] == [x];
    assert [x][..0] == [];
    assert Order([x]) == [Signature(x)];
    assert Order([x, y]) == [Signature(x), Signature(y)];
    assert Table([x, y]) == map[Signature(x) := x][Signature(y) := y];
  }

  lemma RunTwo(st: Progress, x: Listing, y: Listing, parseDate: string -> Option<string>, parseTime: string -> Option<string>, echo: nat -> bool)
    requires !st.aborted
    ensures SaveRun(st, [x, y], parseDate, parseTime, echo) ==
      var s := SaveItem(st, x, parseDate, parseTime, echo(0));
      if s.aborted then s else SaveItem(s, y, parseDate, parseTime, echo(1))
  {
    var xs := [x, y];
    SaveRunSnoc(st, xs, 0, parseDate, parseTime, echo);
    assert xs[..0] == [];
    SaveRunSnoc(st, xs, 1, parseDate, parseTime, echo);
    assert xs[..2] == xs;
  }

  /** As written, a reply that does not echo its row makes the next snapshot
      reference the previous listing's flight. */
  lemma StaleFlightId()
    ensures
      var a := Listing(K9, "d1", "", UnknownOperator, None, Some(2), Available, None, None);
      var b := a.(date := "d2");
      var r := Saved(Db(map[], 1, []), [a, b], d => Some(d), t => None, i => i == 0);
      !r.aborted && r.db.snapshots == [SnapshotOf(1, a), SnapshotOf(1, b)] &&
      r.db.flights[FlightKey(K9, "", "", "d2")].id == 2
  {
    var a := Listing(K9, "d1", "", UnknownOperator, None, Some(2), Available, None, None);
    var b := a.(date := "d2");
    var parseDate: string -> Option<string> := d => Some(d);
    var parseTime: string -> Option<string> := t => None;
    var echo: nat -> bool := i => i == 0;
    assert Signature(a) != Signature(b) by {
      assert Signature(a)[|Signature(a)| - 1] != Signature(b)[|Signature(b)| - 1];
    }
    UniqueTwo(a, b);
    var ka := FlightKey(K9, "", "", "d1");
    var kb := FlightKey(K9, "", "", "d2");
    assert PayloadOf(a, parseDate, parseTime) == Some(Payload(ka, None, UnknownOperator));
    assert PayloadOf(b, parseDate, parseTime) == Some(Payload(kb, None, UnknownOperator));
    var st0 := Progress(Db(map[], 1, []), None, false);
    var st1 := SaveItem(st0, a, parseDate, parseTime, true);
    assert st1 == Progress(Db(map[ka := Flight(1, None, UnknownOperator)], 2, [SnapshotOf(1, a)]), Some(1), false);
    var st2 := SaveItem(st1, b, parseDate, parseTime, false);
    assert st2.db.flights[kb].id == 2 && st2.db.snapshots == [SnapshotOf(1, a), SnapshotOf(1, b)] && !st2.aborted;
    RunTwo(st0, a, b, parseDate, parseTime, echo);
  }

  /** As written, when the very first reply does not echo its row the loop
      stops with the flight stored and no snapshot written. */
  lemma MissingFirstIdAborts(item: Listing, parseDate: string -> Option<string>, parseTime: string -> Option<string>)
    requires parseDate(item.date).Some?
    ensures var r := Saved(Db(map[], 1, []), [item], parseDate, parseTime, i => false);
      r.aborted && r.db.snapshots == [] && |r.db.flights| == 1
  {
    var echo: nat -> bool := i => false;
    UniqueOne(item);
    assert [item][..0] == [];
    var st0 := Progress(Db(map[], 1, []), None, false);
    var p := PayloadOf(item, parseDate, parseTime).value;
    var r := SaveItem(st0, item, parseDate, parseTime, false);
    assert r == Progress(Upsert(st0.db, p), None, true);
    assert Upsert(st0.db, p).flights == map[p.key := Flight(1, p.time, p.operator)];
    assert SaveRun(st0, [item], parseDate, parseTime, echo) == r;
  }
}

=== FILE: route.dfy ===
/**
 * Splitting a route label such as "Teterboro, New Jersey to Dubai, UAE" or
 * "London, UK - Van Nuys, California" into its origin and destination
 * (split_route in scraper.py).
 */
module Route {
  import opened Strings

  predicate IsT(c: char) { c == 't' || c == 'T' }
  predicate IsO(c: char) { c == 'o' || c == 'O' }

  /**
   * The case-insensitive pattern whitespace+ "to" whitespace+ matches at i.
   * The leading run can only end right before the "t" (everything in it is
   * whitespace), so backtracking never finds another way to match.
   */
  predicate ToMatchAt(s: string, i: nat)
  {
    i < |s| && IsSpace(s[i]) &&
    var j := SpaceRunEnd(s, i);
    j + 2 < |s| && IsT(s[j]) && IsO(s[j + 1]) && IsSpace(s[j + 2])
  }

  /** Where a match at i ends: the trailing whitespace run is taken greedily. */
  function ToMatchEnd(s: string, i: nat): (e: nat)
    requires ToMatchAt(s, i)
    ensures i < e <= |s|
  {
    SpaceRunEnd(s, SpaceRunEnd(s, i) + 3)
  }

  /** The leftmost match at or after from. */
  function FindTo(s: string, from: nat): (r: Option<nat>)
    ensures r.Some? ==> from <= r.value && ToMatchAt(s, r.value)
    ensures r.Some? ==> forall k :: from <= k < r.value ==> !ToMatchAt(s, k)
    ensures r.None? ==> forall k :: from <= k ==> !ToMatchAt(s, k)
    decreases |s| - from
  {
    if from >= |s| then None
    else if ToMatchAt(s, from) then Some(from)
    else FindTo(s, from + 1)
  }

  /** The separators tried, in order, when there is no " to ". */
  const Separators: seq<string> := [" - ", " \U{2013} ", " \U{2014} ", "->", "\U{2192}"]

  /** [p.strip() for p in parts if p.strip()] */
  function NonEmptyStripped(parts: seq<string>): (r: seq<string>)
    ensures |r| <= |parts|
    ensures forall k :: 0 <= k < |r| ==> r[k] != [] && Trimmed(r[k])
  {
    if parts == [] then []
    else
      var p := Strip(parts[0]);
      (if p == [] then [] else [p]) + NonEmptyStripped(parts[1..])
  }

  /** One separator: it decides when it occurs and leaves two non-blank
      pieces; the first and the last piece are the two ends. */
  function SplitBy(txt: string, sep: string): (r: Option<(string, string)>)
    requires |sep| > 0
    ensures r.Some? ==> Contains(txt, sep)
    ensures r.Some? ==> r.value.0 != [] && Trimmed(r.value.0) && r.value.1 != [] && Trimmed(r.value.1)
  {
    if !Contains(txt, sep) then None
    else
      var parts := NonEmptyStripped(SplitOn(txt, sep));
      if |parts| >= 2 then Some((parts[0], parts[|parts| - 1])) else None
  }

  /** The separator loop: the first separator that decides wins; a label no
      separator splits is both ends. */
  function SplitSeparators(txt: string, i: nat): (r: (string, string))
    requires i <= |Separators| && Trimmed(txt)
    ensures Trimmed(r.0) && Trimmed(r.1)
    ensures txt != [] ==> r.0 != [] && r.1 != []
    decreases |Separators| - i
  {
    if i == |Separators| then (txt, txt)
    else
      match SplitBy(txt, Separators[i])
      case Some(ends) => ends
      case None => SplitSeparators(txt, i + 1)
  }

  /**
   * split_route: blank input gives two empty strings; otherwise the first
   * whitespace-surrounded "to" splits the stripped label once, then the
   * separators are tried, and a label that cannot be split is returned as
   * both origin and destination. Both ends are always stripped, and for a
   * label that is not blank neither end is empty.
   */
  function SplitRoute(route: string): (r: (string, string))
    ensures route == [] ==> r == ("", "")
    ensures Trimmed(r.0) && Trimmed(r.1)
    ensures Strip(route) != [] ==> r.0 != [] && r.1 != []
  {
    if route == [] then ("", "")
    else
      var txt := Strip(route);
      match FindTo(txt, 0)
      case Some(i) =>
        ToMatchSplitsNonBlank(txt, i);
        (Strip(txt[..i]), Strip(txt[ToMatchEnd(txt, i)..]))
      case None => SplitSeparators(txt, 0)
  }

  /** On a label without outer whitespace, a match never starts at the first
      character and never reaches the last one, so both sides keep text. */
  lemma ToMatchSplitsNonBlank(txt: string, i: nat)
    requires Trimmed(txt) && ToMatchAt(txt, i)
    ensures Strip(txt[..i]) != [] && Strip(txt[ToMatchEnd(txt, i)..]) != []
  {
    var e := ToMatchEnd(txt, i);
    var j := SpaceRunEnd(txt, i);
    assert 0 < i;
    assert e < |txt| by {
      assert IsSpace(txt[j + 2]) && !IsSpace(txt[|txt| - 1]);
    }
    StripFixesNonSpace(txt[..i], 0);
    StripFixesNonSpace(txt[e..], 0);
  }

  /** A string with a non-whitespace character keeps it when stripped. */
  lemma StripFixesNonSpace(s: string, k: nat)
    requires k < |s| && !IsSpace(s[k])
    ensures Strip(s) != []
  {
    var r := Strip(s);
    var a, b :| 0 <= a <= b <= |s| && r == s[a..b] && AllSpace(s[..a]) && AllSpace(s[b..]);

  }

  /** A label that is already stripped and has a "to" match splits there. */
  lemma SplitRouteAtMatch(txt: string, i: nat)
    requires txt != [] && Strip(txt) == txt && FindTo(txt, 0) == Some(i)
    ensures SplitRoute(txt) == (Strip(txt[..i]), Strip(txt[ToMatchEnd(txt, i)..]))
  {
  }

  /** A label that is already stripped and has no "to" match goes to the
      separator loop. */
  lemma SplitRouteNoMatch(txt: string)
    requires txt != [] && Strip(txt) == txt && FindTo(txt, 0) == None
    ensures Trimmed(txt) && SplitRoute(txt) == SplitSeparators(txt, 0)
  {
  }

  // ------------------------------------------------------------ round trips

  /** A "t" directly followed by an "o", in either case, at k. */
  predicate ToPairAt(s: string, k: int)
  {
    0 <= k < |s| - 1 && IsT(s[k]) && IsO(s[k + 1])
  }

  /** A "to" pair standing as a word of its own: whitespace or an end of
      the text on each side. */
  predicate ToWordAt(s: string, k: int)
  {
    ToPairAt(s, k) && (k == 0 || IsSpace(s[k - 1])) && (k + 2 == |s| || IsSpace(s[k + 2]))
  }

  predicate NoToWord(s: string)
  {
    forall k :: 0 <= k < |s| ==> !ToWordAt(s, k)
  }

  /** A hyphen at k that starts the text or follows whitespace. */
  predicate LooseDashAt(s: string, k: int)
  {
    0 <= k < |s| && s[k] == '-' && (k == 0 || IsSpace(s[k - 1]))
  }

  /** The separator characters that never appear in a place name. */
  predicate Reserved(c: char)
  {
    c == '>' || c == '\U{2013}' || c == '\U{2014}' || c == '\U{2192}'
  }

  /** A label the arrow and dash separators cannot cut: no outer
      whitespace, none of the arrow or dash separator characters, and every
      hyphen directly after a non-whitespace character ("Kailua-Kona"). */
  predicate SeparatorFree(s: string)
  {
    |s| > 0 && !IsSpace(s[0]) && !IsSpace(s[|s| - 1]) &&
    (forall k :: 0 <= k < |s| ==> !Reserved(s[k])) &&
    (forall k :: 0 <= k < |s| ==> !LooseDashAt(s, k))
  }

  /** A place name the splitter gives back unchanged: separator-free, and
      no "to" standing as a word of its own ("Toronto", "Boston" and
      "Kailua-Kona" are place names, "Back to Base" is not). */
  predicate PlaceName(s: string)
  {
    SeparatorFree(s) && NoToWord(s)
  }

  /** The "to" of a match stands between whitespace. */
  lemma MatchIsWord(s: string, i: nat)
    ensures ToMatchAt(s, i) ==> i < SpaceRunEnd(s, i) && ToWordAt(s, SpaceRunEnd(s, i))
  {
  }

  lemma PairInPrefix(a: string, b: string, k: int)
    requires k + 1 < |a|
    ensures ToPairAt(a + b, k) == ToPairAt(a, k)
  {
    if 0 <= k {
      assert (a + b)[k] == a[k] && (a + b)[k + 1] == a[k + 1];
    }
  }

  lemma PairInSuffix(a: string, b: string, k: int)
    requires |a| <= k
    ensures ToPairAt(a + b, k) == ToPairAt(b, k - |a|)
  {
    if k + 1 < |a + b| {
      assert (a + b)[k] == b[k - |a|] && (a + b)[k + 1] == b[k - |a| + 1];
    }
  }

  /** A "to" word of a + b that lies in a is a word of a: the end of a
      counts as a word boundary. */
  lemma WordInPrefix(a: string, b: string, k: int)
    requires k + 1 < |a|
    ensures ToWordAt(a + b, k) ==> ToWordAt(a, k)
  {
    PairInPrefix(a, b, k);
    if 0 < k {
      assert (a + b)[k - 1] == a[k - 1];
    }
    if 0 <= k && k + 2 < |a| {
      assert (a + b)[k + 2] == a[k + 2];
    }
  }

  /** A "to" word of a + b that lies in b is a word of b. */
  lemma WordInSuffix(a: string, b: string, k: int)
    requires |a| <= k
    ensures ToWordAt(a + b, k) ==> ToWordAt(b, k - |a|)
  {
    PairInSuffix(a, b, k);
    if |a| < k < |a + b| {
      assert (a + b)[k - 1] == b[k - |a| - 1];
    }
    if k + 2 < |a + b| {
      assert (a + b)[k + 2] == b[k - |a| + 2];
    }
  }

  /** The only "to" words in o + sep + d are inside sep. */
  lemma WordInJoin(o: string, sep: string, d: string, k: int)
    requires PlaceName(o) && PlaceName(d)
    requires |sep| >= 2 && sep[0] == ' ' && sep[|sep| - 1] == ' '
    ensures ToWordAt(o + sep + d, k) ==> |o| <= k && k + 1 < |o| + |sep|
  {
    var w := o + sep + d;
    if k + 1 < |o| {
      assert o + (sep + d) == w;
      WordInPrefix(o, sep + d, k);
    } else if k + 1 == |o| {
      assert w[k + 1] == sep[0];
    } else if k + 1 == |o| + |sep| {
      assert w[k] == sep[|sep| - 1];
    } else if k >= |o| + |sep| {
      WordInSuffix(o + sep, d, k);
    }
  }

  /** A blank run that starts before a non-blank character ends at it or earlier. */
  lemma {:induction false} SpaceRunStops(s: string, i: nat, m: nat)
    requires i <= m < |s| && !IsSpace(s[m])
    ensures SpaceRunEnd(s, i) <= m
    decreases m - i
  {
    if i < m && IsSpace(s[i]) {
      SpaceRunStops(s, i + 1, m);
    }
  }

  /** Joining two place names leaves no outer whitespace to strip. */
  lemma JoinStripped(o: string, mid: string, d: string)
    requires SeparatorFree(o) && SeparatorFree(d)
    ensures o + mid + d != [] && Strip(o + mid + d) == o + mid + d
  {
    var w := o + mid + d;
    assert w[0] == o[0] && w[|w| - 1] == d[|d| - 1];
    StripFixesTrimmed(w);
  }

  /** No match starts inside the first name: its blank run would have to
      reach over the name's last character. */
  lemma NoMatchInName(o: string, d: string, k: nat)
    requires PlaceName(o) && PlaceName(d) && k < |o|
    ensures !ToMatchAt(o + " to " + d, k)
  {
    var w := o + " to " + d;
    var n := |o|;
    assert w[n - 1] == o[n - 1];
    SpaceRunStops(w, k, n - 1);
    MatchIsWord(w, k);
    WordInJoin(o, " to ", d, SpaceRunEnd(w, k));
  }

  /** In o + " to " + d the first match is the spelled-out "to" and it
      takes exactly the two blanks around it. */
  lemma ToMatchInJoin(o: string, d: string)
    requires PlaceName(o) && PlaceName(d)
    ensures FindTo(o + " to " + d, 0) == Some(|o|)
    ensures ToMatchEnd(o + " to " + d, |o|) == |o| + 4
  {
    var w := o + " to " + d;
    var n := |o|;
    assert w[n] == ' ' && w[n + 1] == 't' && w[n + 2] == 'o' && w[n + 3] == ' ';
    assert SpaceRunEnd(w, n) == n + 1;
    assert ToMatchAt(w, n);
    forall k | 0 <= k < n
      ensures !ToMatchAt(w, k)
    {
      NoMatchInName(o, d, k);
    }
    assert w[n + 4] == d[0];
  }

  /** "Origin to Destination" splits at the spelled-out "to". */
  lemma SplitRouteTo(o: string, d: string)
    requires PlaceName(o) && PlaceName(d)
    ensures SplitRoute(o + " to " + d) == (o, d)
  {
    var w := o + " to " + d;
    assert SplitRoute(w) == (Strip(w[..|o|]), Strip(w[|o| + 4..])) by {
      JoinStripped(o, " to ", d);
      ToMatchInJoin(o, d);
      SplitRouteAtMatch(w, |o|);
    }
    assert w[..|o|] == o;
    assert w[|o| + 4..] == d;
    StripFixesTrimmed(o);
    StripFixesTrimmed(d);
  }

  /** A label with no "to" word splits at no "to". */
  lemma NoToNoMatch(w: string)
    requires NoToWord(w)
    ensures FindTo(w, 0) == None
  {
    forall k | 0 <= k
      ensures !ToMatchAt(w, k)
    {
      MatchIsWord(w, k);
    }
  }

  /** A separator cannot occur where one of its characters is missing. */
  lemma AbsentByChar(s: string, sep: string, at: nat)
    requires at < |sep|
    requires forall k :: 0 <= k < |s| ==> s[k] != sep[at]
    ensures !Contains(s, sep)
  {
    forall p | 0 <= p <= |s|
      ensures !OccursAt(s, sep, p)
    {
      if OccursAt(s, sep, p) {
        OccursAtIndex(s, sep, p, at);
      }
    }
    NotContains(s, sep);
  }

  /** The dashes of the other separators do not occur in o + " -> " + d. */
  lemma DashCharAbsent(o: string, d: string, c: char)
    requires SeparatorFree(o) && SeparatorFree(d) && (c == '\U{2013}' || c == '\U{2014}')
    ensures forall k :: 0 <= k < |o + " -> " + d| ==> (o + " -> " + d)[k] != c
  {
    var w := o + " -> " + d;
    forall k | 0 <= k < |w|
      ensures w[k] != c
    {
      if k < |o| {
        assert w[k] == o[k];
      } else if k >= |o| + 4 {
        assert w[k] == d[k - |o| - 4];
      }
    }
  }

  /** o + " -> " + d has no "to" word, so the "to" rule does not apply. */
  lemma ArrowJoinNoTo(o: string, d: string)
    requires PlaceName(o) && PlaceName(d)
    ensures FindTo(o + " -> " + d, 0) == None
  {
    var w := o + " -> " + d;
    var n := |o|;
    assert w[n] == ' ' && w[n + 1] == '-' && w[n + 2] == '>';
    forall k | 0 <= k < |w|
      ensures !ToWordAt(w, k)
    {
      WordInJoin(o, " -> ", d, k);
    }
    NoToNoMatch(w);
  }

  /** " - " does not occur in o + " -> " + d: the only hyphen after a blank
      is followed by '>'. */
  lemma ArrowJoinNoDash(o: string, d: string)
    requires SeparatorFree(o) && SeparatorFree(d)
    ensures !Contains(o + " -> " + d, " - ")
  {
    var w := o + " -> " + d;
    var n := |o|;
    assert w[n] == ' ' && w[n + 1] == '-' && w[n + 2] == '>' && w[n + 3] == ' ';
    forall p | 0 <= p <= |w|
      ensures !OccursAt(w, " - ", p)
    {
      if p + 3 <= |w| {
        var q := p + 1;
        var v := w[p..p + 3];
        assert v[0] == w[p] && v[1] == w[q] && v[2] == w[p + 2];
        if q < n {
          assert w[q] == o[q];
          if o[q] == '-' {
            assert !LooseDashAt(o, q);
            assert w[p] == o[p];
          }
        } else if q >= n + 4 {
          var m := q - n - 4;
          assert w[q] == d[m];
          if d[m] == '-' {
            assert !LooseDashAt(d, m);
            assert w[p] == d[m - 1];
          }
        }
      }
    }
    NotContains(w, " - ");
  }

  /** No "->" starts before the one between the names. */
  lemma NoArrowInName(o: string, d: string, p: nat)
    requires SeparatorFree(o) && SeparatorFree(d) && p <= |o|
    ensures !OccursAt(o + " -> " + d, "->", p)
  {
    var w := o + " -> " + d;
    if OccursAt(w, "->", p) {
      OccursAtIndex(w, "->", p, 1);
    }
  }

  /** Splitting o + " -> " + d on "->" gives the two padded names. */
  lemma ArrowJoinSplit(o: string, d: string)
    requires SeparatorFree(o) && SeparatorFree(d)
    ensures Contains(o + " -> " + d, "->")
    ensures SplitOn(o + " -> " + d, "->") == [o + " ", " " + d]
  {
    var w := o + " -> " + d;
    var n := |o|;
    assert OccursAt(w, "->", n + 1) by {
      assert w[n + 1] == '-' && w[n + 2] == '>';
      assert w[n + 1..n + 3] == "->";
    }
    forall p | 0 <= p < n + 1
      ensures !OccursAt(w, "->", p)
    {
      NoArrowInName(o, d, p);
    }
    IndexOfFirst(w, "->", n + 1);
    var tail := w[n + 3..];
    assert tail == " " + d;
    forall k | 0 <= k < |tail|
      ensures tail[k] != '>'
    {
      if k > 0 {
        assert tail[k] == d[k - 1];
      }
    }
    AbsentByChar(tail, "->", 1);
    assert w[..n + 1] == o + " ";
  }

  /** The arrow is the separator that decides for o + " -> " + d. */
  lemma ArrowSeparatorSplits(o: string, d: string)
    requires SeparatorFree(o) && SeparatorFree(d)
    ensures SplitBy(o + " -> " + d, "->") == Some((o, d))
  {
    var w := o + " -> " + d;
    ArrowJoinSplit(o, d);
    StripPadded("", o, " ");
    StripPadded(" ", d, "");
    assert "" + o + " " == o + " ";
    assert " " + d + "" == " " + d;
    SplitByDecides(w, "->", [o + " ", " " + d], o, d);
  }

  lemma SplitByDecides(txt: string, sep: string, parts: seq<string>, o: string, d: string)
    requires |sep| > 0 && Contains(txt, sep) && SplitOn(txt, sep) == parts
    requires NonEmptyStripped(parts) == [o, d]
    ensures SplitBy(txt, sep) == Some((o, d))
  {
  }

  /** None of the first three separators occurs, so the arrow is tried. */
  lemma FirstThreeSkipped(txt: string)
    requires Trimmed(txt)
    requires !Contains(txt, " - ") && !Contains(txt, " \U{2013} ") && !Contains(txt, " \U{2014} ")
    ensures SplitSeparators(txt, 0) == SplitSeparators(txt, 3)
  {
    assert Separators[0] == " - ";
    assert Separators[1] == " \U{2013} ";
    assert Separators[2] == " \U{2014} ";
  }

  /** The arrow decides when it splits. */
  lemma ArrowDecides(txt: string, o: string, d: string)
    requires Trimmed(txt) && SplitBy(txt, "->") == Some((o, d))
    ensures SplitSeparators(txt, 3) == (o, d)
  {
    assert Separators[3] == "->";
  }

  /** A stripped label with no "to" match and none of the first three
      separators is split by the arrow rule. */
  lemma ArrowRuleDecides(txt: string, o: string, d: string)
    requires txt != [] && Strip(txt) == txt && FindTo(txt, 0) == None
    requires !Contains(txt, " - ") && !Contains(txt, " \U{2013} ") && !Contains(txt, " \U{2014} ")
    requires SplitBy(txt, "->") == Some((o, d))
    ensures SplitRoute(txt) == (o, d)
  {
    SplitRouteNoMatch(txt);
    FirstThreeSkipped(txt);
    ArrowDecides(txt, o, d);
  }

  /** "Origin -> Destination" (the Bark Air listing labels) splits at the arrow. */
  lemma SplitRouteArrow(o: string, d: string)
    requires PlaceName(o) && PlaceName(d)
    ensures SplitRoute(o + " -> " + d) == (o, d)
  {
    var w := o + " -> " + d;
    JoinStripped(o, " -> ", d);
    ArrowJoinNoTo(o, d);
    ArrowJoinNoDash(o, d);
    DashCharAbsent(o, d, '\U{2013}');
    AbsentByChar(w, " \U{2013} ", 1);
    DashCharAbsent(o, d, '\U{2014}');
    AbsentByChar(w, " \U{2014} ", 1);
    ArrowSeparatorSplits(o, d);
    ArrowRuleDecides(w, o, d);
  }

  /** Without "to" and without any separator the label is both ends. */
  lemma FallbackDecides(txt: string)
    requires txt != [] && Strip(txt) == txt && FindTo(txt, 0) == None
    requires !Contains(txt, " - ") && !Contains(txt, " \U{2013} ") && !Contains(txt, " \U{2014} ")
    requires !Contains(txt, "->") && !Contains(txt, "\U{2192}")
    ensures SplitRoute(txt) == (txt, txt)
  {
    SplitRouteNoMatch(txt);
    FirstThreeSkipped(txt);
    assert Separators[3] == "->" && Separators[4] == "\U{2192}";
  }

  /** A lone place name cannot be split: it is returned as both origin and
      destination. */
  lemma SplitRouteUnsplittable(s: string)
    requires PlaceName(s)
    ensures SplitRoute(s) == (s, s)
  {
    StripFixesTrimmed(s);
    NoToNoMatch(s);
    DashNotInName(s);
    AbsentByChar(s, " \U{2013} ", 1);
    AbsentByChar(s, " \U{2014} ", 1);
    AbsentByChar(s, "->", 1);
    AbsentByChar(s, "\U{2192}", 0);
    FallbackDecides(s);
  }

  /** " - " never occurs in a place name: its hyphen would follow a blank. */
  lemma DashNotInName(s: string)
    requires SeparatorFree(s)
    ensures !Contains(s, " - ")
  {
    forall p | 0 <= p <= |s|
      ensures !OccursAt(s, " - ", p)
    {
      SpacedDashIsLoose(s, p);
    }
    NotContains(s, " - ");
  }

  /** The hyphen of an occurrence of " - " follows a blank. */
  lemma SpacedDashIsLoose(s: string, p: nat)
    ensures OccursAt(s, " - ", p) ==> LooseDashAt(s, p + 1)
  {
    if OccursAt(s, " - ", p) {
      OccursAtIndex(s, " - ", p, 0);
      OccursAtIndex(s, " - ", p, 1);
    }
  }

  lemma NoDashBefore(o: string, d: string, p: nat)
    requires SeparatorFree(o) && SeparatorFree(d) && p < |o|
    ensures !OccursAt(o + " - " + d, " - ", p)
  {
    var w := o + " - " + d;
    assert OccursAt(w, " - ", p) ==> w[p] == ' ' && w[p + 1] == '-' by {
      if OccursAt(w, " - ", p) {
        OccursAtIndex(w, " - ", p, 0);
        OccursAtIndex(w, " - ", p, 1);
      }
    }
    assert w[p] == o[p];
    if p + 1 < |o| {
      assert w[p + 1] == o[p + 1];
      assert !LooseDashAt(o, p + 1);
    } else {
      assert w[p + 1] == ' ';
    }
  }

  /** Splitting o + " - " + d on " - " gives the two names. */
  lemma DashJoinSplit(o: string, d: string)
    requires SeparatorFree(o) && SeparatorFree(d)
    ensures Contains(o + " - " + d, " - ")
    ensures SplitOn(o + " - " + d, " - ") == [o, d]
  {
    var w := o + " - " + d;
    var n := |o|;
    assert OccursAt(w, " - ", n) by {
      assert w[n..n + 3] == " - ";
    }
    forall p | 0 <= p < n
      ensures !OccursAt(w, " - ", p)
    {
      NoDashBefore(o, d, p);
    }
    IndexOfFirst(w, " - ", n);
    assert w[n + 3..] == d;
    DashNotInName(d);
    assert w[..n] == o;
  }

  /** The first separator decides when it splits. */
  lemma DashDecides(txt: string, o: string, d: string)
    requires Trimmed(txt) && SplitBy(txt, " - ") == Some((o, d))
    ensures SplitSeparators(txt, 0) == (o, d)
  {
    assert Separators[0] == " - ";
  }

  /** A stripped label with no "to" match that " - " splits is split there. */
  lemma DashRuleDecides(txt: string, o: string, d: string)
    requires txt != [] && Strip(txt) == txt && FindTo(txt, 0) == None
    requires SplitBy(txt, " - ") == Some((o, d))
    ensures SplitRoute(txt) == (o, d)
  {
    SplitRouteNoMatch(txt);
    DashDecides(txt, o, d);
  }

  lemma DashSeparatorSplits(o: string, d: string)
    requires SeparatorFree(o) && SeparatorFree(d)
    ensures SplitBy(o + " - " + d, " - ") == Some((o, d))
  {
    DashJoinSplit(o, d);
    StripFixesTrimmed(o);
    StripFixesTrimmed(d);
    SplitByDecides(o + " - " + d, " - ", [o, d], o, d);
  }

  lemma DashJoinNoTo(o: string, d: string)
    requires PlaceName(o) && PlaceName(d)
    ensures FindTo(o + " - " + d, 0) == None
  {
    var w := o + " - " + d;
    var n := |o|;
    assert w[n] == ' ' && w[n + 1] == '-';
    forall k | 0 <= k < |w|
      ensures !ToWordAt(w, k)
    {
      WordInJoin(o, " - ", d, k);
    }
    NoToNoMatch(w);
  }

  /** "Origin - Destination" splits at the spaced hyphen. */
  lemma SplitRouteDash(o: string, d: string)
    requires PlaceName(o) && PlaceName(d)
    ensures SplitRoute(o + " - " + d) == (o, d)
  {
    var w := o + " - " + d;
    JoinStripped(o, " - ", d);
    DashJoinNoTo(o, d);
    DashSeparatorSplits(o, d);
    DashRuleDecides(w, o, d);
  }

  /** Checks, from index k on, the character conditions of a place name. */
  predicate PlainFrom(s: string, k: nat)
    decreases |s| - k
  {
    k >= |s| ||
    (!Reserved(s[k]) && (s[k] == '-' ==> k > 0 && !IsSpace(s[k - 1])) &&
     !ToWordAt(s, k) && PlainFrom(s, k + 1))
  }

  lemma {:induction false} PlainFromHolds(s: string, k: nat, j: nat)
    requires PlainFrom(s, k) && k <= j < |s|
    ensures !Reserved(s[j]) && !ToWordAt(s, j) && !LooseDashAt(s, j)
    decreases j - k
  {
    if k < j {
      PlainFromHolds(s, k + 1, j);
    }
  }

  lemma PlaceNameOf(s: string)
    requires |s| > 0 && !IsSpace(s[0]) && !IsSpace(s[|s| - 1]) && PlainFrom(s, 0)
    ensures PlaceName(s)
  {
    forall j | 0 <= j < |s|
      ensures !Reserved(s[j]) && !ToWordAt(s, j) && !LooseDashAt(s, j)
    {
      PlainFromHolds(s, 0, j);
    }
  }

  /** A "to" inside a word does not split: "Toronto" and "Boston" are
      place names, so a route between them is cut at the arrow only. */
  lemma ToInsideWordsKept()
    ensures SplitRoute("Toronto" + " -> " + "Boston") == ("Toronto", "Boston")
  {
    PlaceNameOf("Toronto");
    PlaceNameOf("Boston");
    SplitRouteArrow("Toronto", "Boston");
  }

  /** "Toronto" alone is kept whole. */
  lemma ToInsideWordKeptAlone()
    ensures SplitRoute("Toronto") == ("Toronto", "Toronto")
  {
    PlaceNameOf("Toronto");
    SplitRouteUnsplittable("Toronto");
  }
}

=== FILE: selection.dfy ===
/**
 * The small rules that decide which listings are collected (scraper.py):
 * the Bark Air route enumeration, the record built from one Bark card, the
 * scroll loop of the K9 fallback scraper, the choice between the hybrid
 * scraper's two strategies and the choice in main between the HTTP scraper
 * and the hybrid one. The browser is replaced by what it reports.
 */
module Selection {
  import opened Strings
  import opened Clean
  import Route
  import opened Cards

  // ---------------------------------------------------------------- Bark routes

  const BarkCities: seq<string> := [
    "London", "New York", "Los Angeles", "Paris",
    "San Francisco", "Madrid", "Seattle", "Honolulu",
    "Lisbon", "Kailua-Kona"
  ]

  const BarkAir := "Bark Air"
  const BarkOperator := "Gulfstream G5"

  /** The location filter of a Bark search: spaces become '+', joined by "+To+". */
  function Slug(origin: string, dest: string): (r: string)
    ensures |r| == |origin| + 4 + |dest|
    ensures forall k :: 0 <= k < |r| ==> r[k] != ' '
    ensures forall k :: 0 <= k < |origin| ==> r[k] == (if origin[k] == ' ' then '+' else origin[k])
    ensures r[|origin|..|origin| + 4] == "+To+"
    ensures forall k :: 0 <= k < |dest| ==> r[|origin| + 4 + k] == (if dest[k] == ' ' then '+' else dest[k])
  {
    ReplaceChar(origin, ' ', '+') + "+To+" + ReplaceChar(dest, ' ', '+')
  }

  /** The pairs (origin, d) for every d of dests other than origin, in order. */
  function PairsFrom(origin: string, dests: seq<string>): seq<(string, string)>
  {
    if dests == [] then []
    else
      var d := dests[|dests| - 1];
      PairsFrom(origin, dests[..|dests| - 1]) + (if origin == d then [] else [(origin, d)])
  }

  /** Every ordered pair of distinct cities, origin-major. */
  function OrderedPairs(origins: seq<string>, cities: seq<string>): seq<(string, string)>
  {
    if origins == [] then []
    else OrderedPairs(origins[..|origins| - 1], cities) + PairsFrom(origins[|origins| - 1], cities)
  }

  lemma {:induction false} PairsFromMembers(origin: string, dests: seq<string>, p: (string, string))
    ensures p in PairsFrom(origin, dests) <==> p.0 == origin && p.1 in dests && p.1 != origin
  {
    if dests != [] {
      var init := dests[..|dests| - 1];
      PairsFromMembers(origin, init, p);
      assert dests == init + [dests[|dests| - 1]];
    }
  }

  /** The searches cover exactly the ordered pairs of distinct cities. */
  lemma {:induction false} OrderedPairsMembers(origins: seq<string>, cities: seq<string>, p: (string, string))
    ensures p in OrderedPairs(origins, cities) <==> p.0 in origins && p.1 in cities && p.0 != p.1
  {
    if origins != [] {
      var init := origins[..|origins| - 1];
      OrderedPairsMembers(init, cities, p);
      PairsFromMembers(origins[|origins| - 1], cities, p);
      assert origins == init + [origins[|origins| - 1]];
    }
  }

  predicate Distinct(xs: seq<string>)
  {
    forall i, j :: 0 <= i < j < |xs| ==> xs[i] != xs[j]
  }

  lemma {:induction false} PairsFromCount(origin: string, dests: seq<string>)
    requires Distinct(dests)
    ensures |PairsFrom(origin, dests)| == if origin in dests then |dests| - 1 else |dests|
  {
    if dests != [] {
      var init := dests[..|dests| - 1];
      var d := dests[|dests| - 1];
      PairsFromCount(origin, init);
      assert dests == init + [d];
      assert d !in init by {
        forall i | 0 <= i < |init| ensures init[i] != d {
          assert init[i] == dests[i];
        }
      }
    }
  }

  /** With n distinct cities there are n * (n - 1) searches. */
  lemma {:induction false} OrderedPairsCount(origins: seq<string>, cities: seq<string>)
    requires Distinct(cities) && forall o :: o in origins ==> o in cities
    ensures |OrderedPairs(origins, cities)| == |origins| * (|cities| - 1)
  {
    if origins != [] {
      var init := origins[..|origins| - 1];
      var last := origins[|origins| - 1];
      assert forall o :: o in init ==> o in origins;
      assert last in cities;
      OrderedPairsCount(init, cities);
      PairsFromCount(last, cities);
      MulSucc(|init|, |cities| - 1);
    }
  }

  lemma MulSucc(a: nat, n: int)
    ensures (a + 1) * n == a * n + n
  {
  }

  lemma BarkSearchCount()
    ensures |OrderedPairs(BarkCities, BarkCities)| == 90
  {
    assert Distinct(BarkCities);
    OrderedPairsCount(BarkCities, BarkCities);
  }

  /** The two nested loops over the city list, skipping equal cities. */
  method BarkRoutes(cities: seq<string>) returns (routes: seq<(string, string)>)
    ensures routes == OrderedPairs(cities, cities)
  {
    routes := [];
    for i := 0 to |cities|
      invariant routes == OrderedPairs(cities[..i], cities)
    {
      var origin := cities[i];
      ghost var before := routes;
      for j := 0 to |cities|
        invariant routes == before + PairsFrom(origin, cities[..j])
      {
        assert cities[..j + 1][..j] == cities[..j];
        var dest := cities[j];
        if origin == dest {
          continue;
        }
        routes := routes + [(origin, dest)];
      }
      assert cities[..|cities|] == cities;
      assert cities[..i + 1][..i] == cities[..i];
    }
    assert cities[..|cities|] == cities;
  }

  /** The record for one Bark card: none without a flight date; a missing
      price or seat element reads as "0". */
  function BarkRecord(origin: string, dest: string, date: string, priceText: Option<string>,
                      seatsText: Option<string>, soldOutTag: bool): (r: Option<Listing>)
    ensures r.None? <==> date == []
    ensures r.Some? ==> r.value.competitor == BarkAir && r.value.operator == BarkOperator
    // A corollary of the price clause below, kept as the plain statement of when the price is missing.
    ensures r.Some? ==> r.value.price.Some? || (priceText.Some? && CleanPrice(priceText.value).None?)
    ensures r.Some? ==> r.value.seats.Some? && (r.value.status == SoldOut <==> soldOutTag)
    ensures r.Some? ==> r.value.date == date && r.value.route == origin + " -> " + dest
    ensures r.Some? ==> r.value.price == CleanPrice(if priceText.Some? then priceText.value else "0")
    ensures r.Some? ==> r.value.seats == Some(CleanSeats(if seatsText.Some? then seatsText.value else "0"))
  {
    if date == [] then None
    else
      var price := CleanPrice(if priceText.Some? then priceText.value else "0");
      assert CleanPrice("0").Some? by {
        assert KeepPriceChars("0") == "0";
        ParseDecimalNumeral("0", "");
      }
      var seats := CleanSeats(if seatsText.Some? then seatsText.value else "0");
      Some(Listing(BarkAir, date, origin + " -> " + dest, BarkOperator, price, Some(seats),
                   if soldOutTag then SoldOut else Available, None, None))
  }

  /** Every Bark city is a place name the route splitter keeps whole. */
  lemma BarkCitiesArePlaceNames()
    ensures forall c :: c in BarkCities ==> Route.PlaceName(c)
  {
    CityPair1();
    CityPair2();
    CityPair3();
    CityPair4();
    CityPair5();
  }

  // One lemma per pair of cities keeps each proof small for the solver.

  lemma CityPair1()
    ensures Route.PlaceName("London") && Route.PlaceName("New York")
  {
    Route.PlaceNameOf("London");
    Route.PlaceNameOf("New York");
  }

  lemma CityPair2()
    ensures Route.PlaceName("Los Angeles") && Route.PlaceName("Paris")
  {
    Route.PlaceNameOf("Los Angeles");
    Route.PlaceNameOf("Paris");
  }

  lemma CityPair3()
    ensures Route.PlaceName("San Francisco") && Route.PlaceName("Madrid")
  {
    Route.PlaceNameOf("San Francisco");
    Route.PlaceNameOf("Madrid");
  }

  lemma CityPair4()
    ensures Route.PlaceName("Seattle") && Route.PlaceName("Honolulu")
  {
    Route.PlaceNameOf("Seattle");
    Route.PlaceNameOf("Honolulu");
  }

  lemma CityPair5()
    ensures Route.PlaceName("Lisbon") && Route.PlaceName("Kailua-Kona")
  {
    Route.PlaceNameOf("Lisbon");
    Route.PlaceNameOf("Kailua-Kona");
  }

  /** The route text of every Bark record splits back into its two cities. */
  lemma BarkRouteSplits(origin: string, dest: string)
    requires origin in BarkCities && dest in BarkCities
    ensures Route.SplitRoute(origin + " -> " + dest) == (origin, dest)
  {
    BarkCitiesArePlaceNames();
    Route.SplitRouteArrow(origin, dest);
  }

  // ---------------------------------------------------------------- scroll loop

  const MaxScrolls := 50
  const StableRounds := 3

  /** The count seen in the previous round; 0 before the first. */
  function Previous(count: nat -> nat, i: nat): nat
  {
    if i == 0 then 0 else count(i - 1)
  }

  predicate Unchanged(count: nat -> nat, i: nat)
  {
    count(i) == Previous(count, i)
  }

  /** The number of unchanged rounds in a row ending with round i. */
  function RunLength(count: nat -> nat, i: nat): (n: nat)
    ensures n <= i + 1
  {
    if !Unchanged(count, i) then 0
    else if i == 0 then 1
    else RunLength(count, i - 1) + 1
  }

  /** Round i is the third unchanged round in a row. */
  predicate Settled(count: nat -> nat, i: nat)
  {
    RunLength(count, i) >= StableRounds
  }

  /** The number of rounds the loop runs from round i on. */
  function RoundsFrom(count: nat -> nat, i: nat): (n: nat)
    requires i < MaxScrolls
    ensures i < n <= MaxScrolls
    decreases MaxScrolls - i
  {
    if Settled(count, i) || i + 1 == MaxScrolls then i + 1 else RoundsFrom(count, i + 1)
  }

  /** The loop stops at the first settled round, or after 50 rounds. */
  lemma {:induction false} RoundsFromFirst(count: nat -> nat, i: nat)
    requires i < MaxScrolls
    ensures var n := RoundsFrom(count, i);
      (forall k :: i <= k < n - 1 ==> !Settled(count, k)) &&
      (n < MaxScrolls ==> Settled(count, n - 1))
    decreases MaxScrolls - i
  {
    if !Settled(count, i) && i + 1 < MaxScrolls {
      RoundsFromFirst(count, i + 1);
    }
  }

  /** A round is settled exactly when it and the two before it saw no change. */
  lemma SettledMeans(count: nat -> nat, i: nat)
    ensures Settled(count, i) <==> i >= 2 && Unchanged(count, i) && Unchanged(count, i - 1) && Unchanged(count, i - 2)
  {
    if i >= 2 && Unchanged(count, i) && Unchanged(count, i - 1) && Unchanged(count, i - 2) {
      assert RunLength(count, i - 2) >= 1;
      assert RunLength(count, i - 1) >= 2;
      assert RunLength(count, i) >= 3;
    }
    if Settled(count, i) {
      assert i >= 2 && Unchanged(count, i);
      assert RunLength(count, i - 1) >= 2;
      assert RunLength(count, i - 2) >= 1;
    }
  }

  /**
   * The fallback's scroll loop: each round reads the number of cards
   * (count(i) in round i), scrolls, and stops once the count has stayed
   * the same for three rounds in a row, or after 50 rounds.
   */
  method ScrollRounds(count: nat -> nat) returns (rounds: nat)
    ensures rounds == RoundsFrom(count, 0)
    ensures 1 <= rounds <= MaxScrolls
    ensures forall k :: 0 <= k < rounds - 1 ==> !Settled(count, k)
    ensures rounds < MaxScrolls ==> Settled(count, rounds - 1)
  {
    var previousCount := 0;
    var noChangeCount := 0;
    rounds := 0;
    for i := 0 to MaxScrolls
      invariant rounds == i
      invariant previousCount == Previous(count, i)
      invariant noChangeCount == if i == 0 then 0 else RunLength(count, i - 1)
      invariant i > 0 ==> !Settled(count, i - 1)
      invariant i < MaxScrolls ==> RoundsFrom(count, 0) == RoundsFrom(count, i)
      invariant i == MaxScrolls ==> RoundsFrom(count, 0) == MaxScrolls
    {
      var currentCount := count(i);
      rounds := rounds + 1;
      if currentCount == previousCount {
        noChangeCount := noChangeCount + 1;
        if noChangeCount >= StableRounds {
          RoundsFromFirst(count, 0);
          return;
        }
      } else {
        noChangeCount := 0;
      }
      previousCount := currentCount;
    }
    RoundsFromFirst(count, 0);
  }

  /** A page whose count never changes from some n > 0 settles in round 3
      (the fourth round); a page showing no cards settles in round 2. */
  lemma ScrollSettles(n: nat)
    ensures n > 0 ==> RoundsFrom(_ => n, 0) == 4
    ensures RoundsFrom(_ => 0, 0) == 3
  {
    var c: nat -> nat := _ => n;
    assert RunLength(c, 0) == (if n == 0 then 1 else 0);
    var z: nat -> nat := _ => 0;
    assert RunLength(z, 2) == 3;
  }

  /** A page that keeps growing is scrolled all 50 rounds. */
  lemma ScrollGrowing(count: nat -> nat)
    requires forall i :: count(i) > Previous(count, i)
    ensures RoundsFrom(count, 0) == MaxScrolls
  {
    RoundsFromFirst(count, 0);
  }

  // ---------------------------------------------------------------- strategy choices

  /** AJAX loading is trusted only past the 100-card page limit. */
  const AjaxLimit := 100

  /** scrape_k9_jets: the AJAX listings when there are more than 100,
      otherwise the scrolling fallback's. */
  function HybridListings(ajax: seq<Listing>, fallback: seq<Listing>): (r: seq<Listing>)
    ensures |ajax| > AjaxLimit ==> r == ajax
    ensures |ajax| <= AjaxLimit ==> r == fallback
  {
    if |ajax| > AjaxLimit then ajax else fallback
  }

  /** main: Bark first, then the HTTP listings unless they are empty, in
      which case the hybrid scraper's. */
  function MainListings(bark: seq<Listing>, http: seq<Listing>, ajax: seq<Listing>, fallback: seq<Listing>): (r: seq<Listing>)
    ensures |bark| <= |r| && r[..|bark|] == bark
    ensures http != [] ==> r[|bark|..] == http
    ensures http == [] ==> r[|bark|..] == HybridListings(ajax, fallback)
    ensures |r| == |bark| ==> http == [] && (|ajax| <= AjaxLimit && fallback == [])
  {
    bark + (if http != [] then http else HybridListings(ajax, fallback))
  }
}

=== FILE: text.dfy ===
/** Character classes and the handful of Python string operations the scraper
    relies on: str.strip, str.lower, the `in` test, str.find, str.split with a
    non-empty separator, str.replace of one character, and str.partition. */
module Strings {

  datatype Option<+T> = None | Some(value: T)

  /** Python's whitespace (str.isspace, and `\s` in a str pattern). */
  predicate IsSpace(c: char)
  {
    ('\t' <= c <= '\r') || ('\U{1C}' <= c <= ' ') || c == '\U{85}' || c == '\U{A0}'
    || c == '\U{1680}' || ('\U{2000}' <= c <= '\U{200A}') || c == '\U{2028}' || c == '\U{2029}'
    || c == '\U{202F}' || c == '\U{205F}' || c == '\U{3000}'
  }

  /** An ASCII decimal digit (`\d`, restricted to ASCII). */
  predicate IsDigit(c: char)
  {
    '0' <= c <= '9'
  }

  function DigitValue(c: char): (d: nat)
    requires IsDigit(c)
    ensures d < 10
  {
    (c as int) - ('0' as int)
  }

  predicate AllDigits(s: string)
  {
    forall i :: 0 <= i < |s| ==> IsDigit(s[i])
  }

  predicate HasDigit(s: string)
  {
    exists i :: 0 <= i < |s| && IsDigit(s[i])
  }

  /** The number written by a string of decimal digits, most significant first. */
  function DigitsValue(s: string): nat
    requires AllDigits(s)
  {
    if s == [] then 0 else 10 * DigitsValue(s[..|s| - 1]) + DigitValue(s[|s| - 1])
  }

  /** Decimal rendering of a natural number, with no leading zero. */
  function NatToString(n: nat): (s: string)
    ensures |s| > 0 && AllDigits(s)
    decreases n
  {
    if n < 10 then ['0' + n as char] else NatToString(n / 10) + ['0' + (n % 10) as char]
  }

  lemma {:induction false} NatToStringValue(n: nat)
    ensures DigitsValue(NatToString(n)) == n
    decreases n
  {
    var s := NatToString(n);
    if n >= 10 {
      NatToStringValue(n / 10);
      assert s[..|s| - 1] == NatToString(n / 10);
    }
  }

  function LowerChar(c: char): (l: char)
    ensures !('A' <= l <= 'Z')
    ensures !('A' <= c <= 'Z') ==> l == c
  {
    if 'A' <= c <= 'Z' then (c as int + 32) as char else c
  }

  /** str.lower(), on ASCII letters. */
  function Lower(s: string): (r: string)
    ensures |r| == |s|
    ensures forall i :: 0 <= i < |s| ==> r[i] == LowerChar(s[i])
  {
    seq(|s|, i requires 0 <= i < |s| => LowerChar(s[i]))
  }

  // ---------------------------------------------------------------- strip

  predicate Trimmed(s: string)
  {
    s == [] || (!IsSpace(s[0]) && !IsSpace(s[|s| - 1]))
  }

  predicate AllSpace(s: string)
  {
    forall i :: 0 <= i < |s| ==> IsSpace(s[i])
  }

  /** The end of the run of whitespace that starts at i. */
  function SpaceRunEnd(s: string, i: nat): (j: nat)
    requires i <= |s|
    ensures i <= j <= |s|
    ensures forall k :: i <= k < j ==> IsSpace(s[k])
    ensures j == |s| || !IsSpace(s[j])
    decreases |s| - i
  {
    if i < |s| && IsSpace(s[i]) then SpaceRunEnd(s, i + 1) else i
  }

  /** The start of the run of whitespace that ends at j. */
  function SpaceRunStart(s: string, j: nat): (i: nat)
    requires j <= |s|
    ensures i <= j
    ensures forall k :: i <= k < j ==> IsSpace(s[k])
    ensures i == 0 || !IsSpace(s[i - 1])
  {
    if j > 0 && IsSpace(s[j - 1]) then SpaceRunStart(s, j - 1) else j
  }

  /** str.strip(): the infix left after removing leading and trailing whitespace. */
  function Strip(s: string): (r: string)
    ensures Trimmed(r) && |r| <= |s|
  {
    var a := SpaceRunEnd(s, 0);
    if a == |s| then [] else s[a..SpaceRunStart(s, |s|)]
  }

  /** Stripping keeps the infix between the leading and the trailing run of whitespace. */
  lemma StripSlice(s: string)
    ensures exists a, b :: 0 <= a <= b <= |s| && Strip(s) == s[a..b] && AllSpace(s[..a]) && AllSpace(s[b..])
  {
    var a := SpaceRunEnd(s, 0);
    if a == |s| {
      assert Strip(s) == s[a..a] && AllSpace(s[..a]) && AllSpace(s[a..]);
    } else {
      var b := SpaceRunStart(s, |s|);
      assert Strip(s) == s[a..b] && AllSpace(s[..a]) && AllSpace(s[b..]);
    }
  }

  /** Stripping only removes whitespace: a string is left unchanged exactly
      when it has no leading or trailing whitespace. */
  lemma StripFixesTrimmed(s: string)
    ensures Strip(s) == s <==> Trimmed(s)
  {
    if Trimmed(s) && s != [] {
      assert SpaceRunEnd(s, 0) == 0;
      assert SpaceRunStart(s, |s|) == |s|;
      assert s[0..|s|] == s;
    }
  }

  lemma StripIdempotent(s: string)
    ensures Strip(Strip(s)) == Strip(s)
  {
    StripFixesTrimmed(Strip(s));
  }

  /** A string made only of whitespace strips to the empty string, and conversely. */
  lemma StripEmpty(s: string)
    ensures Strip(s) == [] <==> AllSpace(s)
  {
    if !AllSpace(s) {
      var k :| 0 <= k < |s| && !IsSpace(s[k]);
      assert SpaceRunEnd(s, 0) <= k < SpaceRunStart(s, |s|);
    }
  }

  /** Whitespace around a string without outer whitespace is exactly what
      strip removes. */
  lemma StripPadded(a: string, x: string, b: string)
    requires AllSpace(a) && AllSpace(b) && x != [] && Trimmed(x)
    ensures Strip(a + x + b) == x
  {
    var s := a + x + b;
    assert s[|a|] == x[0] && s[|a| + |x| - 1] == x[|x| - 1];
    assert SpaceRunEnd(s, 0) == |a|;
    assert SpaceRunStart(s, |s|) == |a| + |x|;
    assert s[|a|..|a| + |x|] == x;
  }

  // ---------------------------------------------------------------- search

  predicate OccursAt(s: string, p: string, i: int)
  {
    0 <= i && i + |p| <= |s| && s[i..i + |p|] == p
  }

  /** The first index at or after `from` where `p` occurs in `s` (str.find). */
  function IndexFrom(s: string, p: string, from: nat): (r: Option<nat>)
    ensures r.Some? ==> from <= r.value && OccursAt(s, p, r.value)
    ensures r.Some? ==> forall j :: from <= j < r.value ==> !OccursAt(s, p, j)
    ensures r.None? ==> forall j :: from <= j ==> !OccursAt(s, p, j)
    decreases |s| - from
  {
    if from + |p| > |s| then None
    else if s[from..from + |p|] == p then Some(from)
    else IndexFrom(s, p, from + 1)
  }

  function IndexOf(s: string, p: string): (r: Option<nat>)
  {
    IndexFrom(s, p, 0)
  }

  /** Python's `p in s`. */
  predicate Contains(s: string, p: string)
  {
    IndexOf(s, p).Some?
  }

  lemma ContainsIff(s: string, p: string)
    ensures Contains(s, p) <==> exists i :: OccursAt(s, p, i)
  {
  }

  /** A single character occurs in a string exactly where that character stands. */
  lemma ContainsChar(s: string, c: char)
    ensures Contains(s, [c]) <==> exists i :: 0 <= i < |s| && s[i] == c
  {
    if exists i :: 0 <= i < |s| && s[i] == c {
      var i :| 0 <= i < |s| && s[i] == c;
      assert OccursAt(s, [c], i);
    }
    if Contains(s, [c]) {
      var i := IndexOf(s, [c]).value;
      assert s[i] == s[i..i + 1][0];
    }
  }

  lemma OccursAtIndex(s: string, p: string, i: int, k: int)
    requires OccursAt(s, p, i) && 0 <= k < |p|
    ensures s[i + k] == p[k]
  {
    assert s[i..i + |p|][k] == s[i + k];
  }

  /** An occurrence with none before it is the one str.find reports. */
  lemma IndexOfFirst(s: string, p: string, k: nat)
    requires OccursAt(s, p, k)
    requires forall j :: 0 <= j < k ==> !OccursAt(s, p, j)
    ensures IndexOf(s, p) == Some(k)
  {
  }

  lemma NotContains(s: string, p: string)
    requires forall j :: 0 <= j <= |s| ==> !OccursAt(s, p, j)
    ensures !Contains(s, p)
  {
  }

  lemma OccursAtChar(s: string, c: char, j: int)
    ensures OccursAt(s, [c], j) <==> 0 <= j < |s| && s[j] == c
  {
    if 0 <= j < |s| {
      assert s[j..j + 1] == [s[j]];
    }
  }

  /** The first position of a character, found by str.find. */
  lemma IndexOfChar(s: string, c: char, k: nat)
    requires k < |s| && s[k] == c
    requires forall j :: 0 <= j < k ==> s[j] != c
    ensures IndexOf(s, [c]) == Some(k)
  {
    OccursAtChar(s, c, k);
    var r := IndexFrom(s, [c], 0);
    if r.Some? {
      OccursAtChar(s, c, r.value);
      if r.value < k {
        assert false;
      }
    }
  }

  lemma IndexOfCharNone(s: string, c: char)
    requires forall j :: 0 <= j < |s| ==> s[j] != c
    ensures IndexOf(s, [c]) == None
  {
    var r := IndexFrom(s, [c], 0);
    if r.Some? {
      OccursAtChar(s, c, r.value);
    }
  }

  // ---------------------------------------------------------------- split / join

  /** Python's str.split(sep) for a non-empty separator. */
  function SplitOn(s: string, sep: string): (parts: seq<string>)
    requires |sep| > 0
    ensures |parts| >= 1
    decreases |s|
  {
    match IndexFrom(s, sep, 0)
    case None => [s]
    case Some(i) => [s[..i]] + SplitOn(s[i + |sep|..], sep)
  }

  function Join(parts: seq<string>, sep: string): string
  {
    if |parts| == 0 then [] else if |parts| == 1 then parts[0] else parts[0] + sep + Join(parts[1..], sep)
  }

  /** The text before the first occurrence of `p` does not contain `p`. */
  lemma PrefixBeforeFirst(s: string, p: string, i: nat)
    requires |p| > 0 && IndexOf(s, p) == Some(i)
    ensures !Contains(s[..i], p)
  {
    forall j | 0 <= j
      ensures !OccursAt(s[..i], p, j)
    {
      if OccursAt(s[..i], p, j) {
        assert s[j..j + |p|] == s[..i][j..j + |p|];
        assert OccursAt(s, p, j);
      }
    }
  }

  lemma JoinCons(head: string, tail: seq<string>, sep: string)
    requires |tail| >= 1
    ensures Join([head] + tail, sep) == head + sep + Join(tail, sep)
  {
    assert ([head] + tail)[1..] == tail;
  }

  /** Concatenation is associative; stated once so that callers need not
      compare their sequences element by element. */
  lemma AppendAssoc<T>(x: seq<T>, y: seq<T>, z: seq<T>)
    ensures (x + y) + z == x + (y + z)
  {
  }

  /** Joining at a character the left parts lack can be undone: the first
      c marks the join. */
  lemma JoinAtFirst(a: string, b: string, a2: string, b2: string, c: char)
    requires c !in a && c !in a2
    ensures a + [c] + b == a2 + [c] + b2 <==> a == a2 && b == b2
  {
    var w, w2 := a + [c] + b, a2 + [c] + b2;
    assert w[|a|] == c && forall k :: 0 <= k < |a| ==> w[k] == a[k];
    assert w2[|a2|] == c && forall k :: 0 <= k < |a2| ==> w2[k] == a2[k];
    if w == w2 {
      assert |a| == |a2|;
      assert a == w[..|a|] && a2 == w2[..|a2|];
      assert b == w[|a| + 1..] && b2 == w2[|a2| + 1..];
    }
  }

  lemma ThreeSlices(s: string, i: nat, j: nat)
    requires i <= j <= |s|
    ensures s == s[..i] + s[i..j] + s[j..]
  {
  }

  /** Splitting loses nothing: joining the pieces with the separator gives the
      input back. */
  lemma {:induction false} SplitJoin(s: string, sep: string)
    requires |sep| > 0
    ensures Join(SplitOn(s, sep), sep) == s
    decreases |s|
  {
    var r := IndexFrom(s, sep, 0);
    if r.Some? {
      var i := r.value;
      var rest := s[i + |sep|..];
      var tail := SplitOn(rest, sep);
      calc {
        Join(SplitOn(s, sep), sep);
        Join([s[..i]] + tail, sep);
        { JoinCons(s[..i], tail, sep); }
        s[..i] + sep + Join(tail, sep);
        { SplitJoin(rest, sep); }
        s[..i] + s[i..i + |sep|] + rest;
        { ThreeSlices(s, i, i + |sep|); }
        s;
      }
    }
  }

  /** No piece of a split contains the separator. */
  lemma {:induction false} SplitPiecesFree(s: string, sep: string)
    requires |sep| > 0
    ensures forall k :: 0 <= k < |SplitOn(s, sep)| ==> !Contains(SplitOn(s, sep)[k], sep)
    decreases |s|
  {
    var r := IndexFrom(s, sep, 0);
    if r.Some? {
      var i := r.value;
      var rest := s[i + |sep|..];
      SplitPiecesFree(rest, sep);
      PrefixBeforeFirst(s, sep, i);
      var tail := SplitOn(rest, sep);
      var parts := SplitOn(s, sep);
      assert parts == [s[..i]] + tail;
      forall k | 0 < k < |parts|
        ensures !Contains(parts[k], sep)
      {
        assert parts[k] == tail[k - 1];
      }
    }
  }

  // ---------------------------------------------------------------- replace / partition

  /** str.replace(a, b) for single characters. */
  function ReplaceChar(s: string, a: char, b: char): (r: string)
    ensures |r| == |s|
    ensures forall i :: 0 <= i < |s| ==> r[i] == (if s[i] == a then b else s[i])
  {
    seq(|s|, i requires 0 <= i < |s| => if s[i] == a then b else s[i])
  }

  /** The first index at or after `from` holding c. */
  function CharFrom(s: string, c: char, from: nat): (r: Option<nat>)
    ensures r.Some? ==> from <= r.value < |s| && s[r.value] == c
    ensures r.Some? ==> forall k :: from <= k < r.value ==> s[k] != c
    ensures r.None? ==> forall k :: from <= k < |s| ==> s[k] != c
    decreases |s| - from
  {
    if from >= |s| then None
    else if s[from] == c then Some(from)
    else CharFrom(s, c, from + 1)
  }

  /** The text after the first c (str.partition(c)[2]); empty without a c. */
  function AfterFirst(s: string, c: char): string
  {
    match CharFrom(s, c, 0)
    case None => []
    case Some(i) => s[i + 1..]
  }
}
